=== FILE: README.md ===
# Understat shot scraper: text-to-table core in Dafny

This project models the pure core of the two Understat scrapers,
`scripts/understat_shots.py` and `scripts/fetch_understat.py`. Each
scraper turns a league page and per-match pages into a flat table of
shots. The steps are:

- find one of three embedded JSON shapes in the page text: a
  `var K = JSON.parse('…');` call, a `var K = {…};` / `var K = […];`
  literal, or the `window.__NUXT__ = {…};` hydration blob with its textual
  repairs;
- search the parsed JSON tree for the match-list or `{h: […], a: […]}`
  shape;
- normalise match records into `{id, round, date}` and shot records into
  16-column rows;
- apply the per-page fallback chain (legacy block, then Nuxt, then an
  error);
- select matches in `main` (round bounds, date sort, most-recent tail)
  and concatenate the rows of the matches whose fetch succeeded.

JSON is an immutable tree (`JsonTree.Json`); dicts are ordered member
lists, so insertion order is kept. Python's own semantics are written out
explicitly:

- truthiness and `a or b`;
- `dict.get` with defaults;
- `int(...)` and `float(...)` as partial conversions;
- `str(v).isdigit()` and ASCII `lower()`.

`json.loads` and the `unicode_escape` codec are opaque functions passed in
(`Externals.Codec`). Page fetching is an input: a page is `Some(text)`, or
`None` when the HTTP helper gave up. Per-record "try/except: continue" is a
filter-map whose rejected records are dropped (`Seqs.FilterMap`).

Modules follow the program's structure:

- `Wrappers`, `JsonTree`, `Seqs`, `Scan` and `PyCoerce` hold the Python
  semantics;
- `Extract` holds the three regex extractors and the Nuxt repair;
- `DeepSearch` holds `_deep_find_all` and both `_deep_find_first`
  versions;
- `Outcome`, `Matches` and `Shots` are the normalisers;
- `Sorting` and `Selection` cover the selection steps of `main`;
- `Pipeline` is the aggregation loop;
- `UnderstatShots` and `FetchUnderstat` hold each script's fetchers;
- `Variants` states where the two scripts agree and where they part.

A match whose round is unknown or 0 reads as round `10**9` under the
upper bound (`(m["round"] or 10**9) <= to_round`). Every upper bound
below `10**9` therefore excludes it, and so does every positive lower
bound (`Selection.UnknownRoundExcluded`). Outcome labels missing from
the mapping table pass through in canonical form: the site's
`"MissedShots"` becomes `"missedshots"`.

## Model

| member | source | states |
|---|---|---|
| JsonTree.Lookup | scripts/understat_shots.py:155 | `dict.get` finds a value exactly when the key is present, and the value is one stored under that key |
| JsonTree.Iteration | scripts/fetch_understat.py:233-234 | `for x in v` raises exactly for None, bools and numbers; a list yields its items, a string its one-character strings in order, and a dict its keys in insertion order |
| Seqs.FilterMapIsOrderedImage | scripts/understat_shots.py:136-150 | the "convert each record, skip the ones that raise" loop returns, in input order, exactly the images of the records that convert |
| Seqs.FilterMapNonEmpty | scripts/understat_shots.py:136-150 | the skip-on-error loop returns something exactly when some record converts |
| Seqs.FilterCommute | scripts/understat_shots.py:266-269 | two list-comprehension filters applied in sequence commute |
| Scan.SkipSpace | scripts/understat_shots.py:70 | `\s*` stops at the first non-space at or after the start, and everything skipped is whitespace |
| Scan.FindTerm | scripts/understat_shots.py:70 | lazy `.*?` followed by a terminator finds the leftmost terminator occurrence, or reports that none exists |
| Scan.ReplaceAllWithoutOccurrence | scripts/understat_shots.py:95 | `str.replace` leaves a text with no occurrence of the pattern unchanged |
| Scan.ReplaceAllRemovesEveryOccurrence | scripts/understat_shots.py:95 | after replacing `": undefined"` by `": null"` no occurrence of the pattern is left, including ones the rewriting could create |
| Scan.StripCommaKeepsEssence | scripts/understat_shots.py:100-101 | `re.sub(r",\s*}", "}")` changes only commas and whitespace: the text with those removed is unchanged |
| Scan.StripCommaWithoutCommas | scripts/understat_shots.py:100-101 | the trailing-comma substitution leaves a comma-free text unchanged |
| Scan.StripCommaIsSinglePass | scripts/understat_shots.py:100 | the substitution is one left-to-right pass: `",,}"` becomes `",}"`, not `"}"` |
| PyCoerce.NatTextRoundTrip | scripts/understat_shots.py:175 | the decimal text of a natural number is all digits and reads back as the same number |
| PyCoerce.IntTextRoundTrip | scripts/understat_shots.py:140 | `int(str(n)) == n` for every integer |
| PyCoerce.StripSpaceRemovesPadding | scripts/understat_shots.py:140 | `int()` ignores surrounding whitespace: padding around a core without edge spaces is removed exactly |
| PyCoerce.Trunc | scripts/understat_shots.py:169 | `int(float)` truncates toward zero |
| PyCoerce.FloatOfIntText | scripts/understat_shots.py:160 | `float(str(n)) == n` for every integer |
| PyCoerce.FloatOfFraction | scripts/understat_shots.py:160 | `float("0.25") == 0.25` |
| PyCoerce.FloatOfSignedExponent | scripts/understat_shots.py:160 | `float(" -1.5e1 ") == -15.0`: sign, exponent and padding are read |
| PyCoerce.StrIsDigitOfInt | scripts/understat_shots.py:174-175 | `str(n).isdigit()` holds for an int exactly when it is not negative |
| PyCoerce.StrIsDigitConverts | scripts/understat_shots.py:174-175 | a value passing the digit test always converts with `int()`, to a non-negative number |
| Extract.MatchAt | scripts/understat_shots.py:70 | the three regex shapes at one position: any capture is a valid span of the page (completeness is stated by the `*Found` lemmas) |
| Extract.VarDeclFound | scripts/understat_shots.py:70 | a `var`, at least one space, the key, spaces, `=` and spaces laid out at a position make the declaration prefix match there, with the value where the layout puts it |
| Extract.VarDeclSound | scripts/understat_shots.py:70 | conversely, whenever the declaration prefix matches it is laid out that way |
| Extract.JsonParseFound | scripts/understat_shots.py:68-74 | a `var KEY = JSON.parse('…');` declaration on the page is matched at its position, its capture starts after `JSON.parse('` and ends at or before the `');`, and the search finds a block |
| Extract.LiteralFound | scripts/understat_shots.py:81-85 | a `var KEY = {…};` or `var KEY = […];` declaration on the page is matched at its position with a capture starting at the bracket, and the search finds a block |
| Extract.NuxtFound | scripts/understat_shots.py:87-91 | a `window.__NUXT__ = {…};` assignment on the page is matched at its position with a capture starting at the brace, and the search finds a blob |
| Extract.SearchFrom | scripts/understat_shots.py:71 | a hit from `re.search` is a position at or after the start where the pattern matches, with that match's capture |
| Extract.SearchFromIsLeftmost | scripts/understat_shots.py:71 | `re.search` is leftmost: no earlier position matches, and no hit means no position matches |
| Extract.JsonParseCaptureShape | scripts/understat_shots.py:70-74 | the JSON.parse capture is non-empty, follows `JSON.parse('`, is followed by `');`, and is the shortest such text |
| Extract.LiteralCaptureShape | scripts/understat_shots.py:81-85 | the literal capture is `{…}` or `[…]`, is followed by `;`, and is the shortest such span |
| Extract.NuxtCaptureShape | scripts/understat_shots.py:89-94 | the Nuxt capture is the shortest `{…}` followed by `;` |
| Extract.KeyEndsAtBoundary | scripts/understat_shots.py:70 | a declaration matches only when the key is followed by whitespace or `=` |
| Extract.MatchesKeyIgnoresMatchesData | scripts/understat_shots.py:191-192 | searching for `matches` never matches at a `var matchesData` declaration |
| Extract.ParseBlockLenient | scripts/understat_shots.py:68-79 | no result exactly when no JSON.parse block exists; when unescaping raises, the raw capture is returned |
| Extract.ParseBlockStrict | scripts/fetch_understat.py:72-83 | an unescape failure on a present block is an error, and "no block" is reported exactly when none exists |
| Extract.BlockVariantsAgree | scripts/fetch_understat.py:72-83 | the two extractor variants give the same text unless the codec raises on a present JSON.parse block |
| Extract.NuxtDocument | scripts/understat_shots.py:87-104 | no blob means no document; the first text parsed is the capture with every `: undefined` made `: null`, and it is the document whenever it parses; any document found parses from a text that differs from that one only in commas and whitespace; the comma-stripped text is tried only when the first parse fails |
| Extract.NuxtRepairProperties | scripts/fetch_understat.py:102-109 | the first parsed text has no `": undefined"` left, and the second differs from it only in commas and whitespace |
| Extract.ShotsDataExample | scripts/understat_shots.py:224 | on `var shotsData = JSON.parse('{"h":[],"a":[]}');` the extractor captures `{"h":[],"a":[]}` |
| DeepSearch.FindAll | scripts/understat_shots.py:106-119 | every node found satisfies the predicate, and the root comes first when it does |
| DeepSearch.FindAllIsFilteredPreOrder | scripts/understat_shots.py:106-119 | `_deep_find_all` is the pre-order walk (node, then dict values or list items in order) filtered by the predicate |
| DeepSearch.FindAllIsStackWalk | scripts/understat_shots.py:106-119 | the recursive search equals an independent explicit-stack depth-first walk |
| DeepSearch.FindFirstViaAllIsFirstPreOrderMatch | scripts/understat_shots.py:121-123 | `_deep_find_first` returns the first pre-order match, or None when there is none |
| DeepSearch.FindFirstViaAll | scripts/understat_shots.py:121-123 | a node returned satisfies the shape predicate and is not null |
| DeepSearch.FindFirstEarly | scripts/fetch_understat.py:115-134 | the early-return search only returns a non-null node satisfying the predicate |
| DeepSearch.FindFirstEarlyIsHeadOfFindAll | scripts/fetch_understat.py:115-134 | the early-return search returns the first non-null pre-order match |
| DeepSearch.FindFirstVariantsAgree | scripts/fetch_understat.py:115-134 | the two `_deep_find_first` versions agree whenever the predicate rejects null |
| DeepSearch.FindFirstVariantsDifferOnNull | scripts/understat_shots.py:121-123 | they disagree on a predicate accepting null: one answers None, the other goes on to the next match |
| DeepSearch.ShapePredicatesRejectNull | scripts/understat_shots.py:205-211 | neither shape predicate accepts null, so the agreement applies to both fallbacks |
| Outcome.Canonical | scripts/understat_shots.py:127 | the canonical label has the input's length; each space becomes `_`, each ASCII capital its lower-case letter, and every other character is kept |
| Outcome.NormalizeOutcome | scripts/understat_shots.py:126-134 | the result is non-empty, lower-case and space-free; it is a vocabulary word or the unmapped label in canonical form |
| Outcome.OutcomeTable | scripts/understat_shots.py:126-134 | each vocabulary word comes exactly from its listed labels; `""` gives `unknown`; any other label passes through |
| Outcome.OutcomeOf | scripts/understat_shots.py:173 | a falsy result gives `unknown`; a truthy non-string raises, which drops the shot |
| Outcome.NormalizeOutcomeIdempotent | scripts/fetch_understat.py:137-145 | normalising a normalised label returns it unchanged |
| Outcome.OutcomeExamples | scripts/understat_shots.py:126-134 | `Goal` gives `goal`, `Shot On Post` gives `off_target`, `""` gives `unknown`, `MissedShots` passes through as `missedshots` |
| Matches.NormalizeMatch | scripts/understat_shots.py:138-149 | a record is kept exactly when it is a dict whose id converts with `int()`; the kept record has that id, the round of the first truthy key among `round`, `round_number` and `week`, and the date `datetime or date or ""` |
| Matches.DateOf | scripts/understat_shots.py:149 | the date is `datetime` if truthy, else `date` if truthy, else `""` |
| Matches.RoundPriority | scripts/understat_shots.py:144 | the round comes from the first truthy key among `round`, `round_number` and `week` |
| Matches.RoundOfFalsy | scripts/understat_shots.py:144-148 | when no round key is truthy, the round is unknown or 0 |
| Matches.NormalizeMatchesJson | scripts/fetch_understat.py:181-195 | a list is normalised item by item; a string or dict yields nothing; a scalar raises |
| Matches.NormalizeMatchesNonEmpty | scripts/understat_shots.py:136-150 | the normalised list is non-empty exactly when some record's id converts |
| Matches.NormalizeMatchesJsonNonEmpty | scripts/fetch_understat.py:181-195 | a parsed value normalises to a non-empty list exactly when it is a list holding a record whose id converts |
| Matches.NormalizeMatchesIsOrderedImage | scripts/understat_shots.py:136-150 | the output is an order-preserving image of the records, and a record is missing exactly when its id fails |
| Matches.NormalizeMatchesKeepsGoodIds | scripts/understat_shots.py:138-143 | when every id converts, every record is kept, in order, with its id |
| Matches.NormalizeMatchExample | scripts/understat_shots.py:136-150 | `{"id":"101","round":"3","datetime":…}` becomes `{101, 3, …}` |
| Shots.PenaltyFlag | scripts/understat_shots.py:174 | `is_penalty` holds exactly when the key is present, its text is all digits and it is not 0 |
| Shots.PlayerIdOf | scripts/understat_shots.py:175 | `player_id` is set exactly when its text is all digits, and it is then that non-negative number |
| Shots.NormalizeShot | scripts/understat_shots.py:158-183 | a record is kept exactly when every coercion succeeds. A kept row has the argument match id, `x = x*105`, `y = (1-y)*68`, the minute truncated toward zero and the xG as read, the normalised outcome and the flags gated by the digit test. Each text column (`date`, `player`, `team`, `h_a`, `situation`, `shotType`, `assisted_by` from `player_assisted`, `lastAction`) is the stored value when truthy, otherwise `""` |
| Shots.NormalizeShotsChecked | scripts/understat_shots.py:152-184 | a non-dict container raises; otherwise every row carries the match id |
| Shots.NormalizeShotsUnchecked | scripts/fetch_understat.py:231-261 | it returns exactly when the container is a dict and both sides are iterable, and every row carries the match id |
| Shots.CheckedSide | scripts/understat_shots.py:155-157 | a side that is not a list contributes no row |
| Shots.CheckedSideOrder | scripts/understat_shots.py:154-158 | all rows of `h` precede all rows of `a` |
| Shots.CheckedSideNonEmpty | scripts/understat_shots.py:155-183 | a list-checked side contributes rows exactly when it is a list holding a record that converts |
| Shots.CheckedRowsNonEmpty | scripts/understat_shots.py:152-184 | a dict container gives rows exactly when one of its sides is a list holding a record that converts |
| Shots.SideRowsIsOrderedImage | scripts/understat_shots.py:158-183 | within a side, rows follow record order, and a record is missing exactly when it does not convert |
| Shots.PitchTransform | scripts/understat_shots.py:160-163 | the pitch transform inverts to the raw coordinates, and unit-square input lands in 105 x 68 |
| Shots.ShotVariantsAgree | scripts/fetch_understat.py:231-261 | whenever the unchecked normaliser returns, its rows equal the checked one's |
| Shots.ShotVariantsDisagreeOnScalarSide | scripts/fetch_understat.py:234 | on a scalar side the checked variant skips it and the unchecked one raises |
| Shots.PlayerIdCases | scripts/understat_shots.py:175 | a one-key record has a player id exactly for a non-empty digit string or a non-negative int; an absent key gives none |
| Sorting.SortByIsSorted | scripts/understat_shots.py:271 | the sorted list is in code-point order of the keys |
| Sorting.SortBy | scripts/understat_shots.py:271 | sorting permutes the list: same length, same multiset |
| Sorting.SortByIsStable | scripts/understat_shots.py:271 | matches with equal keys keep their input order |
| Sorting.LexLeTotal | scripts/understat_shots.py:271 | Python string comparison is total |
| Sorting.LexLeTransitive | scripts/understat_shots.py:271 | Python string comparison is transitive |
| Sorting.LexLeAntisymmetric | scripts/understat_shots.py:271 | Python string comparison is antisymmetric |
| Sorting.SortBySorted | scripts/understat_shots.py:271 | an already ordered list is left as it is |
| Selection.RoundOr | scripts/understat_shots.py:267 | `round or default`: an unknown round and round 0 both read as the default |
| Selection.KeepFromExactly | scripts/understat_shots.py:266-267 | the lower bound keeps a match exactly when `(round or 0) >= from_round` |
| Selection.KeepToExactly | scripts/understat_shots.py:268-269 | the upper bound keeps a match exactly when `(round or 10**9) <= to_round` |
| Selection.UnknownRoundExcluded | scripts/understat_shots.py:266-269 | an unknown or 0 round is excluded by every upper bound below 10**9 and every positive lower bound |
| Selection.RoundFiltersCommute | scripts/understat_shots.py:266-269 | the two round filters can be applied in either order |
| Selection.SortByDate | scripts/understat_shots.py:271 | string dates are sorted as a permutation; a sort of two or more matches with a non-string date raises |
| Selection.SortByDateStable | scripts/understat_shots.py:271 | the date sort keeps, for each date, the input order |
| Selection.TailSlice | scripts/understat_shots.py:273 | `s[-n:]` is a suffix: the last `min(n, len)` items for positive `n`, all but the first `-n` for negative `n` |
| Selection.Limit | scripts/understat_shots.py:272-273 | without a (truthy) limit the list is unchanged; with one the result is a suffix |
| Selection.LimitKeepsLatest | scripts/understat_shots.py:272-273 | a positive limit N keeps the last `min(N, len)` matches |
| Selection.Select | scripts/understat_shots.py:265-276 | a selection that does not exit is non-empty, no longer than the input, and at most N long under a positive limit |
| Selection.SelectSound | scripts/understat_shots.py:265-276 | the selected matches are a sub-multiset of the input, date-ordered and within both bounds |
| Selection.SelectEmptyExit | scripts/understat_shots.py:275-276 | the "no matches" exit is taken exactly when nothing is left after the tail |
| Pipeline.Collect | scripts/understat_shots.py:278-286 | the loop collects the rows of the successful fetches in order, and the ids of the failed ones |
| Pipeline.RowsComeFromSelected | scripts/understat_shots.py:278-286 | each collected row comes from the successful fetch of a selected match |
| Pipeline.SkippedAreFailures | scripts/fetch_understat.py:291-299 | an id is reported skipped exactly when it is selected and its fetch failed |
| Pipeline.RowsBelongToSelected | scripts/fetch_understat.py:291-299 | when fetches label rows with their id, every row's match id is a selected match's |
| Pipeline.Run | scripts/understat_shots.py:263-290 | a league failure aborts the run; a run that produces a table has at least one row |
| Pipeline.RunOutcome | scripts/understat_shots.py:278-290 | after a successful selection, the run gives the concatenated rows and the skipped ids, or "no shots" when there are no rows |
| Pipeline.TwoMatchScenario | scripts/understat_shots.py:278-290 | two matches, one with three rows including a goal and one failing: the table has the three rows and one match is skipped |
| UnderstatShots.LegacyMatches | scripts/understat_shots.py:191-201 | a legacy key answers exactly when its truthy block parses to a list holding a record whose id converts, and then with every convertible record of that list; a parse or iteration error is swallowed |
| UnderstatShots.NuxtMatches | scripts/understat_shots.py:203-217 | the Nuxt fallback answers exactly when the list found by the full-list search holds a record whose id converts, and then with that list normalised |
| UnderstatShots.FetchLeagueMatches | scripts/understat_shots.py:187-219 | `matchesData` is tried first, then `matches`, then Nuxt, and the first to yield a non-empty list is returned as it is; an error means all three failed |
| UnderstatShots.FetchLeagueMatchesIsFirstSource | scripts/understat_shots.py:190-219 | the league fetch equals the first present answer of the three sources in that order, and "not recognised" when none answers |
| UnderstatShots.LegacyShots | scripts/understat_shots.py:224-233 | the legacy shot source answers exactly when its block parses to a dict one of whose sides is a list holding a record that converts, and then with that dict's list-checked rows |
| UnderstatShots.NuxtShots | scripts/understat_shots.py:235-246 | the Nuxt shot source answers exactly when one side of the container found by the full-list search holds a record that converts, and then with that container's list-checked rows |
| UnderstatShots.FetchMatchShots | scripts/understat_shots.py:221-248 | the legacy rows are tried first and returned when present, otherwise the Nuxt rows; an error means both failed; rows are non-empty and labelled with the match id |
| UnderstatShots.FetchMatchShotsIsFirstSource | scripts/understat_shots.py:224-248 | the match fetch equals the first present answer of legacy then Nuxt, and "not recognised" when neither answers |
| UnderstatShots.Main | scripts/understat_shots.py:251-290 | a missing league page aborts; the league step never aborts on an unescape error; a finished run has rows |
| UnderstatShots.MainRowsBelongToSelected | scripts/understat_shots.py:278-286 | every row in the table belongs to a selected match |
| FetchUnderstat.LeagueBlock | scripts/fetch_understat.py:156-158 | `matchesData` text is the answer when present; when `matchesData` gives no text, the `matches` block is read; an unescape failure on `matchesData` ends the fetch |
| FetchUnderstat.LegacyMatches | scripts/fetch_understat.py:156-164 | the legacy league source fails exactly when the league block's unescape fails; otherwise it answers exactly when the block parses to a list, string or dict, with that list normalised (nothing for a string or dict), even when nothing survives |
| FetchUnderstat.NuxtMatches | scripts/fetch_understat.py:166-177 | the Nuxt league fallback answers exactly when the blob parses to a truthy document in which the early-return search finds a match list, and then with that list normalised, even when nothing survives |
| FetchUnderstat.FetchLeagueMatches | scripts/fetch_understat.py:148-179 | an unescape failure in the legacy block ends the fetch; a parsed legacy list is returned even if empty; otherwise the Nuxt list, or "not recognised" |
| FetchUnderstat.FetchLeagueMatchesIsFirstSource | scripts/fetch_understat.py:155-179 | apart from the unescape abort, the league fetch equals the first present answer of legacy then Nuxt, and "not recognised" when neither answers |
| FetchUnderstat.LegacyShots | scripts/fetch_understat.py:206-212 | the legacy shot source fails exactly on unescape; otherwise it answers exactly when the block parses to a dict whose two sides can be iterated, with the same rows as the list-checked normaliser, each carrying the match id |
| FetchUnderstat.NuxtShots | scripts/fetch_understat.py:215-227 | the Nuxt shot source answers exactly when the early-return search finds a shot container, and then with that container's rows, even when there are none; each row carries the match id |
| FetchUnderstat.ShotContainerIterates | scripts/fetch_understat.py:218-234 | a node of the shot shape normalises without raising |
| FetchUnderstat.FetchMatchShots | scripts/fetch_understat.py:198-229 | an unescape failure in the legacy block ends the fetch; a parsed legacy container is returned even with no rows; otherwise the Nuxt rows, or "not recognised" |
| FetchUnderstat.FetchMatchShotsIsFirstSource | scripts/fetch_understat.py:205-229 | apart from the unescape abort, the match fetch equals the first present answer of legacy then Nuxt, and "not recognised" when neither answers |
| FetchUnderstat.Main | scripts/fetch_understat.py:264-303 | a missing league page aborts; with a page, the league step aborts only on an unescape error or an unrecognised format; a finished run has rows |
| FetchUnderstat.MainRowsBelongToSelected | scripts/fetch_understat.py:291-299 | every row in the table belongs to a selected match |
| Variants.EmptyShotContainerDisagrees | scripts/fetch_understat.py:206-212 | `{"h":[],"a":[]}` without Nuxt: one script returns no rows, the other reports the format unrecognised |
| Variants.LegacyShotsAgree | scripts/understat_shots.py:224-233 | with legacy rows, no unescape error and no scalar side, both scripts return the same rows |
| Variants.UnescapeFailureDisagrees | scripts/fetch_understat.py:82 | an unescape failure aborts the match in one script, while the other goes on with the raw capture |
| Variants.EmptyMatchListDisagrees | scripts/fetch_understat.py:159-163 | an empty `matchesData` list is the answer in one script, while the other moves on and can only succeed with a non-empty list |
| Variants.MatchesKeyIgnoredAfterMatchesData | scripts/fetch_understat.py:156-158 | once `matchesData` yields text, `matches` is never consulted |
| Variants.LegacyMatchesAgree | scripts/understat_shots.py:191-198 | with a non-empty normalised `matchesData` list and no unescape error, both scripts return it |
| Variants.NuxtMatchesVariants | scripts/fetch_understat.py:167-177 | the Nuxt league fallbacks find the same list; one script additionally rejects an empty normalisation |
| Variants.NuxtShotsVariants | scripts/fetch_understat.py:215-227 | the Nuxt shot fallbacks give the same rows; one script additionally rejects an empty result |

## Left out

- HTTP fetching (`_get`: cloudscraper, headers, retries with backoff and jitter, debug HTML dumps) is an input. A page is given as text, or as absent when the fetch gave up.
- `time.sleep`, `tqdm`, the `print` warnings, `argparse`, `os.makedirs` and the CSV write are I/O. The column list is the constant `Shots.Columns`; the pandas DataFrame and its column projection are not modelled.
- `json.loads` and the `unicode_escape` codec are opaque functions in `Externals.Codec`. No JSON parser or codec is re-implemented, so the repaired Nuxt text is not shown to parse.
- Shots.NormalizeShot: `round(x, 4)` and `round(y, 4)` are not modelled, and coordinates and xG are exact reals rather than IEEE doubles. `float()` of `inf`, `nan`, hex or underscore forms is not modelled, and neither is `int()` of underscored text.
- PyCoerce.Lower: `str.lower`, `str.isdigit`, `\s` and `str.strip` use their ASCII meaning. Unicode letters, digits such as superscripts and Unicode spaces are not modelled.
- Selection.SortByDate: with two or more matches where some date is not a string, the model reports a failed sort. Python would sort a list whose dates are all numbers, or all lists; dates come from page JSON and are strings in practice.
- JsonTree.Lookup: a JSON object with a repeated key keeps its first member, whereas `json.loads` keeps the last. Duplicate keys are not modelled faithfully.
- Extract.MatchAt: a declaration key is matched literally; `re.escape` is the identity for the keys used (`matchesData`, `matches`, `shotsData`).
- Extract.VarDeclFound: completeness is stated for keys that do not start with whitespace, which all three keys satisfy. For such a key greedy `\s+` never has to give back a character; other keys are not modelled.
- DeepSearch.FindAll: `RecursionError` on very deep JSON, and the `except Exception: pass` around the walk, are not modelled. The predicates used cannot raise on the modelled tree.
- Pipeline.Run: `int(m["id"])` in the per-match loop is the identity, because normalised ids are already ints. A league failure is one error value, which stands for the uncaught exception that ends the run.

=== FILE: deep_search.dfy ===
/** Depth-first search over a JSON tree with an injected shape predicate,
    and the two shape predicates the scrapers search the Nuxt blob with. */
module DeepSearch {
  import opened Wrappers
  import opened JsonTree
  import opened Seqs

  /** Every node of the tree, each before its children, dict values and
      list items in order. */
  function PreOrder(j: Json): (r: seq<Json>)
    ensures |r| >= 1 && r[0] == j
    decreases j, 1
  {
    [j] + PreOrderFrom(j, 0)
  }

  /** Pre-order of the children of `parent` from index `i` on. */
  function PreOrderFrom(parent: Json, i: nat): seq<Json>
    decreases parent, 0, |Children(parent)| - i
  {
    if i >= |Children(parent)| then []
    else PreOrder(Children(parent)[i]) + PreOrderFrom(parent, i + 1)
  }

  /** `_deep_find_all` (scripts/understat_shots.py): the node itself when
      `pred` holds, then the matches under each child in order. The
      predicates used never raise, so the `except` arm is not reachable. */
  function FindAll(j: Json, p: Json -> bool): (r: seq<Json>)
    ensures forall k :: 0 <= k < |r| ==> p(r[k])
    ensures p(j) ==> |r| > 0 && r[0] == j
    decreases j, 1
  {
    (if p(j) then [j] else []) + FindAllFrom(j, 0, p)
  }

  function FindAllFrom(parent: Json, i: nat, p: Json -> bool): (r: seq<Json>)
    ensures forall k :: 0 <= k < |r| ==> p(r[k])
    decreases parent, 0, |Children(parent)| - i
  {
    if i >= |Children(parent)| then []
    else FindAll(Children(parent)[i], p) + FindAllFrom(parent, i + 1, p)
  }

  /** The search result is exactly the pre-order nodes satisfying `pred`. */
  lemma {:induction false} FindAllIsFilteredPreOrder(j: Json, p: Json -> bool)
    ensures FindAll(j, p) == Filter(PreOrder(j), p)
    decreases j, 1
  {
    FindAllFromIsFiltered(j, 0, p);
    FilterAppend([j], PreOrderFrom(j, 0), p);
    assert Filter([j], p) == if p(j) then [j] else [] by {
      assert [j][1..] == [];
    }
  }

  lemma {:induction false} FindAllFromIsFiltered(parent: Json, i: nat, p: Json -> bool)
    ensures FindAllFrom(parent, i, p) == Filter(PreOrderFrom(parent, i), p)
    decreases parent, 0, |Children(parent)| - i
  {
    if i < |Children(parent)| {
      var c := Children(parent)[i];
      FindAllIsFilteredPreOrder(c, p);
      FindAllFromIsFiltered(parent, i + 1, p);
      FilterAppend(PreOrder(c), PreOrderFrom(parent, i + 1), p);
    }
  }

  /** A found value as Python sees it: a JSON null is Python's None, which
      the callers cannot tell apart from "nothing found". */
  function AsPython(j: Json): (r: Option<Json>)
    ensures r.None? <==> j.JNull?
    ensures r.Some? ==> r.value == j
  {
    if j.JNull? then None else Some(j)
  }

  /** `_deep_find_first` of scripts/understat_shots.py: the first element of
      the full `_deep_find_all` list. */
  function FindFirstViaAll(j: Json, p: Json -> bool): (r: Option<Json>)
    ensures r.Some? ==> p(r.value) && !r.value.JNull?
  {
    var found := FindAll(j, p);
    if |found| == 0 then None else AsPython(found[0])
  }

  /** `_deep_find_first` of scripts/fetch_understat.py: test the node, then
      recurse into each child and return the first child result that is not
      None. */
  function FindFirstEarly(j: Json, p: Json -> bool): (r: Option<Json>)
    ensures r.Some? ==> p(r.value) && !r.value.JNull?
    decreases j, 1
  {
    if p(j) then AsPython(j) else FindFirstEarlyFrom(j, 0, p)
  }

  function FindFirstEarlyFrom(parent: Json, i: nat, p: Json -> bool): (r: Option<Json>)
    ensures r.Some? ==> p(r.value) && !r.value.JNull?
    decreases parent, 0, |Children(parent)| - i
  {
    if i >= |Children(parent)| then None
    else
      var r := FindFirstEarly(Children(parent)[i], p);
      if r.Some? then r else FindFirstEarlyFrom(parent, i + 1, p)
  }

  /** The matches-list shape: a non-empty list whose first item is a dict
      with an `id` key and one of `round`, `round_number`, `week`. */
  predicate LooksLikeMatches(x: Json) {
    && x.JArr?
    && |x.elems| > 0
    && x.elems[0].JObj?
    && HasKey(x.elems[0].members, "id")
    && (HasKey(x.elems[0].members, "round")
        || HasKey(x.elems[0].members, "round_number")
        || HasKey(x.elems[0].members, "week"))
  }

  /** The shots-container shape: a dict with keys `h` and `a`, both lists. */
  predicate LooksLikeShots(x: Json) {
    && x.JObj?
    && HasKey(x.members, "h")
    && HasKey(x.members, "a")
    && Get(x.members, "h").JArr?
    && Get(x.members, "a").JArr?
  }

  /** The first element of a sequence, as an option. */
  function Head(s: seq<Json>): Option<Json> {
    if |s| == 0 then None else Some(s[0])
  }

  lemma {:induction false} FilterHeadIsFirstMatch(s: seq<Json>, p: Json -> bool, k: nat)
    requires k < |s| && p(s[k])
    requires forall m :: 0 <= m < k ==> !p(s[m])
    ensures |Filter(s, p)| > 0 && Filter(s, p)[0] == s[k]
    decreases k
  {
    if k > 0 {
      FilterHeadIsFirstMatch(s[1..], p, k - 1);
    }
  }

  lemma {:induction false} FilterEmptyWhenNoMatch(s: seq<Json>, p: Json -> bool)
    requires forall m :: 0 <= m < |s| ==> !p(s[m])
    ensures Filter(s, p) == []
    decreases |s|
  {
    if |s| > 0 {
      FilterEmptyWhenNoMatch(s[1..], p);
    }
  }

  /** `_deep_find_first` of scripts/understat_shots.py returns the first
      pre-order node satisfying `pred` (as Python sees it), and None when
      no node satisfies it. */
  lemma FindFirstViaAllIsFirstPreOrderMatch(j: Json, p: Json -> bool)
    ensures forall k :: 0 <= k < |PreOrder(j)| && p(PreOrder(j)[k])
                        && (forall m :: 0 <= m < k ==> !p(PreOrder(j)[m]))
                        ==> FindFirstViaAll(j, p) == AsPython(PreOrder(j)[k])
    ensures (forall k :: 0 <= k < |PreOrder(j)| ==> !p(PreOrder(j)[k]))
            ==> FindFirstViaAll(j, p) == None
  {
    EveryFirstMatchFound(j, p);
    NoMatchGivesNone(j, p);
  }

  lemma EveryFirstMatchFound(j: Json, p: Json -> bool)
    ensures forall k :: 0 <= k < |PreOrder(j)| && p(PreOrder(j)[k])
                        && (forall m :: 0 <= m < k ==> !p(PreOrder(j)[m]))
                        ==> FindFirstViaAll(j, p) == AsPython(PreOrder(j)[k])
  {
    forall k | 0 <= k < |PreOrder(j)| && p(PreOrder(j)[k]) && (forall m :: 0 <= m < k ==> !p(PreOrder(j)[m]))
      ensures FindFirstViaAll(j, p) == AsPython(PreOrder(j)[k])
    {
      FirstMatchFound(j, p, k);
    }
  }

  lemma NoMatchGivesNone(j: Json, p: Json -> bool)
    ensures (forall k :: 0 <= k < |PreOrder(j)| ==> !p(PreOrder(j)[k]))
            ==> FindFirstViaAll(j, p) == None
  {
    if forall k :: 0 <= k < |PreOrder(j)| ==> !p(PreOrder(j)[k]) {
      NoMatchFound(j, p);
    }
  }

  lemma FirstMatchFound(j: Json, p: Json -> bool, k: nat)
    requires k < |PreOrder(j)| && p(PreOrder(j)[k])
    requires forall m :: 0 <= m < k ==> !p(PreOrder(j)[m])
    ensures FindFirstViaAll(j, p) == AsPython(PreOrder(j)[k])
  {
    FindAllIsFilteredPreOrder(j, p);
    FilterHeadIsFirstMatch(PreOrder(j), p, k);
  }

  lemma NoMatchFound(j: Json, p: Json -> bool)
    requires forall k :: 0 <= k < |PreOrder(j)| ==> !p(PreOrder(j)[k])
    ensures FindFirstViaAll(j, p) == None
  {
    FindAllIsFilteredPreOrder(j, p);
    FilterEmptyWhenNoMatch(PreOrder(j), p);
  }

  /** When `pred` rejects null, the early-return search finds the head of
      the full search. */
  lemma {:induction false} FindFirstEarlyIsHeadOfFindAll(j: Json, p: Json -> bool)
    requires !p(JNull)
    ensures FindFirstEarly(j, p) == Head(FindAll(j, p))
    decreases j, 1
  {
    if !p(j) {
      FindFirstEarlyFromIsHead(j, 0, p);
    }
  }

  lemma {:induction false} FindFirstEarlyFromIsHead(parent: Json, i: nat, p: Json -> bool)
    requires !p(JNull)
    ensures FindFirstEarlyFrom(parent, i, p) == Head(FindAllFrom(parent, i, p))
    decreases parent, 0, |Children(parent)| - i
  {
    if i < |Children(parent)| {
      var c := Children(parent)[i];
      FindFirstEarlyIsHeadOfFindAll(c, p);
      FindFirstEarlyFromIsHead(parent, i + 1, p);
      HeadAppend(FindAll(c, p), FindAllFrom(parent, i + 1, p));
    }
  }

  lemma HeadAppend(a: seq<Json>, b: seq<Json>)
    ensures Head(a + b) == if |a| > 0 then Some(a[0]) else Head(b)
  {
    if |a| == 0 {
      assert a + b == b;
    }
  }

  /** The two `_deep_find_first` implementations agree whenever the
      predicate never holds of a null node. */
  lemma FindFirstVariantsAgree(j: Json, p: Json -> bool)
    requires !p(JNull)
    ensures FindFirstEarly(j, p) == FindFirstViaAll(j, p)
  {
    FindFirstEarlyIsHeadOfFindAll(j, p);
  }

  /** ... and they differ when a null node matches first: the full-list
      version reports None, the early-return version skips the null and
      keeps searching. */
  lemma FindFirstVariantsDifferOnNull()
    ensures var p := (x: Json) => x.JNull? || x.JInt?;
            var doc := JArr([JNull, JInt(1)]);
            FindFirstViaAll(doc, p) == None && FindFirstEarly(doc, p) == Some(JInt(1))
  {
    var p := (x: Json) => x.JNull? || x.JInt?;
    var doc := JArr([JNull, JInt(1)]);
    assert Children(doc) == [JNull, JInt(1)];
    assert FindAll(JNull, p) == [JNull];
    assert FindAll(doc, p)[0] == JNull;
    assert FindFirstEarly(JNull, p) == None;
    assert FindFirstEarlyFrom(doc, 1, p) == Some(JInt(1));
  }

  /** Neither shape predicate ever holds of null, so the two search
      implementations agree on every search the scrapers make. */
  lemma ShapePredicatesRejectNull()
    ensures !LooksLikeMatches(JNull) && !LooksLikeShots(JNull)
  {
  }

  // ---- An explicit-stack depth-first walk, as an independent reference ----

  function Size(j: Json): (n: nat)
    ensures n >= 1
    decreases j, 1
  {
    1 + SizeFrom(j, 0)
  }

  function SizeFrom(parent: Json, i: nat): nat
    decreases parent, 0, |Children(parent)| - i
  {
    if i >= |Children(parent)| then 0
    else Size(Children(parent)[i]) + SizeFrom(parent, i + 1)
  }

  function SizeSeq(xs: seq<Json>): nat {
    if |xs| == 0 then 0 else Size(xs[0]) + SizeSeq(xs[1..])
  }

  lemma {:induction false} SizeSeqAppend(a: seq<Json>, b: seq<Json>)
    ensures SizeSeq(a + b) == SizeSeq(a) + SizeSeq(b)
    decreases |a|
  {
    if |a| > 0 {
      assert (a + b)[1..] == a[1..] + b;
      SizeSeqAppend(a[1..], b);
    } else {
      assert a + b == b;
    }
  }

  lemma {:induction false} SizeSeqOfChildren(j: Json, i: nat)
    requires i <= |Children(j)|
    ensures SizeSeq(Children(j)[i..]) == SizeFrom(j, i)
    decreases |Children(j)| - i
  {
    if i < |Children(j)| {
      assert Children(j)[i..][1..] == Children(j)[i + 1..];
      SizeSeqOfChildren(j, i + 1);
    }
  }

  /** Pop a node, report it if `pred` holds, push its children in front of
      the remaining stack. */
  function Walk(stack: seq<Json>, p: Json -> bool): seq<Json>
    decreases SizeSeq(stack)
  {
    if |stack| == 0 then []
    else
      var h := stack[0];
      SizeSeqAppend(Children(h), stack[1..]);
      SizeSeqOfChildren(h, 0);
      assert Children(h)[0..] == Children(h);
      (if p(h) then [h] else []) + Walk(Children(h) + stack[1..], p)
  }

  /** The results of searching each tree of a forest, concatenated. */
  function FindAllSeq(xs: seq<Json>, p: Json -> bool): seq<Json> {
    if |xs| == 0 then [] else FindAll(xs[0], p) + FindAllSeq(xs[1..], p)
  }

  lemma {:induction false} FindAllSeqAppend(a: seq<Json>, b: seq<Json>, p: Json -> bool)
    ensures FindAllSeq(a + b, p) == FindAllSeq(a, p) + FindAllSeq(b, p)
    decreases |a|
  {
    if |a| > 0 {
      assert (a + b)[1..] == a[1..] + b;
      FindAllSeqAppend(a[1..], b, p);
    } else {
      assert a + b == b;
    }
  }

  lemma {:induction false} FindAllSeqOfChildren(j: Json, i: nat, p: Json -> bool)
    requires i <= |Children(j)|
    ensures FindAllSeq(Children(j)[i..], p) == FindAllFrom(j, i, p)
    decreases |Children(j)| - i
  {
    if i < |Children(j)| {
      assert Children(j)[i..][1..] == Children(j)[i + 1..];
      FindAllSeqOfChildren(j, i + 1, p);
    }
  }

  lemma {:induction false} WalkIsFindAllSeq(stack: seq<Json>, p: Json -> bool)
    ensures Walk(stack, p) == FindAllSeq(stack, p)
    decreases SizeSeq(stack)
  {
    if |stack| > 0 {
      var h := stack[0];
      SizeSeqAppend(Children(h), stack[1..]);
      SizeSeqOfChildren(h, 0);
      assert Children(h)[0..] == Children(h);
      WalkIsFindAllSeq(Children(h) + stack[1..], p);
      FindAllSeqAppend(Children(h), stack[1..], p);
      FindAllSeqOfChildren(h, 0, p);
    }
  }

  /** The recursive search reports the same nodes, in the same order, as a
      depth-first walk with an explicit stack started at the root. */
  lemma FindAllIsStackWalk(j: Json, p: Json -> bool)
    ensures FindAll(j, p) == Walk([j], p)
  {
    WalkIsFindAllSeq([j], p);
    assert [j][1..] == [];
  }
}

=== FILE: externals.dfy ===
/** What the scrapers call but the model does not re-implement, and the
    ways a page can fail to yield data. */
module Externals {
  import opened Wrappers
  import opened JsonTree

  /** `json.loads` and `s.encode("utf-8").decode("unicode_escape")`, passed
      in as functions; `None` stands for "raised". */
  datatype Codec = Codec(loads: string -> Option<Json>, unescape: string -> Option<string>)

  /** Why fetching one page produced no rows. */
  datatype FetchError =
    | PageUnavailable       // `_get` gave up after its retries
    | UnescapeFailed        // the unicode_escape codec raised
    | FormatNotRecognised   // "legacy & Nuxt both failed"
}

=== FILE: extract.dfy ===
/** The three regular expressions the scrapers locate embedded JSON with,
    as direct left-to-right scans:

      var\s+KEY\s*=\s*JSON\.parse\('(.+?)'\);
      var\s+KEY\s*=\s*(\{.*?\}|\[.*?\]);
      window\.__NUXT__\s*=\s*(\{.*?\});

    all with DOTALL and `search` (leftmost match). Every `\s` run is followed
    by a character that is not whitespace (`=`, `J`, `{`, `[`, or the first
    character of the key, and the scrapers' keys `matchesData`, `matches`,
    `shotsData` start with a letter), so greedy skipping never needs to
    backtrack; the lazy `.*?` groups end at the leftmost terminator. */
module Extract {
  import opened Wrappers
  import opened Scan
  import opened JsonTree
  import opened Externals

  /** A captured group: `t[start..end]`. */
  datatype Span = Span(start: nat, end: nat)

  predicate ValidSpan(t: string, sp: Span) {
    sp.start <= sp.end <= |t|
  }

  function Text(t: string, sp: Span): string
    requires ValidSpan(t, sp)
  {
    t[sp.start..sp.end]
  }

  datatype Pattern =
    | JsonParseCall(key: string)  // var KEY = JSON.parse('...');
    | Literal(key: string)        // var KEY = {...};  or  var KEY = [...];
    | NuxtAssign                  // window.__NUXT__ = {...};

  /** `\s*=\s*` from position `j`: where the value starts. */
  function AssignValueStart(t: string, j: nat): (r: Option<nat>)
    requires j <= |t|
    ensures r.Some? ==> j < r.value <= |t|
  {
    var l := SkipSpace(t, j);
    if StartsAt(t, l, "=") then Some(SkipSpace(t, l + 1)) else None
  }

  /** `var\s+KEY\s*=\s*` at position `i`. */
  function VarValueStart(t: string, key: string, i: nat): (r: Option<nat>)
    requires i <= |t|
    ensures r.Some? ==> i < r.value <= |t|
  {
    if !StartsAt(t, i, "var") then None
    else
      var k := SkipSpace(t, i + 3);
      if k == i + 3 || !StartsAt(t, k, key) then None
      else AssignValueStart(t, k + |key|)
  }

  /** `window\.__NUXT__\s*=\s*` at position `i`. */
  function NuxtValueStart(t: string, i: nat): (r: Option<nat>)
    requires i <= |t|
    ensures r.Some? ==> i < r.value <= |t|
  {
    if StartsAt(t, i, "window.__NUXT__") then AssignValueStart(t, i + 15) else None
  }

  /** `\{.*?\};` (or with brackets) at position `c`; the span excludes `;`. */
  function Bracketed(t: string, c: nat, open: char, close: char): (r: Option<Span>)
    ensures r.Some? ==> ValidSpan(t, r.value)
    ensures r.Some? ==> BracketedAt(t, r.value, c, open, close)
    ensures r.None? ==> !(c < |t| && t[c] == open) || forall k :: c + 1 <= k ==> !StartsAt(t, k, [close, ';'])
  {
    if c < |t| && t[c] == open then
      match FindTerm(t, c + 1, [close, ';'])
      case Some(e) =>
        assert t[e..e + 2] == [close, ';'];
        assert t[e] == close && t[e + 1] == ';';
        Some(Span(c, e + 1))
      case None => None
    else None
  }

  /** `sp` is `open ... close` starting at `c`, followed by `;`, with no
      earlier `close;` inside. */
  predicate BracketedAt(t: string, sp: Span, c: nat, open: char, close: char) {
    && sp.start == c
    && c + 2 <= sp.end < |t|
    && t[c] == open && t[sp.end - 1] == close && t[sp.end] == ';'
    && forall k :: c < k < sp.end - 1 ==> !StartsAt(t, k, [close, ';'])
  }

  /** The captured group of `p` when the pattern matches at position `i`. */
  function MatchAt(t: string, p: Pattern, i: nat): (r: Option<Span>)
    requires i <= |t|
    ensures r.Some? ==> ValidSpan(t, r.value)
  {
    match p
    case JsonParseCall(key) =>
      (match VarValueStart(t, key, i)
       case None => None
       case Some(c) =>
         if !StartsAt(t, c, "JSON.parse('") then None
         else
           match FindTerm(t, c + 13, "');")
           case Some(e) => Some(Span(c + 12, e))
           case None => None)
    case Literal(key) =>
      (match VarValueStart(t, key, i)
       case None => None
       case Some(c) =>
         var brace := Bracketed(t, c, '{', '}');
         if brace.Some? then brace else Bracketed(t, c, '[', ']'))
    case NuxtAssign =>
      (match NuxtValueStart(t, i)
       case None => None
       case Some(c) => Bracketed(t, c, '{', '}'))
  }

  /** Where a search matched and what it captured. */
  datatype Hit = Hit(at: nat, span: Span)

  /** The first position in `from..last` where `f` reports a capture. */
  function FirstHit(f: nat -> Option<Span>, from: nat, last: nat): (r: Option<Hit>)
    ensures r.Some? ==> from <= r.value.at <= last && f(r.value.at) == Some(r.value.span)
    decreases last + 1 - from
  {
    if from > last then None
    else
      match f(from)
      case Some(sp) => Some(Hit(from, sp))
      case None => FirstHit(f, from + 1, last)
  }

  /** `FirstHit` is leftmost, and finds nothing only when nothing is there. */
  lemma {:induction false} FirstHitIsLeftmost(f: nat -> Option<Span>, from: nat, last: nat)
    ensures var r := FirstHit(f, from, last);
            r.Some? ==> forall i :: from <= i < r.value.at ==> f(i).None?
    ensures FirstHit(f, from, last).None? <==> forall i :: from <= i <= last ==> f(i).None?
    decreases last + 1 - from
  {
    if from <= last && f(from).None? {
      FirstHitIsLeftmost(f, from + 1, last);
    }
  }

  /** The pattern tried at every position of `t`. */
  function MatchFn(t: string, p: Pattern): (f: nat -> Option<Span>)
    ensures forall i: nat :: i <= |t| ==> f(i) == MatchAt(t, p, i)
  {
    (i: nat) => if i <= |t| then MatchAt(t, p, i) else None
  }

  /** `re.search` from position `from`: the leftmost position at which the
      pattern matches. */
  function SearchFrom(t: string, p: Pattern, from: nat): (r: Option<Hit>)
    ensures r.Some? ==> from <= r.value.at <= |t| && MatchAt(t, p, r.value.at) == Some(r.value.span)
  {
    FirstHit(MatchFn(t, p), from, |t|)
  }

  /** The search is leftmost: no position before the hit matches, and no
      hit means no position matches at all. */
  lemma SearchFromIsLeftmost(t: string, p: Pattern, from: nat)
    ensures var r := SearchFrom(t, p, from);
            r.Some? ==> forall i :: from <= i < r.value.at ==> MatchAt(t, p, i).None?
    ensures SearchFrom(t, p, from).None? <==> forall i :: from <= i <= |t| ==> MatchAt(t, p, i).None?
  {
    FirstHitIsLeftmost(MatchFn(t, p), from, |t|);
  }

  /** No position of `t` matches `p`. */
  predicate NoMatch(t: string, p: Pattern) {
    forall i :: 0 <= i <= |t| ==> MatchAt(t, p, i).None?
  }

  /** The search finds nothing exactly when no position matches. */
  lemma SearchNoneIff(t: string, p: Pattern)
    ensures Search(t, p).None? <==> NoMatch(t, p)
  {
    SearchFromIsLeftmost(t, p, 0);
  }

  /** `m.group(1)` of `pat.search(t)`, or `None` when nothing matches. */
  function Search(t: string, p: Pattern): Option<string> {
    match SearchFrom(t, p, 0)
    case Some(h) => Some(Text(t, h.span))
    case None => None
  }

  // ---- Shape of what each pattern captures ----

  /** The JSON.parse group is non-empty, starts right after `JSON.parse('`,
      is followed by `');`, and is the shortest such text. */
  lemma JsonParseCaptureShape(t: string, key: string, i: nat)
    requires i <= |t| && MatchAt(t, JsonParseCall(key), i).Some?
    ensures var sp := MatchAt(t, JsonParseCall(key), i).value;
            && sp.start >= 12 && StartsAt(t, sp.start - 12, "JSON.parse('")
            && sp.start < sp.end
            && StartsAt(t, sp.end, "');")
            && forall k :: sp.start < k < sp.end ==> !StartsAt(t, k, "');")
  {
  }

  /** The literal group starts with `{` and ends with `}`, or starts with `[`
      and ends with `]`; it is followed by `;`, and no shorter group would
      be. */
  lemma LiteralCaptureShape(t: string, key: string, i: nat)
    requires i <= |t| && MatchAt(t, Literal(key), i).Some?
    ensures var sp := MatchAt(t, Literal(key), i).value;
            && sp.end - sp.start >= 2 && sp.end < |t| && t[sp.end] == ';'
            && (|| (t[sp.start] == '{' && t[sp.end - 1] == '}'
                    && forall k :: sp.start < k < sp.end - 1 ==> !StartsAt(t, k, "};"))
                || (t[sp.start] == '[' && t[sp.end - 1] == ']'
                    && forall k :: sp.start < k < sp.end - 1 ==> !StartsAt(t, k, "];")))
  {
    var c := VarValueStart(t, key, i).value;
    var brace := Bracketed(t, c, '{', '}');
    if brace.Some? {
      assert BracketedAt(t, brace.value, c, '{', '}');
    } else {
      assert BracketedAt(t, Bracketed(t, c, '[', ']').value, c, '[', ']');
    }
  }

  /** The Nuxt group is a `{...}` span followed by `;`, the shortest one. */
  lemma NuxtCaptureShape(t: string, i: nat)
    requires i <= |t| && MatchAt(t, NuxtAssign, i).Some?
    ensures var sp := MatchAt(t, NuxtAssign, i).value;
            && sp.end - sp.start >= 2 && sp.end < |t| && t[sp.end] == ';'
            && t[sp.start] == '{' && t[sp.end - 1] == '}'
            && forall k :: sp.start < k < sp.end - 1 ==> !StartsAt(t, k, "};")
  {
    var c := NuxtValueStart(t, i).value;
    assert BracketedAt(t, Bracketed(t, c, '{', '}').value, c, '{', '}');
  }

  /** A declaration matches only if the key is followed by whitespace or
      `=`: a key never matches a longer name it is a prefix of. */
  lemma KeyEndsAtBoundary(t: string, key: string, i: nat)
    requires i <= |t| && VarValueStart(t, key, i).Some?
    ensures var k := SkipSpace(t, i + 3);
            && StartsAt(t, k, key)
            && k + |key| < |t|
            && (IsSpace(t[k + |key|]) || t[k + |key|] == '=')
  {
    var k := SkipSpace(t, i + 3);
    var l := SkipSpace(t, k + |key|);
    assert StartsAt(t, l, "=");
  }

  // ---- Completeness: a declaration that is there is found ----

  /** `var\s+KEY\s*=\s*` laid out at `i`: `var`, at least one whitespace
      character up to the key at `k`, whitespace up to the `=` at `l`, and
      whitespace up to the value at `c`. */
  predicate VarDeclAt(t: string, key: string, i: nat, k: nat, l: nat, c: nat) {
    && StartsAt(t, i, "var")
    && i + 3 < k && Spaces(t, i + 3, k)
    && StartsAt(t, k, key)
    && Spaces(t, k + |key|, l) && l < |t| && t[l] == '='
    && Spaces(t, l + 1, c)
  }

  /** A laid-out declaration whose value does not start with whitespace
      gives that value's position. The key must not start with whitespace
      (the scrapers' keys start with a letter). */
  lemma VarDeclFound(t: string, key: string, i: nat, k: nat, l: nat, c: nat)
    requires i <= |t| && VarDeclAt(t, key, i, k, l, c)
    requires |key| > 0 && !IsSpace(key[0])
    requires c < |t| && !IsSpace(t[c])
    ensures VarValueStart(t, key, i) == Some(c)
  {
    assert t[k] == t[k..k + |key|][0] == key[0];
    SkipSpaceStops(t, i + 3, k);
    SkipSpaceStops(t, k + |key|, l);
    assert t[l..l + 1] == "=";
    SkipSpaceStops(t, l + 1, c);
  }

  /** Conversely, whenever the prefix matches, it is laid out as above. */
  lemma VarDeclSound(t: string, key: string, i: nat)
    requires i <= |t| && VarValueStart(t, key, i).Some?
    ensures var k := SkipSpace(t, i + 3);
            VarDeclAt(t, key, i, k, SkipSpace(t, k + |key|), VarValueStart(t, key, i).value)
  {
    var k := SkipSpace(t, i + 3);
    var l := SkipSpace(t, k + |key|);
    assert StartsAt(t, l, "=");
    assert t[l] == t[l..l + 1][0];
  }

  /** A `var KEY = JSON.parse('...');` declaration at `i` is matched there,
      its capture starts right after `JSON.parse('` and ends at or before
      the given `');`; so the search finds a block. */
  lemma JsonParseFound(t: string, key: string, i: nat, k: nat, l: nat, c: nat, e: nat)
    requires i <= |t| && VarDeclAt(t, key, i, k, l, c)
    requires |key| > 0 && !IsSpace(key[0])
    requires StartsAt(t, c, "JSON.parse('")
    requires e >= c + 13 && StartsAt(t, e, "');")
    ensures MatchAt(t, JsonParseCall(key), i).Some?
    ensures MatchAt(t, JsonParseCall(key), i).value.start == c + 12
    ensures MatchAt(t, JsonParseCall(key), i).value.end <= e
    ensures Search(t, JsonParseCall(key)).Some?
  {
    assert t[c] == t[c..c + 12][0] == 'J';
    VarDeclFound(t, key, i, k, l, c);
    SearchNoneIff(t, JsonParseCall(key));
  }

  /** A `var KEY = {...};` or `var KEY = [...];` declaration at `i` is
      matched there, with a capture starting at the bracket and ending at
      or before the given closing `};` or `];`. */
  lemma LiteralFound(t: string, key: string, i: nat, k: nat, l: nat, c: nat, e: nat, open: char, close: char)
    requires i <= |t| && VarDeclAt(t, key, i, k, l, c)
    requires |key| > 0 && !IsSpace(key[0])
    requires (open, close) == ('{', '}') || (open, close) == ('[', ']')
    requires c < |t| && t[c] == open
    requires e > c && StartsAt(t, e, [close, ';'])
    ensures MatchAt(t, Literal(key), i).Some?
    ensures MatchAt(t, Literal(key), i).value.start == c
    ensures MatchAt(t, Literal(key), i).value.end <= e + 1
    ensures Search(t, Literal(key)).Some?
  {
    VarDeclFound(t, key, i, k, l, c);
    SearchNoneIff(t, Literal(key));
  }

  /** A `window.__NUXT__ = {...};` assignment at `i` is matched there, with
      a capture starting at the brace and ending at or before the given
      `};`. */
  lemma NuxtFound(t: string, i: nat, l: nat, c: nat, e: nat)
    requires i <= |t| && StartsAt(t, i, "window.__NUXT__")
    requires Spaces(t, i + 15, l) && l < |t| && t[l] == '='
    requires Spaces(t, l + 1, c) && c < |t| && t[c] == '{'
    requires e > c && StartsAt(t, e, "};")
    ensures MatchAt(t, NuxtAssign, i).Some?
    ensures MatchAt(t, NuxtAssign, i).value.start == c
    ensures MatchAt(t, NuxtAssign, i).value.end <= e + 1
    ensures Search(t, NuxtAssign).Some?
  {
    NuxtPrefixFound(t, i, l, c);
    var b := Bracketed(t, c, '{', '}');
    assert b.Some? && b.value.start == c && b.value.end <= e + 1 by {
      assert StartsAt(t, e, ['}', ';']);
    }
    assert MatchAt(t, NuxtAssign, i) == b;
    SearchNoneIff(t, NuxtAssign);
  }

  lemma NuxtPrefixFound(t: string, i: nat, l: nat, c: nat)
    requires i <= |t| && StartsAt(t, i, "window.__NUXT__")
    requires Spaces(t, i + 15, l) && l < |t| && t[l] == '='
    requires Spaces(t, l + 1, c) && c < |t| && t[c] == '{'
    ensures NuxtValueStart(t, i) == Some(c)
  {
    SkipSpaceStops(t, i + 15, l);
    assert t[l..l + 1] == "=";
    SkipSpaceStops(t, l + 1, c);
  }

  /** Looking up `matches` never captures `var matchesData = ...`. */
  lemma MatchesKeyIgnoresMatchesData(t: string, i: nat)
    requires i <= |t| && StartsAt(t, i, "var matchesData")
    ensures MatchAt(t, JsonParseCall("matches"), i).None?
    ensures MatchAt(t, Literal("matches"), i).None?
  {
    var w := "var matchesData";
    assert t[i..i + 15] == w;
    assert t[i + 3] == w[3] == ' ';
    assert t[i + 4] == w[4] == 'm';
    assert t[i + 11] == w[11] == 'D';
    assert SkipSpace(t, i + 3) == i + 4 by {
      assert IsSpace(t[i + 3]) && !IsSpace(t[i + 4]);
    }
    if VarValueStart(t, "matches", i).Some? {
      KeyEndsAtBoundary(t, "matches", i);
      assert false;
    }
  }

  // ---- The two `_extract_json_parse_block` variants ----

  /** Python truthiness of an optional text: present and non-empty. */
  predicate TruthyText(o: Option<string>) {
    o.Some? && |o.value| > 0
  }

  /** `a or b` over optional texts. */
  function OrText(a: Option<string>, b: Option<string>): Option<string> {
    if TruthyText(a) then a else b
  }

  /** scripts/understat_shots.py: the captured text is unescaped, and if the
      codec raises the raw capture is returned instead. */
  function ParseBlockLenient(codec: Codec, t: string, key: string): (r: Option<string>)
    ensures r.None? <==> NoMatch(t, JsonParseCall(key))
    ensures var s := Search(t, JsonParseCall(key));
            s.Some? && codec.unescape(s.value).None? ==> r == s
    ensures var s := Search(t, JsonParseCall(key));
            s.Some? && codec.unescape(s.value).Some? ==> r == codec.unescape(s.value)
  {
    SearchNoneIff(t, JsonParseCall(key));
    match Search(t, JsonParseCall(key))
    case None => None
    case Some(raw) => Some(codec.unescape(raw).GetOr(raw))
  }

  /** scripts/fetch_understat.py: an unescape failure propagates. */
  function ParseBlockStrict(codec: Codec, t: string, key: string): (r: Result<Option<string>, FetchError>)
    ensures var s := Search(t, JsonParseCall(key));
            r.Failure? <==> s.Some? && codec.unescape(s.value).None?
    ensures r.Success? && r.value.None? <==> NoMatch(t, JsonParseCall(key))
    ensures r.Failure? ==> r.error == UnescapeFailed
  {
    SearchNoneIff(t, JsonParseCall(key));
    match Search(t, JsonParseCall(key))
    case None => Success(None)
    case Some(raw) =>
      match codec.unescape(raw)
      case Some(u) => Success(Some(u))
      case None => Failure(UnescapeFailed)
  }

  /** `_extract_json_literal_block` (identical in both scripts). */
  function LiteralBlock(t: string, key: string): Option<string> {
    Search(t, Literal(key))
  }

  /** `_extract_json_parse_block(html, key) or _extract_json_literal_block(html, key)`
      in scripts/understat_shots.py. */
  function BlockLenient(codec: Codec, t: string, key: string): Option<string> {
    OrText(ParseBlockLenient(codec, t, key), LiteralBlock(t, key))
  }

  /** The same expression in scripts/fetch_understat.py. */
  function BlockStrict(codec: Codec, t: string, key: string): Result<Option<string>, FetchError> {
    var p :- ParseBlockStrict(codec, t, key);
    Success(OrText(p, LiteralBlock(t, key)))
  }

  /** The value a legacy block parses to: nothing when the block is absent
      or empty, otherwise whatever `json.loads` gives (`None` when it
      raises). */
  function ParsedText(codec: Codec, data: Option<string>): Option<Json> {
    if TruthyText(data) then codec.loads(data.value) else None
  }

  /** The two variants extract the same text unless the unescape codec
      raises on a JSON.parse block that is present. */
  lemma BlockVariantsAgree(codec: Codec, t: string, key: string)
    requires Search(t, JsonParseCall(key)).None? || codec.unescape(Search(t, JsonParseCall(key)).value).Some?
    ensures BlockStrict(codec, t, key) == Success(BlockLenient(codec, t, key))
  {
  }

  // ---- `_extract_nuxt_json` (identical in both scripts) ----

  /** The two texts handed to `json.loads`: the capture with `: undefined`
      rewritten to `: null`, then that text with trailing commas removed
      before `}` and then before `]`. */
  function NuxtRepairs(raw: string): (string, string) {
    var first := ReplaceAll(raw, ": undefined", ": null");
    (first, StripCommaBefore(StripCommaBefore(first, '}'), ']'))
  }

  /** Parse the Nuxt blob, retrying once with the comma repair; `None` when
      the blob is missing or both parses raise. The text parsed first has
      every `: undefined` of the capture turned into `: null`; when it
      parses, that is the document, and any document found is the parse of
      a text that differs from it only in commas and whitespace. */
  function NuxtDocument(codec: Codec, t: string): (r: Option<Json>)
    ensures Search(t, NuxtAssign).None? ==> r.None?
    ensures Search(t, NuxtAssign).Some? ==>
              var (first, second) := NuxtRepairs(Search(t, NuxtAssign).value);
              r == (if codec.loads(first).Some? then codec.loads(first) else codec.loads(second))
    ensures r.Some? ==> Search(t, NuxtAssign).Some?
    ensures Search(t, NuxtAssign).Some? ==>
              var f := ReplaceAll(Search(t, NuxtAssign).value, ": undefined", ": null");
              (forall q :: !StartsAt(f, q, ": undefined"))
              && (codec.loads(f).Some? ==> r == codec.loads(f))
              && (r.Some? ==> exists s :: codec.loads(s) == r && Essence(s) == Essence(f))
  {
    match Search(t, NuxtAssign)
    case None => None
    case Some(raw) =>
      NuxtRepairProperties(raw);
      var (first, second) := NuxtRepairs(raw);
      match codec.loads(first)
      case Some(j) => Some(j)
      case None => codec.loads(second)
  }

  /** The first text handed to `json.loads` contains no `: undefined`, and
      the second differs from it only in commas and whitespace. */
  lemma NuxtRepairProperties(raw: string)
    ensures forall q :: !StartsAt(NuxtRepairs(raw).0, q, ": undefined")
    ensures Essence(NuxtRepairs(raw).1) == Essence(NuxtRepairs(raw).0)
  {
    var pat := ": undefined";
    var rep := ": null";
    assert pat[2] != rep[2];
    assert ReplacementIsFinal(pat, rep);
    ReplaceAllRemovesEveryOccurrence(raw, pat, rep);
    var first := ReplaceAll(raw, pat, rep);
    StripCommaKeepsEssence(first, '}');
    StripCommaKeepsEssence(StripCommaBefore(first, '}'), ']');
  }

  // ---- A worked example: a legacy match page ----

  const ExampleDecl: string := "var shotsData = "
  const ExampleCall: string := "JSON.parse('"
  const ExampleBody: string := "{\"h\":[],\"a\":[]}"
  const ExampleClose: string := "');"

  /** `var shotsData = JSON.parse('{"h":[],"a":[]}');` */
  const ShotsDataPage: string := ExampleDecl + ExampleCall + ExampleBody + ExampleClose

  lemma StartsAtJoin(a: string, w: string, rest: string)
    ensures StartsAt(a + w + rest, |a|, w)
  {
    assert (a + w + rest)[|a|..|a| + |w|] == w;
  }

  lemma ShotsDataPageDeclaration()
    ensures |ShotsDataPage| == 46
    ensures VarValueStart(ShotsDataPage, "shotsData", 0) == Some(16)
  {
    var t := ShotsDataPage;
    DeclarationLayout();
    assert SkipSpace(t, 3) == 4 by {
      assert IsSpace(t[3]) && !IsSpace(t[4]);
    }
    assert SkipSpace(t, 13) == 14 by {
      assert IsSpace(t[13]) && !IsSpace(t[14]);
    }
    assert SkipSpace(t, 15) == 16 by {
      assert IsSpace(t[15]) && !IsSpace(t[16]);
    }
  }

  /** Where the words of the declaration sit in the example page. */
  lemma DeclarationLayout()
    ensures |ShotsDataPage| == 46
    ensures StartsAt(ShotsDataPage, 0, "var")
    ensures StartsAt(ShotsDataPage, 4, "shotsData")
    ensures StartsAt(ShotsDataPage, 14, "=")
    ensures ShotsDataPage[3] == ' ' && ShotsDataPage[4] == 's' && ShotsDataPage[13] == ' '
    ensures ShotsDataPage[14] == '=' && ShotsDataPage[15] == ' ' && ShotsDataPage[16] == 'J'
  {
    DeclarationWords();
    DeclarationChars();
  }

  lemma DeclarationWords()
    ensures |ShotsDataPage| == 46
    ensures StartsAt(ShotsDataPage, 0, "var")
    ensures StartsAt(ShotsDataPage, 4, "shotsData")
    ensures StartsAt(ShotsDataPage, 14, "=")
  {
    var t := ShotsDataPage;
    assert ExampleDecl == "var" + " " + "shotsData" + " " + "=" + " ";
    var rest := ExampleCall + ExampleBody + ExampleClose;
    assert t == ExampleDecl + rest;
    assert t == [] + "var" + t[3..];
    StartsAtJoin([], "var", t[3..]);
    assert t == "var " + "shotsData" + t[13..];
    StartsAtJoin("var ", "shotsData", t[13..]);
    assert t == "var shotsData " + "=" + t[15..];
    StartsAtJoin("var shotsData ", "=", t[15..]);
  }

  lemma DeclarationChars()
    ensures |ShotsDataPage| == 46
    ensures ShotsDataPage[3] == ' ' && ShotsDataPage[4] == 's' && ShotsDataPage[13] == ' '
    ensures ShotsDataPage[14] == '=' && ShotsDataPage[15] == ' ' && ShotsDataPage[16] == 'J'
  {
    var t := ShotsDataPage;
    var rest := ExampleCall + ExampleBody + ExampleClose;
    assert t == ExampleDecl + rest;
    assert forall j :: 0 <= j < 16 ==> t[j] == ExampleDecl[j];
    assert ExampleDecl[3] == ' ' && ExampleDecl[4] == 's' && ExampleDecl[13] == ' ';
    assert ExampleDecl[14] == '=' && ExampleDecl[15] == ' ';
    assert t[16] == rest[0] == 'J';
  }

  lemma ShotsDataPageTerminator()
    ensures FindTerm(ShotsDataPage, 29, "');") == Some(43)
  {
    var t := ShotsDataPage;
    assert t == (ExampleDecl + ExampleCall + ExampleBody) + ExampleClose + [];
    StartsAtJoin(ExampleDecl + ExampleCall + ExampleBody, ExampleClose, []);
    assert t == (ExampleDecl + ExampleCall) + ExampleBody + ExampleClose;
    forall k | 29 <= k < 43
      ensures !StartsAt(t, k, "');")
    {
      assert t[k] == ExampleBody[k - 28];
    }
  }

  /** The JSON.parse pattern captures the whole shot container. */
  lemma ShotsDataExample()
    ensures Search(ShotsDataPage, JsonParseCall("shotsData")) == Some(ExampleBody)
  {
    var t := ShotsDataPage;
    ShotsDataPageDeclaration();
    assert t == ExampleDecl + ExampleCall + (ExampleBody + ExampleClose);
    StartsAtJoin(ExampleDecl, ExampleCall, ExampleBody + ExampleClose);
    ShotsDataPageTerminator();
    assert MatchAt(t, JsonParseCall("shotsData"), 0) == Some(Span(28, 43));
    assert t == (ExampleDecl + ExampleCall) + ExampleBody + ExampleClose;
    StartsAtJoin(ExampleDecl + ExampleCall, ExampleBody, ExampleClose);
  }
}

=== FILE: fetch_understat.dfy ===
/** The fetchers and `main` of scripts/fetch_understat.py: a parsed legacy
    block is returned even when it normalises to nothing, an unescape
    failure propagates, and the Nuxt search stops at the first hit. */
module FetchUnderstat {
  import opened Wrappers
  import opened JsonTree
  import opened Externals
  import opened Extract
  import opened DeepSearch
  import opened Matches
  import opened Shots
  import opened Selection
  import opened Pipeline
  import opened Seqs

  /** The league text: `matchesData` first, and `matches` only when that
      gave no text at all. An unescape failure on either block ends the
      fetch, since the call sits outside the `try`. */
  function LeagueBlock(codec: Codec, t: string): (r: Result<Option<string>, FetchError>)
    ensures BlockStrict(codec, t, "matchesData").Success? && TruthyText(BlockStrict(codec, t, "matchesData").value)
            ==> r == BlockStrict(codec, t, "matchesData")
    ensures BlockStrict(codec, t, "matchesData").Failure? ==> r == BlockStrict(codec, t, "matchesData")
    ensures BlockStrict(codec, t, "matchesData").Success? && !TruthyText(BlockStrict(codec, t, "matchesData").value)
            ==> r == BlockStrict(codec, t, "matches")
  {
    var data :- BlockStrict(codec, t, "matchesData");
    if TruthyText(data) then Success(data) else BlockStrict(codec, t, "matches")
  }

  /** The value a legacy block parses to, after any unescape failure of
      the block itself. */
  function ParsedBlock(codec: Codec, block: Result<Option<string>, FetchError>): Result<Option<Json>, FetchError> {
    var data :- block;
    Success(ParsedText(codec, data))
  }

  /** The legacy league source: `Success(None)` when it does not parse, so
      that Nuxt is tried next; an empty list is still an answer. It fails
      exactly when the league block does. Otherwise it answers exactly when
      the block parses to something iterable (a list, a string or a dict),
      and only a list gives any matches. */
  function LegacyMatches(codec: Codec, t: string): (r: Result<Option<seq<MatchInfo>>, FetchError>)
    ensures r.Failure? ==> r.error == UnescapeFailed
    ensures var j := ParsedBlock(codec, LeagueBlock(codec, t));
            r.Failure? <==> j.Failure?
    ensures var j := ParsedBlock(codec, LeagueBlock(codec, t));
            r.Success? ==> (r.value.Some? <==> j.value.Some? && (j.value.value.JArr? || j.value.value.JStr? || j.value.value.JObj?))
    ensures var j := ParsedBlock(codec, LeagueBlock(codec, t));
            r.Success? && r.value.Some?
            ==> r.value.value == (if j.value.value.JArr? then NormalizeMatches(j.value.value.elems) else [])
  {
    var parsed :- ParsedBlock(codec, LeagueBlock(codec, t));
    match parsed
    case None => Success(None)
    case Some(j) => Success(NormalizeMatchesJson(j))
  }

  /** The Nuxt fallback for the league page, with the early-return search.
      Any list the search finds is an answer, even one that normalises to
      nothing; the list check never rejects a found node, since the shape
      predicate already demands a list. */
  function NuxtMatches(codec: Codec, t: string): (r: Option<seq<MatchInfo>>)
    ensures var d := NuxtDocument(codec, t);
            r.Some? <==> d.Some? && Truthy(d.value) && FindFirstEarly(d.value, LooksLikeMatches).Some?
    ensures var d := NuxtDocument(codec, t);
            r.Some? ==> r.value == NormalizeMatches(FindFirstEarly(d.value, LooksLikeMatches).value.elems)
  {
    match NuxtDocument(codec, t)
    case None => None
    case Some(nuxt) =>
      if !Truthy(nuxt) then None
      else
        match FindFirstEarly(nuxt, LooksLikeMatches)
        case None => None
        case Some(found) => if found.JArr? then Some(NormalizeMatches(found.elems)) else None
  }

  /** `fetch_league_matches`. */
  function FetchLeagueMatches(codec: Codec, page: Option<string>): (r: Result<seq<MatchInfo>, FetchError>)
    ensures page.None? <==> r == Failure(PageUnavailable)
    ensures page.Some? && LegacyMatches(codec, page.value).Success? && LegacyMatches(codec, page.value).value.Some?
            ==> r == Success(LegacyMatches(codec, page.value).value.value)
    ensures page.Some? && LegacyMatches(codec, page.value).Failure? ==> r == Failure(UnescapeFailed)
    ensures page.Some? && LegacyMatches(codec, page.value) == Success(None)
            ==> r == (if NuxtMatches(codec, page.value).Some? then Success(NuxtMatches(codec, page.value).value)
                      else Failure(FormatNotRecognised))
    ensures page.Some? && r.Failure? ==> r.error in {UnescapeFailed, FormatNotRecognised}
  {
    match page
    case None => Failure(PageUnavailable)
    case Some(t) =>
      var legacy :- LegacyMatches(codec, t);
      if legacy.Some? then Success(legacy.value)
      else
        match NuxtMatches(codec, t)
        case Some(norm) => Success(norm)
        case None => Failure(FormatNotRecognised)
  }

  /** The league fetch: an unescape failure in the legacy block ends it;
      otherwise it answers with the first of the legacy list and the Nuxt
      list that is present, and fails only when neither is. */
  lemma FetchLeagueMatchesIsFirstSource(codec: Codec, t: string)
    ensures LegacyMatches(codec, t).Failure? ==> FetchLeagueMatches(codec, Some(t)) == Failure(UnescapeFailed)
    ensures LegacyMatches(codec, t).Success? ==>
              FetchLeagueMatches(codec, Some(t))
              == (match FirstSome([LegacyMatches(codec, t).value, NuxtMatches(codec, t)])
                  case Some(ms) => Success(ms)
                  case None => Failure(FormatNotRecognised))
  {
    if LegacyMatches(codec, t).Success? {
      FirstSomeOfTwo(LegacyMatches(codec, t).value, NuxtMatches(codec, t));
    }
  }

  /** The legacy `shotsData` source; any parsed container is an answer,
      even one without rows. It fails exactly when the block's unescape
      does. Otherwise it answers exactly when the block parses to a dict
      both of whose sides can be iterated, and then with the same rows as
      the list-checked normaliser. */
  function LegacyShots(codec: Codec, matchId: int, t: string): (r: Result<Option<seq<ShotRow>>, FetchError>)
    ensures r.Failure? ==> r.error == UnescapeFailed
    ensures r.Success? && r.value.Some? ==> forall k :: 0 <= k < |r.value.value| ==> r.value.value[k].matchId == matchId
    ensures var j := ParsedBlock(codec, BlockStrict(codec, t, "shotsData"));
            r.Failure? <==> j.Failure?
    ensures var j := ParsedBlock(codec, BlockStrict(codec, t, "shotsData"));
            r.Success? ==> (r.value.Some? <==> j.value.Some? && j.value.value.JObj?
                                               && Iteration(SideValue(j.value.value.members, "h")).Some?
                                               && Iteration(SideValue(j.value.value.members, "a")).Some?)
    ensures var j := ParsedBlock(codec, BlockStrict(codec, t, "shotsData"));
            r.Success? && r.value.Some? ==> r.value.value == NormalizeShotsChecked(matchId, j.value.value).value
  {
    var data :- BlockStrict(codec, t, "shotsData");
    if !TruthyText(data) then Success(None)
    else
      match codec.loads(data.value)
      case None => Success(None)
      case Some(j) =>
        match NormalizeShotsUnchecked(matchId, j)
        case None => Success(None)
        case Some(rows) =>
          ShotVariantsAgree(matchId, j);
          Success(Some(rows))
  }

  /** The node the Nuxt fallback searches out with `p`: the first hit of
      the early-return search, in a present and truthy document. */
  function NuxtContainer(codec: Codec, t: string, p: Json -> bool): (r: Option<Json>)
    ensures r.Some? ==> NuxtDocument(codec, t).Some? && p(r.value)
  {
    match NuxtDocument(codec, t)
    case None => None
    case Some(nuxt) => if Truthy(nuxt) then FindFirstEarly(nuxt, p) else None
  }

  /** A container of the shot shape always normalises without raising. */
  lemma ShotContainerIterates(matchId: int, x: Json)
    requires LooksLikeShots(x)
    ensures NormalizeShotsUnchecked(matchId, x).Some?
  {
    assert SideValue(x.members, "h") == Get(x.members, "h");
    assert SideValue(x.members, "a") == Get(x.members, "a");
  }

  /** The Nuxt fallback for a match page: it answers exactly when the
      search finds a shot container, and then with that container's rows,
      which may be none. The truthiness test on the container found never
      rejects it, since the shape demands both keys. */
  function NuxtShots(codec: Codec, matchId: int, t: string): (r: Option<seq<ShotRow>>)
    ensures r.Some? ==> forall k :: 0 <= k < |r.value| ==> r.value[k].matchId == matchId
    ensures var c := NuxtContainer(codec, t, LooksLikeShots);
            r.Some? <==> c.Some?
    ensures var c := NuxtContainer(codec, t, LooksLikeShots);
            r.Some? ==> r.value == NormalizeShotsChecked(matchId, c.value).value
  {
    match NuxtDocument(codec, t)
    case None => None
    case Some(nuxt) =>
      if !Truthy(nuxt) then None
      else
        match FindFirstEarly(nuxt, LooksLikeShots)
        case None => None
        case Some(found) =>
          ShotContainerIterates(matchId, found);
          ShotVariantsAgree(matchId, found);
          NormalizeShotsUnchecked(matchId, found)
  }

  /** `fetch_match_shots`. */
  function FetchMatchShots(codec: Codec, matchId: int, page: Option<string>): (r: Result<seq<ShotRow>, FetchError>)
    ensures page.None? <==> r == Failure(PageUnavailable)
    ensures r.Success? ==> forall k :: 0 <= k < |r.value| ==> r.value[k].matchId == matchId
    ensures page.Some? && LegacyShots(codec, matchId, page.value).Success? && LegacyShots(codec, matchId, page.value).value.Some?
            ==> r == Success(LegacyShots(codec, matchId, page.value).value.value)
    ensures page.Some? && LegacyShots(codec, matchId, page.value).Failure? ==> r == Failure(UnescapeFailed)
    ensures page.Some? && LegacyShots(codec, matchId, page.value) == Success(None)
            ==> r == (if NuxtShots(codec, matchId, page.value).Some? then Success(NuxtShots(codec, matchId, page.value).value)
                      else Failure(FormatNotRecognised))
    ensures page.Some? && r.Failure? ==> r.error in {UnescapeFailed, FormatNotRecognised}
  {
    match page
    case None => Failure(PageUnavailable)
    case Some(t) =>
      var legacy :- LegacyShots(codec, matchId, t);
      if legacy.Some? then Success(legacy.value)
      else
        match NuxtShots(codec, matchId, t)
        case Some(rows) => Success(rows)
        case None => Failure(FormatNotRecognised)
  }

  /** The match fetch: an unescape failure in the legacy block ends it;
      otherwise it answers with the first of the legacy rows and the Nuxt
      rows that is present, and fails only when neither is. */
  lemma FetchMatchShotsIsFirstSource(codec: Codec, matchId: int, t: string)
    ensures LegacyShots(codec, matchId, t).Failure? ==> FetchMatchShots(codec, matchId, Some(t)) == Failure(UnescapeFailed)
    ensures LegacyShots(codec, matchId, t).Success? ==>
              FetchMatchShots(codec, matchId, Some(t))
              == (match FirstSome([LegacyShots(codec, matchId, t).value, NuxtShots(codec, matchId, t)])
                  case Some(rows) => Success(rows)
                  case None => Failure(FormatNotRecognised))
  {
    if LegacyShots(codec, matchId, t).Success? {
      FirstSomeOfTwo(LegacyShots(codec, matchId, t).value, NuxtShots(codec, matchId, t));
    }
  }

  /** The per-match fetch `main` runs for each selected id. */
  function ShotFetcher(codec: Codec, matchPage: int -> Option<string>): (f: ShotFetch)
    ensures forall id :: f(id) == FetchMatchShots(codec, id, matchPage(id))
  {
    id => FetchMatchShots(codec, id, matchPage(id))
  }

  /** `main`, with the pages as inputs. */
  function Main(codec: Codec, leaguePage: Option<string>, matchPage: int -> Option<string>, opts: Options): (r: Result<Report, RunError>)
    ensures leaguePage.None? ==> r == Failure(LeagueFailed(PageUnavailable))
    ensures leaguePage.Some? && r.Failure? && r.error.LeagueFailed? ==> r.error.cause in {UnescapeFailed, FormatNotRecognised}
    ensures r.Success? ==> |r.value.rows| > 0
  {
    Run(FetchLeagueMatches(codec, leaguePage), opts, ShotFetcher(codec, matchPage))
  }

  /** Every row in the table is labelled with a match that was selected. */
  lemma MainRowsBelongToSelected(codec: Codec, leaguePage: Option<string>, matchPage: int -> Option<string>, opts: Options, row: ShotRow)
    requires Main(codec, leaguePage, matchPage, opts).Success?
    requires row in Main(codec, leaguePage, matchPage, opts).value.rows
    ensures FetchLeagueMatches(codec, leaguePage).Success?
    ensures var selected := Select(FetchLeagueMatches(codec, leaguePage).value, opts);
      selected.Success? && exists k :: 0 <= k < |selected.value| && selected.value[k].id == row.matchId
  {
    RunRowsBelongToSelected(FetchLeagueMatches(codec, leaguePage), opts, ShotFetcher(codec, matchPage), row);
  }
}

=== FILE: json_tree.dfy ===
/** The JSON value tree that `json.loads` hands to the scrapers, with the
    handful of Python dict/list behaviours the scrapers rely on: truthiness,
    `a or b`, `d.get(k)` / `d.get(k, default)` and `k in d`.

    A dict is an ordered member list so that `dict.values()` keeps insertion
    order; `json.loads` produces dicts with distinct keys, and lookup takes
    the first member with the key. */
module JsonTree {
  import opened Wrappers

  datatype Json =
    | JNull
    | JBool(b: bool)
    | JInt(i: int)
    | JReal(r: real)
    | JStr(text: string)
    | JArr(elems: seq<Json>)
    | JObj(members: seq<(string, Json)>)

  /** Python truthiness: None, False, 0, 0.0, "", [] and {} are false. */
  predicate Truthy(j: Json) {
    match j
    case JNull => false
    case JBool(b) => b
    case JInt(n) => n != 0
    case JReal(x) => x != 0.0
    case JStr(s) => |s| > 0
    case JArr(xs) => |xs| > 0
    case JObj(ms) => |ms| > 0
  }

  /** Python `a or b`: the first operand if it is truthy, else the second. */
  function Or(a: Json, b: Json): Json {
    if Truthy(a) then a else b
  }

  /** `key in d` */
  predicate HasKey(members: seq<(string, Json)>, key: string) {
    exists k :: 0 <= k < |members| && members[k].0 == key
  }

  /** The value stored under `key`, if any (first member wins). */
  function Lookup(members: seq<(string, Json)>, key: string): (r: Option<Json>)
    ensures r.Some? <==> HasKey(members, key)
    ensures r.Some? ==> exists k :: 0 <= k < |members| && members[k] == (key, r.value)
  {
    if |members| == 0 then None
    else if members[0].0 == key then Some(members[0].1)
    else
      var r := Lookup(members[1..], key);
      assert HasKey(members, key) ==> members[0].0 == key || HasKey(members[1..], key) by {
        if HasKey(members, key) {
          var k :| 0 <= k < |members| && members[k].0 == key;
          if k > 0 { assert members[1..][k - 1].0 == key; }
        }
      }
      assert r.Some? ==> HasKey(members, key) by {
        if r.Some? {
          var k :| 0 <= k < |members[1..]| && members[1..][k] == (key, r.value);
          assert members[k + 1] == (key, r.value);
        }
      }
      r
  }

  /** `d.get(key, default)` */
  function GetOr(members: seq<(string, Json)>, key: string, default: Json): Json {
    Lookup(members, key).GetOr(default)
  }

  /** `d.get(key)`: a missing key reads as None. */
  function Get(members: seq<(string, Json)>, key: string): Json {
    GetOr(members, key, JNull)
  }

  /** `d.values()` in insertion order. */
  function Values(members: seq<(string, Json)>): (vs: seq<Json>)
    ensures |vs| == |members|
    ensures forall k :: 0 <= k < |vs| ==> vs[k] == members[k].1
  {
    if |members| == 0 then [] else [members[0].1] + Values(members[1..])
  }

  /** The nodes a recursive walk descends into: dict values, then list items. */
  function Children(j: Json): (cs: seq<Json>)
    ensures forall c :: c in cs ==> c < j
  {
    match j
    case JArr(xs) => xs
    case JObj(ms) =>
      var vs := Values(ms);
      assert forall k :: 0 <= k < |vs| ==> vs[k] < j by {
        forall k | 0 <= k < |vs| ensures vs[k] < j {
          assert ms[k] in ms;
        }
      }
      vs
    case _ => []
  }

  /** The keys of a dict, in insertion order. */
  function Keys(members: seq<(string, Json)>): (ks: seq<string>)
    ensures |ks| == |members|
    ensures forall k :: 0 <= k < |ks| ==> ks[k] == members[k].0
  {
    if |members| == 0 then [] else [members[0].0] + Keys(members[1..])
  }

  /** What `for x in v` iterates over: list items, the one-character
      strings of a string, the keys of a dict; `None` where Python raises
      "object is not iterable" (None, bools and numbers). */
  function Iteration(v: Json): (r: Option<seq<Json>>)
    ensures r.Some? <==> v.JArr? || v.JStr? || v.JObj?
    ensures v.JStr? || v.JObj? ==> forall k :: 0 <= k < |r.value| ==> r.value[k].JStr?
    ensures v.JArr? ==> r == Some(v.elems)
    ensures v.JStr? ==> |r.value| == |v.text| && forall k :: 0 <= k < |v.text| ==> r.value[k] == JStr([v.text[k]])
    ensures v.JObj? ==> |r.value| == |v.members| && forall k :: 0 <= k < |v.members| ==> r.value[k] == JStr(v.members[k].0)
  {
    match v
    case JArr(xs) => Some(xs)
    case JStr(s) => Some(seq(|s|, k requires 0 <= k < |s| => JStr([s[k]])))
    case JObj(ms) =>
      var ks := Keys(ms);
      Some(seq(|ks|, k requires 0 <= k < |ks| => JStr(ks[k])))
    case _ => None
  }
}

=== FILE: matches.dfy ===
/** `_normalize_matches`, identical in both scripts: each raw match record
    becomes `{id, round, date}`, and a record whose id does not convert is
    dropped. */
module Matches {
  import opened Wrappers
  import opened JsonTree
  import opened PyCoerce
  import opened Seqs
  import Scan

  /** One normalised match. `round` is `None` for Python's `None`. */
  datatype MatchInfo = MatchInfo(id: int, round: Option<int>, date: Json)

  /** The raw round of a record: the first truthy value among the keys
      `round`, `round_number` and `week`, else the last of them (null when
      absent). */
  function RawRound(members: seq<(string, Json)>): Json {
    Or(Or(Get(members, "round"), Get(members, "round_number")), Get(members, "week"))
  }

  /** `int(rnd_raw) if rnd_raw is not None else None`, with a failed
      conversion also giving `None`. */
  function RoundOf(raw: Json): (r: Option<int>)
    ensures raw.JNull? ==> r.None?
    ensures raw.JInt? ==> r == Some(raw.i)
  {
    if raw.JNull? then None else IntOf(raw)
  }

  /** The date of a record: `datetime` when truthy, else `date` when
      truthy, else the empty string. */
  function DateOf(members: seq<(string, Json)>): (d: Json)
    ensures Truthy(Get(members, "datetime")) ==> d == Get(members, "datetime")
    ensures !Truthy(Get(members, "datetime")) && Truthy(Get(members, "date")) ==> d == Get(members, "date")
    ensures !Truthy(Get(members, "datetime")) && !Truthy(Get(members, "date")) ==> d == JStr("")
  {
    Or(Or(Get(members, "datetime"), Get(members, "date")), JStr(""))
  }

  /** One iteration of the loop: `None` is the `continue` taken when
      `int(m.get("id"))` raises (also when `m` is not a dict). */
  function NormalizeMatch(m: Json): (r: Option<MatchInfo>)
    ensures r.Some? <==> m.JObj? && IntOf(Get(m.members, "id")).Some?
    ensures r.Some? ==> r.value.id == IntOf(Get(m.members, "id")).value
    ensures r.Some? ==> r.value.round == RoundOf(RawRound(m.members)) && r.value.date == DateOf(m.members)
  {
    if !m.JObj? then None
    else
      match IntOf(Get(m.members, "id"))
      case None => None
      case Some(mid) => Some(MatchInfo(mid, RoundOf(RawRound(m.members)), DateOf(m.members)))
  }

  /** `_normalize_matches` over the items of a list. */
  function NormalizeMatches(ms: seq<Json>): (r: seq<MatchInfo>)
    ensures |r| <= |ms|
  {
    FilterMap(ms, NormalizeMatch)
  }

  /** Some record of the list has an id that converts. */
  predicate HasGoodId(ms: seq<Json>) {
    exists k :: 0 <= k < |ms| && NormalizeMatch(ms[k]).Some?
  }

  /** The normalised list is non-empty exactly when some record's id
      converts. */
  lemma NormalizeMatchesNonEmpty(ms: seq<Json>)
    ensures |NormalizeMatches(ms)| > 0 <==> HasGoodId(ms)
  {
    FilterMapNonEmpty(ms, NormalizeMatch);
  }

  /** `_normalize_matches(v)` for any parsed JSON value: a dict iterates
      over its keys and a string over its characters (every item is then
      dropped); a scalar raises `TypeError`, given here as `None`. */
  function NormalizeMatchesJson(v: Json): (r: Option<seq<MatchInfo>>)
    ensures r.Some? <==> v.JArr? || v.JStr? || v.JObj?
    ensures v.JArr? ==> r == Some(NormalizeMatches(v.elems))
    ensures v.JStr? || v.JObj? ==> r == Some([])
  {
    if v.JArr? then Some(NormalizeMatches(v.elems))
    else if v.JStr? || v.JObj? then
      var items := Iteration(v).value;
      DropsNonDicts(items);
      Some(NormalizeMatches(items))
    else None
  }

  /** A parsed value normalises to a non-empty list exactly when it is a
      list holding a record whose id converts. */
  lemma NormalizeMatchesJsonNonEmpty(j: Json)
    ensures NormalizeMatchesJson(j).Some? && |NormalizeMatchesJson(j).value| > 0 <==> j.JArr? && HasGoodId(j.elems)
  {
    if j.JArr? {
      NormalizeMatchesNonEmpty(j.elems);
    }
  }

  lemma DropsNonDicts(items: seq<Json>)
    requires forall k :: 0 <= k < |items| ==> items[k].JStr?
    ensures NormalizeMatches(items) == []
  {
    FilterMapDropsAll(items, NormalizeMatch);
  }

  /** The output is the image of the accepted records, in input order:
      there are strictly increasing input positions `idx` such that output
      `k` is the normalisation of input `idx[k]`, and a record is left out
      exactly when its id does not convert. */
  lemma NormalizeMatchesIsOrderedImage(ms: seq<Json>)
    ensures var idx := KeptFrom(ms, NormalizeMatch, 0);
      var r := NormalizeMatches(ms);
      |idx| == |r|
      && (forall k :: 0 <= k < |idx| ==> idx[k] < |ms| && NormalizeMatch(ms[idx[k]]) == Some(r[k]))
      && (forall k, l :: 0 <= k < l < |idx| ==> idx[k] < idx[l])
      && (forall i :: 0 <= i < |ms| && NormalizeMatch(ms[i]).Some? ==> i in idx)
  {
    FilterMapIsOrderedImage(ms, NormalizeMatch);
  }

  /** A record is dropped only for its id: a list of dicts whose ids all
      convert keeps every record, in order. */
  lemma NormalizeMatchesKeepsGoodIds(ms: seq<Json>)
    requires forall k :: 0 <= k < |ms| ==> ms[k].JObj? && IntOf(Get(ms[k].members, "id")).Some?
    ensures |NormalizeMatches(ms)| == |ms|
    ensures forall k :: 0 <= k < |ms| ==>
      NormalizeMatches(ms)[k].id == IntOf(Get(ms[k].members, "id")).value
  {
    FilterMapKeepsAll(ms, NormalizeMatch);
  }

  /** The round is taken from the first truthy key, and a record where no
      key is truthy still keeps its place. */
  lemma RoundPriority(members: seq<(string, Json)>)
    ensures Truthy(Get(members, "round")) ==> RoundOf(RawRound(members)) == RoundOf(Get(members, "round"))
    ensures !Truthy(Get(members, "round")) && Truthy(Get(members, "round_number"))
            ==> RoundOf(RawRound(members)) == RoundOf(Get(members, "round_number"))
    ensures !Truthy(Get(members, "round")) && !Truthy(Get(members, "round_number"))
            ==> RoundOf(RawRound(members)) == RoundOf(Get(members, "week"))
  {
  }

  /** When no round key is truthy the round is unknown or 0 (a falsy value
      such as `0`, `False` or `0.0` still converts; `""`, `[]` and `{}` do
      not). */
  lemma RoundOfFalsy(members: seq<(string, Json)>)
    requires !Truthy(RawRound(members))
    ensures RoundOf(RawRound(members)) in {None, Some(0)}
  {
    var w := RawRound(members);
    if w.JReal? {
      assert w.r == 0.0;
    }
    if w.JStr? {
      assert w.text == "";
      assert IntOfText("") == None;
    }
  }

  /** A site record with string id and round is kept with both converted. */
  lemma NormalizeMatchExample()
    ensures NormalizeMatch(JObj([("id", JStr("101")), ("round", JStr("3")), ("datetime", JStr("2024-08-16"))]))
            == Some(MatchInfo(101, Some(3), JStr("2024-08-16")))
  {
    var ms := [("id", JStr("101")), ("round", JStr("3")), ("datetime", JStr("2024-08-16"))];
    StringIdsConvert();
    assert Get(ms, "id") == JStr("101");
    assert Get(ms, "round") == JStr("3");
    assert RoundOf(RawRound(ms)) == Some(3);
    assert Get(ms, "datetime") == JStr("2024-08-16");
    assert DateOf(ms) == JStr("2024-08-16");
  }

  lemma StringIdsConvert()
    ensures IntOf(JStr("101")) == Some(101)
    ensures IntOf(JStr("3")) == Some(3)
  {
    DigitsValueExamples();
    IntOfDigitString("101");
    IntOfDigitString("3");
  }

  lemma DigitsValueExamples()
    ensures DigitsValue("3") == 3
    ensures DigitsValue("101") == 101
  {
    assert "101"[..2] == "10";
    assert "10"[..1] == "1";
    assert "3"[..0] == "";
  }
}

=== FILE: outcome.dfy ===
/** `_normalize_outcome`, identical in both scripts: lower-case, spaces to
    underscores, then a five-entry table with pass-through. */
module Outcome {
  import opened Wrappers
  import opened JsonTree
  import opened PyCoerce

  /** `v.lower().replace(" ", "_")`: character by character, a space
      becomes `_` and an upper-case letter its lower-case form; every other
      character is kept. */
  function Canonical(v: string): (r: string)
    ensures |r| == |v|
    ensures forall k :: 0 <= k < |v| ==> r[k] == (if v[k] == ' ' then '_' else LowerChar(v[k]))
    ensures forall k :: 0 <= k < |r| ==> r[k] != ' ' && !('A' <= r[k] <= 'Z')
  {
    var low := Lower(v);
    seq(|low|, k requires 0 <= k < |low| => if low[k] == ' ' then '_' else low[k])
  }

  /** The labels the table maps. */
  predicate IsMappedLabel(c: string) {
    c == "goal" || c == "saved" || c == "blocked" || c == "missed" || c == "shot_on_post"
  }

  /** The vocabulary the table maps into. */
  predicate IsVocabulary(r: string) {
    r == "goal" || r == "saved" || r == "blocked" || r == "off_target" || r == "unknown"
  }

  /** `_normalize_outcome(v)` for a string `v`. */
  function NormalizeOutcome(v: string): (r: string)
    ensures |r| > 0
    ensures forall k :: 0 <= k < |r| ==> r[k] != ' ' && !('A' <= r[k] <= 'Z')
    ensures IsVocabulary(r) || (r == Canonical(v) && !IsMappedLabel(r))
  {
    var c := Canonical(v);
    if c == "goal" then "goal"
    else if c == "saved" then "saved"
    else if c == "blocked" then "blocked"
    else if c == "missed" || c == "shot_on_post" then "off_target"
    else if c == "" then "unknown"
    else c
  }

  /** `_normalize_outcome(s.get("result"))` inside the shot loop: a falsy
      value becomes "" first; a truthy value that is not a string has no
      `.lower()` and raises, which drops the shot. */
  function OutcomeOf(v: Json): (r: Option<string>)
    ensures r.None? <==> Truthy(v) && !v.JStr?
    ensures !Truthy(v) ==> r == Some("unknown")
  {
    if !Truthy(v) then Some(NormalizeOutcome(""))
    else if v.JStr? then Some(NormalizeOutcome(v.text))
    else None
  }

  /** The table, both ways: each vocabulary word is produced from exactly
      the labels listed for it; anything else non-empty passes through in
      canonical form. */
  lemma OutcomeTable(v: string)
    ensures NormalizeOutcome(v) == "goal" <==> Canonical(v) == "goal"
    ensures NormalizeOutcome(v) == "saved" <==> Canonical(v) == "saved"
    ensures NormalizeOutcome(v) == "blocked" <==> Canonical(v) == "blocked"
    ensures NormalizeOutcome(v) == "off_target"
            <==> Canonical(v) in {"missed", "shot_on_post", "off_target"}
    ensures NormalizeOutcome(v) == "unknown" <==> Canonical(v) in {"", "unknown"}
    ensures Canonical(v) != "" && !IsMappedLabel(Canonical(v)) ==> NormalizeOutcome(v) == Canonical(v)
  {
  }

  lemma {:induction false} CanonicalIdempotent(v: string)
    ensures Canonical(Canonical(v)) == Canonical(v)
  {
    var c := Canonical(v);
    var cc := Canonical(c);
    assert forall k :: 0 <= k < |c| ==> Lower(c)[k] == c[k];
    assert forall k :: 0 <= k < |c| ==> cc[k] == c[k];
  }

  /** Normalising an already normalised label changes nothing. */
  lemma NormalizeOutcomeIdempotent(v: string)
    ensures NormalizeOutcome(NormalizeOutcome(v)) == NormalizeOutcome(v)
  {
    var r := NormalizeOutcome(v);
    CanonicalIdempotent(v);
    if IsVocabulary(r) {
      CanonicalOfLowercase(r);
    }
  }

  lemma CanonicalOfLowercase(r: string)
    requires forall k :: 0 <= k < |r| ==> r[k] != ' ' && !('A' <= r[k] <= 'Z')
    ensures Canonical(r) == r
  {
    assert forall k :: 0 <= k < |r| ==> Lower(r)[k] == r[k];
  }

  /** Labels as the site writes them. */
  lemma OutcomeExamples()
    ensures NormalizeOutcome("Goal") == "goal"
    ensures NormalizeOutcome("MissedShots") == "missedshots"
    ensures NormalizeOutcome("Shot On Post") == "off_target"
    ensures NormalizeOutcome("") == "unknown"
  {
    assert Canonical("Goal") == "goal";
    assert Canonical("MissedShots") == "missedshots";
    assert Canonical("Shot On Post") == "shot_on_post";
    assert Canonical("") == "";
  }
}

=== FILE: pipeline.dfy ===
/** The part of `main` after the league fetch, shared by both scripts:
    select matches, fetch each match's shots, skip the matches whose fetch
    fails, and stop when no row was collected. */
module Pipeline {
  import opened Wrappers
  import opened JsonTree
  import opened Externals
  import opened Matches
  import opened Shots
  import opened Selection
  import Sorting

  /** Why a run exits without writing a table. */
  datatype RunError =
    | LeagueFailed(cause: FetchError)   // `fetch_league_matches` raised
    | SelectionFailed(why: SelectError) // the sort raised, or nothing was selected
    | NoShotsParsed                     // "No shots parsed."

  /** The rows collected and the ids of the matches skipped with a warning. */
  datatype Report = Report(rows: seq<ShotRow>, skipped: seq<int>)

  /** The per-match shot fetch, as the page-level function it is. */
  type ShotFetch = int -> Result<seq<ShotRow>, FetchError>

  /** `all_rows.extend(rows)` for every match whose fetch returns. */
  function RowsOf(selected: seq<MatchInfo>, fetch: ShotFetch): (r: seq<ShotRow>)
    decreases |selected|
  {
    if |selected| == 0 then []
    else
      var here := fetch(selected[0].id);
      (if here.Success? then here.value else []) + RowsOf(selected[1..], fetch)
  }

  /** The ids behind the `[warn] match ... skipped` lines, in order. */
  function SkippedOf(selected: seq<MatchInfo>, fetch: ShotFetch): (r: seq<int>)
    ensures |r| <= |selected|
    decreases |selected|
  {
    if |selected| == 0 then []
    else (if fetch(selected[0].id).Failure? then [selected[0].id] else []) + SkippedOf(selected[1..], fetch)
  }

  lemma {:induction false} RowsOfAppend(a: seq<MatchInfo>, b: seq<MatchInfo>, fetch: ShotFetch)
    ensures RowsOf(a + b, fetch) == RowsOf(a, fetch) + RowsOf(b, fetch)
    decreases |a|
  {
    if |a| == 0 {
      assert a + b == b;
    } else {
      var here := fetch(a[0].id);
      var head := if here.Success? then here.value else [];
      assert (a + b)[0] == a[0];
      assert (a + b)[1..] == a[1..] + b;
      RowsOfAppend(a[1..], b, fetch);
      assert RowsOf(a + b, fetch) == head + RowsOf(a[1..] + b, fetch);
      assert RowsOf(a, fetch) == head + RowsOf(a[1..], fetch);
      assert head + (RowsOf(a[1..], fetch) + RowsOf(b, fetch))
          == (head + RowsOf(a[1..], fetch)) + RowsOf(b, fetch);
    }
  }

  lemma {:induction false} SkippedOfAppend(a: seq<MatchInfo>, b: seq<MatchInfo>, fetch: ShotFetch)
    ensures SkippedOf(a + b, fetch) == SkippedOf(a, fetch) + SkippedOf(b, fetch)
    decreases |a|
  {
    if |a| == 0 {
      assert a + b == b;
    } else {
      var head := if fetch(a[0].id).Failure? then [a[0].id] else [];
      assert (a + b)[0] == a[0];
      assert (a + b)[1..] == a[1..] + b;
      SkippedOfAppend(a[1..], b, fetch);
      assert SkippedOf(a + b, fetch) == head + SkippedOf(a[1..] + b, fetch);
      assert SkippedOf(a, fetch) == head + SkippedOf(a[1..], fetch);
      assert head + (SkippedOf(a[1..], fetch) + SkippedOf(b, fetch))
          == (head + SkippedOf(a[1..], fetch)) + SkippedOf(b, fetch);
    }
  }

  lemma RowsOfOne(m: MatchInfo, fetch: ShotFetch)
    ensures RowsOf([m], fetch) == if fetch(m.id).Success? then fetch(m.id).value else []
    ensures SkippedOf([m], fetch) == if fetch(m.id).Failure? then [m.id] else []
  {
    assert [m][1..] == [];
  }

  /** The `for m in matches` loop of `main`. */
  method Collect(selected: seq<MatchInfo>, fetch: ShotFetch) returns (rows: seq<ShotRow>, skipped: seq<int>)
    ensures rows == RowsOf(selected, fetch)
    ensures skipped == SkippedOf(selected, fetch)
  {
    rows := [];
    skipped := [];
    var i := 0;
    while i < |selected|
      invariant 0 <= i <= |selected|
      invariant rows == RowsOf(selected[..i], fetch)
      invariant skipped == SkippedOf(selected[..i], fetch)
    {
      var m := selected[i];
      assert selected[..i + 1] == selected[..i] + [m];
      RowsOfAppend(selected[..i], [m], fetch);
      SkippedOfAppend(selected[..i], [m], fetch);
      RowsOfOne(m, fetch);
      var result := fetch(m.id);
      if result.Success? {
        rows := rows + result.value;
      } else {
        skipped := skipped + [m.id];
      }
      i := i + 1;
    }
    assert selected[..i] == selected;
  }

  /** `main` from the league's match list onwards. */
  function Run(league: Result<seq<MatchInfo>, FetchError>, opts: Options, fetch: ShotFetch): (r: Result<Report, RunError>)
    ensures league.Failure? ==> r == Failure(LeagueFailed(league.error))
    ensures r.Success? ==> |r.value.rows| > 0
  {
    match league
    case Failure(e) => Failure(LeagueFailed(e))
    case Success(matches) =>
      match Select(matches, opts)
      case Failure(why) => Failure(SelectionFailed(why))
      case Success(selected) =>
        var rows := RowsOf(selected, fetch);
        if |rows| == 0 then Failure(NoShotsParsed)
        else Success(Report(rows, SkippedOf(selected, fetch)))
  }

  // ---- properties ----

  /** Each match either contributes its rows or is skipped, never both;
      a row comes from the fetch of some selected match. */
  lemma {:induction false} RowsComeFromSelected(selected: seq<MatchInfo>, fetch: ShotFetch, row: ShotRow)
    requires row in RowsOf(selected, fetch)
    ensures exists k :: 0 <= k < |selected| && fetch(selected[k].id).Success? && row in fetch(selected[k].id).value
    decreases |selected|
  {
    var here := fetch(selected[0].id);
    if here.Success? && row in here.value {
    } else {
      RowsComeFromSelected(selected[1..], fetch, row);
      var k :| 0 <= k < |selected[1..]| && fetch(selected[1..][k].id).Success? && row in fetch(selected[1..][k].id).value;
      assert selected[1..][k] == selected[k + 1];
    }
  }

  /** Skipped ids are exactly the selected matches whose fetch failed. */
  lemma {:induction false} SkippedAreFailures(selected: seq<MatchInfo>, fetch: ShotFetch, id: int)
    ensures id in SkippedOf(selected, fetch)
            <==> exists k :: 0 <= k < |selected| && selected[k].id == id && fetch(id).Failure?
    decreases |selected|
  {
    if |selected| > 0 {
      SkippedAreFailures(selected[1..], fetch, id);
      if exists k :: 0 <= k < |selected[1..]| && selected[1..][k].id == id && fetch(id).Failure? {
        var k :| 0 <= k < |selected[1..]| && selected[1..][k].id == id && fetch(id).Failure?;
        assert selected[k + 1].id == id;
      }
      if exists k :: 0 <= k < |selected| && selected[k].id == id && fetch(id).Failure? {
        var k :| 0 <= k < |selected| && selected[k].id == id && fetch(id).Failure?;
        if k > 0 {
          assert selected[1..][k - 1].id == id;
        }
      }
    }
  }

  /** When every fetch labels its rows with the id it was given, as both
      shot fetchers do, every row in the table belongs to a selected
      match. */
  lemma RowsBelongToSelected(selected: seq<MatchInfo>, fetch: ShotFetch, row: ShotRow)
    requires forall id :: fetch(id).Success? ==> forall k :: 0 <= k < |fetch(id).value| ==> fetch(id).value[k].matchId == id
    requires row in RowsOf(selected, fetch)
    ensures exists k :: 0 <= k < |selected| && selected[k].id == row.matchId
  {
    RowsComeFromSelected(selected, fetch, row);
    var k :| 0 <= k < |selected| && fetch(selected[k].id).Success? && row in fetch(selected[k].id).value;
    LabelledRow(fetch(selected[k].id).value, selected[k].id, row);
  }

  lemma LabelledRow(rows: seq<ShotRow>, id: int, row: ShotRow)
    requires forall k :: 0 <= k < |rows| ==> rows[k].matchId == id
    requires row in rows
    ensures row.matchId == id
  {
  }

  /** The same for a whole run. */
  lemma RunRowsBelongToSelected(league: Result<seq<MatchInfo>, FetchError>, opts: Options, fetch: ShotFetch, row: ShotRow)
    requires forall id :: fetch(id).Success? ==> forall k :: 0 <= k < |fetch(id).value| ==> fetch(id).value[k].matchId == id
    requires Run(league, opts, fetch).Success?
    requires row in Run(league, opts, fetch).value.rows
    ensures league.Success? && Select(league.value, opts).Success?
    ensures exists k :: 0 <= k < |Select(league.value, opts).value| && Select(league.value, opts).value[k].id == row.matchId
  {
    RowsBelongToSelected(Select(league.value, opts).value, fetch, row);
  }

  /** The outcome of a run: a table of the successful matches' rows, or
      one of the three distinct exits. */
  lemma RunOutcome(league: Result<seq<MatchInfo>, FetchError>, opts: Options, fetch: ShotFetch)
    requires league.Success? && Select(league.value, opts).Success?
    ensures var selected := Select(league.value, opts).value;
      Run(league, opts, fetch) == (if |RowsOf(selected, fetch)| == 0 then Failure(NoShotsParsed)
                                   else Success(Report(RowsOf(selected, fetch), SkippedOf(selected, fetch))))
  {
  }

  /** The scenario's shot fetch: three rows for match 1, a format
      failure for anything else. */
  function ScenarioFetch(r1: ShotRow, r2: ShotRow, r3: ShotRow): (f: ShotFetch)
    ensures f(1) == Success([r1, r2, r3])
    ensures forall id :: id != 1 ==> f(id) == Failure(FormatNotRecognised)
  {
    id => if id == 1 then Success([r1, r2, r3]) else Failure(FormatNotRecognised)
  }

  /** Two matches, rounds 1 and 2; the first yields three rows, one of
      them a goal, and the second page is not recognised. The table has the
      three rows and one match is reported skipped. */
  lemma TwoMatchScenario(r1: ShotRow, r2: ShotRow, r3: ShotRow)
    requires r1.outcome == "goal"
    ensures var r := Run(Success([MatchInfo(1, Some(1), JStr("2024-08-16")), MatchInfo(2, Some(2), JStr("2024-08-17"))]),
                         Options(None, None, None), ScenarioFetch(r1, r2, r3));
      r.Success? && r.value.rows == [r1, r2, r3] && r.value.skipped == [2]
      && exists k :: 0 <= k < |r.value.rows| && r.value.rows[k].outcome == "goal"
  {
    var m1 := MatchInfo(1, Some(1), JStr("2024-08-16"));
    var m2 := MatchInfo(2, Some(2), JStr("2024-08-17"));
    ScenarioSelect(m1, m2);
    ScenarioCollect(m1, m2, ScenarioFetch(r1, r2, r3));
    assert [r1, r2, r3][0].outcome == "goal";
  }

  lemma ScenarioSelect(m1: MatchInfo, m2: MatchInfo)
    requires m1 == MatchInfo(1, Some(1), JStr("2024-08-16")) && m2 == MatchInfo(2, Some(2), JStr("2024-08-17"))
    ensures Select([m1, m2], Options(None, None, None)) == Success([m1, m2])
  {
    var opts := Options(None, None, None);
    var ms := [m1, m2];
    assert RoundFilter(ms, opts) == ms;
    assert AllDatesText(ms);
    assert Sorting.SortBy(ms, DateText) == ms by {
      SortedPair(m1, m2);
      Sorting.SortBySorted(ms, DateText);
    }
    assert SortByDate(ms) == Success(ms);
    assert Limit(ms, None) == ms;
  }

  lemma ScenarioCollect(m1: MatchInfo, m2: MatchInfo, fetch: ShotFetch)
    requires m1.id == 1 && m2.id == 2
    requires fetch(1).Success? && fetch(2) == Failure(FormatNotRecognised)
    ensures RowsOf([m1, m2], fetch) == fetch(1).value
    ensures SkippedOf([m1, m2], fetch) == [2]
  {
    RowsOfAppend([m1], [m2], fetch);
    RowsOfOne(m1, fetch);
    RowsOfOne(m2, fetch);
    SkippedOfAppend([m1], [m2], fetch);
    assert [m1] + [m2] == [m1, m2];
  }

  lemma SortedPair(m1: MatchInfo, m2: MatchInfo)
    requires m1.date == JStr("2024-08-16") && m2.date == JStr("2024-08-17")
    ensures Sorting.SortedBy([m1, m2], DateText)
  {
    var a := "2024-08-16";
    var b := "2024-08-17";
    assert a[..9] == b[..9];
    assert a[9] < b[9];
    assert Sorting.LexLe(a[9..], b[9..]);
    assert Sorting.LexLe(a[8..], b[8..]);
    assert Sorting.LexLe(a[7..], b[7..]);
    assert Sorting.LexLe(a[6..], b[6..]);
    assert Sorting.LexLe(a[5..], b[5..]);
    assert Sorting.LexLe(a[4..], b[4..]);
    assert Sorting.LexLe(a[3..], b[3..]);
    assert Sorting.LexLe(a[2..], b[2..]);
    assert Sorting.LexLe(a[1..], b[1..]);
    assert Sorting.LexLe(a, b);
  }
}

=== FILE: py_coerce.dfy ===
/** The Python coercions the normalisers lean on, made total: `int(v)`,
    `float(v)` and `str(v).isdigit()` over JSON values, each returning
    `None` where Python raises. Digits and whitespace are ASCII. */
module PyCoerce {
  import opened Wrappers
  import opened JsonTree
  import opened Scan

  predicate IsDigit(c: char) {
    '0' <= c <= '9'
  }

  predicate AllDigits(s: string) {
    forall k :: 0 <= k < |s| ==> IsDigit(s[k])
  }

  function DigitValue(c: char): nat
    requires IsDigit(c)
  {
    c as int - '0' as int
  }

  function DigitChar(d: nat): (c: char)
    requires d < 10
    ensures IsDigit(c) && DigitValue(c) == d
  {
    ('0' as int + d) as char
  }

  /** The number a string of decimal digits denotes; leading zeros allowed. */
  function DigitsValue(s: string): nat
    requires AllDigits(s)
    decreases |s|
  {
    if |s| == 0 then 0 else DigitsValue(s[..|s| - 1]) * 10 + DigitValue(s[|s| - 1])
  }

  /** `str(n)` for a non-negative int: the shortest decimal spelling. */
  function NatText(n: nat): (r: string)
    ensures |r| > 0 && AllDigits(r)
    ensures |r| > 1 ==> r[0] != '0'
  {
    if n < 10 then [DigitChar(n)] else NatText(n / 10) + [DigitChar(n % 10)]
  }

  /** `str(n)` for any int. */
  function IntText(n: int): string {
    if n < 0 then "-" + NatText(-n) else NatText(n)
  }

  lemma {:induction false} NatTextRoundTrip(n: nat)
    ensures DigitsValue(NatText(n)) == n
  {
    if n >= 10 {
      var t := NatText(n);
      assert t[..|t| - 1] == NatText(n / 10);
      NatTextRoundTrip(n / 10);
    }
  }

  // ---- str.strip() ----

  /** Python `s.strip()`: drop leading and trailing whitespace. */
  function StripSpace(s: string): (r: string)
    ensures |r| <= |s|
    ensures |r| > 0 ==> !IsSpace(r[0]) && !IsSpace(r[|r| - 1])
    decreases |s|
  {
    if |s| > 0 && IsSpace(s[0]) then StripSpace(s[1..])
    else if |s| > 0 && IsSpace(s[|s| - 1]) then StripSpace(s[..|s| - 1])
    else s
  }

  predicate AllSpace(s: string) {
    forall k :: 0 <= k < |s| ==> IsSpace(s[k])
  }

  lemma {:induction false} StripSpaceOfSpaces(s: string)
    requires AllSpace(s)
    ensures StripSpace(s) == []
    decreases |s|
  {
    if |s| > 0 {
      StripSpaceOfSpaces(s[1..]);
    }
  }

  /** Stripping recovers the text between any whitespace padding. */
  lemma {:induction false} StripSpaceRemovesPadding(front: string, core: string, back: string)
    requires AllSpace(front) && AllSpace(back)
    requires |core| > 0 ==> !IsSpace(core[0]) && !IsSpace(core[|core| - 1])
    ensures StripSpace(front + core + back) == core
    decreases |front| + |back|
  {
    var s := front + core + back;
    if |core| == 0 {
      assert s == front + back;
      StripSpaceOfSpaces(s);
    } else if |front| > 0 {
      assert s[0] == front[0];
      assert s[1..] == front[1..] + core + back;
      StripSpaceRemovesPadding(front[1..], core, back);
    } else if |back| > 0 {
      var rest := back[..|back| - 1];
      StripTrailingSpace(core + back);
      assert s == core + back;
      assert (core + back)[..|s| - 1] == front + core + rest;
      StripSpaceRemovesPadding(front, core, rest);
    } else {
      assert s == core;
    }
  }

  /** With no space in front, a trailing space is dropped. */
  lemma StripTrailingSpace(s: string)
    requires |s| > 0 && !IsSpace(s[0]) && IsSpace(s[|s| - 1])
    ensures StripSpace(s) == StripSpace(s[..|s| - 1])
  {
  }

  // ---- int() ----

  /** An optionally signed run of at least one digit. */
  function ParseSignedInt(s: string): (r: Option<int>)
    ensures r.Some? ==> |s| > 0
  {
    var neg := |s| > 0 && s[0] == '-';
    var digits := if |s| > 0 && (s[0] == '-' || s[0] == '+') then s[1..] else s;
    if |digits| > 0 && AllDigits(digits) then
      var v: int := DigitsValue(digits);
      Some(if neg then -v else v)
    else None
  }

  /** `int(s)` for a string. */
  function IntOfText(s: string): Option<int> {
    ParseSignedInt(StripSpace(s))
  }

  /** `int(x)` for a float: truncation toward zero. */
  function Trunc(x: real): (n: int)
    ensures x >= 0.0 ==> n as real <= x < n as real + 1.0
    ensures x < 0.0 ==> n as real - 1.0 < x <= n as real
  {
    if x >= 0.0 then x.Floor else -((-x).Floor)
  }

  /** Python `int(v)`; `None` where it raises (None, lists, dicts, text
      that is not an integer literal). */
  function IntOf(v: Json): Option<int> {
    match v
    case JNull => None
    case JBool(b) => Some(if b then 1 else 0)
    case JInt(n) => Some(n)
    case JReal(x) => Some(Trunc(x))
    case JStr(s) => IntOfText(s)
    case JArr(_) => None
    case JObj(_) => None
  }

  /** The spelling of an int: a sign for negatives, then digits. */
  lemma IntTextShape(n: int)
    ensures var t := IntText(n);
            && |t| > 0 && IsDigit(t[|t| - 1])
            && (n < 0 ==> t[0] == '-' && t[1..] == NatText(-n))
            && (n >= 0 ==> t == NatText(n))
  {
  }

  /** `int(str(n))` gives `n` back. */
  lemma IntTextRoundTrip(n: int)
    ensures IntOf(JStr(IntText(n))) == Some(n)
  {
    if n < 0 {
      NegativeIntTextRoundTrip(n);
    } else {
      NatTextRoundTrip(n);
      IntOfDigitString(NatText(n));
    }
  }

  lemma NegativeIntTextRoundTrip(n: int)
    requires n < 0
    ensures IntOf(JStr(IntText(n))) == Some(n)
  {
    var t := IntText(n);
    IntTextShape(n);
    StripSpaceKeepsTrimmed(t);
    NatTextRoundTrip(-n);
    NegatedInt(t);
  }

  /** A minus sign followed by digits reads as the negated digits. */
  lemma NegatedInt(t: string)
    requires |t| > 1 && t[0] == '-' && AllDigits(t[1..])
    ensures ParseSignedInt(t) == Some(-(DigitsValue(t[1..]) as int))
  {
  }

  /** A digit string converts to the number it spells. */
  lemma IntOfDigitString(s: string)
    requires |s| > 0 && AllDigits(s)
    ensures IntOf(JStr(s)) == Some(DigitsValue(s))
  {
    StripSpaceOfDigits(s);
    assert s[0] != '-' && s[0] != '+' by {
      assert IsDigit(s[0]);
    }
  }

  lemma StripSpaceOfDigits(s: string)
    requires |s| > 0 && AllDigits(s)
    ensures StripSpace(s) == s
  {
    assert IsDigit(s[0]);
    assert IsDigit(s[|s| - 1]);
    assert !IsSpace(s[0]) && !IsSpace(s[|s| - 1]);
  }

  // ---- float() ----

  /** Index of the first character of `s` that is `a` or `b`, or `|s|`. */
  function FirstOf(s: string, a: char, b: char): (k: nat)
    ensures k <= |s|
  {
    if |s| == 0 then 0
    else if s[0] == a || s[0] == b then 0
    else 1 + FirstOf(s[1..], a, b)
  }

  /** `digits[.digits]` or `.digits`, at least one digit in all. */
  function MantissaValue(m: string): Option<real> {
    var d := FirstOf(m, '.', '.');
    var whole := m[..d];
    var frac := if d < |m| then m[d + 1..] else [];
    if AllDigits(whole) && AllDigits(frac) && |whole| + |frac| > 0 then
      Some(Scale(DigitsValue(whole + frac) as real, -|frac|))
    else None
  }

  /** `m * 10**x`, one factor of ten at a time. */
  function Scale(m: real, x: int): real
    decreases if x >= 0 then x else -x
  {
    if x == 0 then m
    else if x > 0 then Scale(m, x - 1) * 10.0
    else Scale(m, x + 1) / 10.0
  }

  /** A float literal without sign: mantissa, then optionally `e`/`E` and
      a signed exponent. */
  function UnsignedFloatValue(body: string): Option<real> {
    var e := FirstOf(body, 'e', 'E');
    var m := MantissaValue(body[..e]);
    var x := if e == |body| then Some(0) else ParseSignedInt(body[e + 1..]);
    if m.Some? && x.Some? then Some(Scale(m.value, x.value)) else None
  }

  /** An optionally signed float literal. */
  function SignedFloatValue(t: string): Option<real> {
    if |t| > 0 && t[0] == '-' then
      match UnsignedFloatValue(t[1..])
      case Some(v) => Some(-v)
      case None => None
    else if |t| > 0 && t[0] == '+' then UnsignedFloatValue(t[1..])
    else UnsignedFloatValue(t)
  }

  /** Python `float(s)` for a decimal literal with optional sign and
      exponent, surrounded by optional whitespace. */
  function FloatOfText(s: string): Option<real> {
    SignedFloatValue(StripSpace(s))
  }

  /** Python `float(v)`; `None` where it raises. */
  function FloatOf(v: Json): Option<real> {
    match v
    case JNull => None
    case JBool(b) => Some(if b then 1.0 else 0.0)
    case JInt(n) => Some(n as real)
    case JReal(x) => Some(x)
    case JStr(s) => FloatOfText(s)
    case JArr(_) => None
    case JObj(_) => None
  }

  /** A text holding neither `a` nor `b` has no first occurrence. */
  lemma {:induction false} FirstOfAbsent(s: string, a: char, b: char)
    requires forall m :: 0 <= m < |s| ==> s[m] != a && s[m] != b
    ensures FirstOf(s, a, b) == |s|
  {
    if |s| > 0 {
      assert s[0] != a && s[0] != b;
      FirstOfAbsent(s[1..], a, b);
    }
  }

  /** A digit string reads as the number it spells. */
  lemma UnsignedFloatOfDigits(d: string)
    requires |d| > 0 && AllDigits(d)
    ensures UnsignedFloatValue(d) == Some(DigitsValue(d) as real)
  {
    assert forall m :: 0 <= m < |d| ==> d[m] != 'e' && d[m] != 'E' by {
      forall m | 0 <= m < |d| ensures d[m] != 'e' && d[m] != 'E' {
        assert IsDigit(d[m]);
      }
    }
    FirstOfAbsent(d, 'e', 'E');
    assert d[..|d|] == d;
    MantissaOfDigits(d);
    var v := DigitsValue(d) as real;
    assert Scale(v, 0) == v;
  }

  lemma MantissaOfDigits(d: string)
    requires |d| > 0 && AllDigits(d)
    ensures MantissaValue(d) == Some(DigitsValue(d) as real)
  {
    assert forall m :: 0 <= m < |d| ==> d[m] != '.' by {
      forall m | 0 <= m < |d| ensures d[m] != '.' {
        assert IsDigit(d[m]);
      }
    }
    FirstOfAbsent(d, '.', '.');
    assert d[..|d|] == d;
    assert d + [] == d;
  }

  /** `float(str(n))` is `n`: the integer spelling reads back as a float. */
  lemma FloatOfIntText(n: int)
    ensures FloatOf(JStr(IntText(n))) == Some(n as real)
  {
    if n < 0 {
      FloatOfNegativeText(n);
    } else {
      FloatOfNatText(n);
    }
  }

  lemma FloatOfNatText(n: nat)
    ensures FloatOf(JStr(IntText(n))) == Some(n as real)
  {
    var t := NatText(n);
    assert IntText(n) == t;
    StripSpaceOfDigits(t);
    assert t[0] != '-' && t[0] != '+' by {
      assert IsDigit(t[0]);
    }
    assert SignedFloatValue(t) == UnsignedFloatValue(t);
    UnsignedFloatOfDigits(t);
    NatTextRoundTrip(n);
  }

  lemma FloatOfNegativeText(n: int)
    requires n < 0
    ensures FloatOf(JStr(IntText(n))) == Some(n as real)
  {
    var t := IntText(n);
    IntTextShape(n);
    StripSpaceKeepsTrimmed(t);
    UnsignedFloatOfDigits(t[1..]);
    NatTextRoundTrip(-n);
    NegatedUnsigned(t, (-n) as real);
  }

  /** A leading minus negates the unsigned reading of the rest. */
  lemma NegatedUnsigned(t: string, v: real)
    requires |t| > 0 && t[0] == '-'
    requires UnsignedFloatValue(t[1..]) == Some(v)
    ensures SignedFloatValue(t) == Some(-v)
  {
  }

  /** Text without whitespace at either end is left as it is by `strip()`. */
  lemma StripSpaceKeepsTrimmed(t: string)
    requires |t| > 0 && !IsSpace(t[0]) && !IsSpace(t[|t| - 1])
    ensures StripSpace(t) == t
  {
  }

  lemma DigitsValue25()
    ensures DigitsValue("025") == 25 && DigitsValue("15") == 15 && DigitsValue("1") == 1
  {
    assert "025"[..2] == "02";
    assert "02"[..1] == "0";
    assert "0"[..0] == "";
    assert "15"[..1] == "1";
    assert "1"[..0] == "";
  }

  /** A fraction with a decimal point reads as that fraction. */
  lemma FloatOfFraction()
    ensures FloatOf(JStr("0.25")) == Some(0.25)
  {
    var a := "0.25";
    assert StripSpace(a) == a;
    assert FirstOf(a, 'e', 'E') == 4;
    assert a[..4] == a;
    assert FirstOf(a, '.', '.') == 1;
    assert a[..1] == "0" && a[2..] == "25";
    assert "0" + "25" == "025";
    DigitsValue25();
    assert Scale(25.0, -2) == 0.25 by {
      assert Scale(25.0, -1) == 2.5;
    }
  }

  lemma MantissaOneAndHalf()
    ensures MantissaValue("1.5") == Some(1.5)
  {
    var m := "1.5";
    assert FirstOf(m, '.', '.') == 1;
    assert m[..1] == "1" && m[2..] == "5";
    assert "1" + "5" == "15";
    DigitsValue25();
    assert Scale(15.0, -1) == 1.5;
  }

  lemma UnsignedExponentExample()
    ensures UnsignedFloatValue("1.5e1") == Some(15.0)
  {
    var body := "1.5e1";
    ExponentMarkerExample();
    assert body[..3] == "1.5" && body[4..] == "1";
    MantissaOneAndHalf();
    assert ParseSignedInt("1") == Some(1) by {
      DigitsValue25();
    }
    assert Scale(1.5, 1) == 15.0;
  }

  lemma ExponentMarkerExample()
    ensures FirstOf("1.5e1", 'e', 'E') == 3
  {
    var body := "1.5e1";
    assert body[1..] == ".5e1" && ".5e1"[1..] == "5e1" && "5e1"[1..] == "e1";
    assert FirstOf("e1", 'e', 'E') == 0;
  }

  /** Sign, surrounding whitespace and an exponent are honoured. */
  lemma FloatOfSignedExponent()
    ensures FloatOf(JStr(" -1.5e1 ")) == Some(-15.0)
  {
    var b := " -1.5e1 ";
    assert StripSpace(b) == "-1.5e1" by {
      assert b[1..] == "-1.5e1 ";
      assert "-1.5e1 "[..6] == "-1.5e1";
    }
    assert "-1.5e1"[1..] == "1.5e1";
    UnsignedExponentExample();
  }

  // ---- str(v).isdigit() ----

  /** Python `str(v).isdigit()`: true exactly for non-empty all-digit text.
      `str` of None, a bool, a float, a list or a dict always contains a
      non-digit ("None", "True", "1.0", "[]", "{}"). */
  predicate StrIsDigit(v: Json) {
    match v
    case JInt(n) => AllDigits(IntText(n))
    case JStr(s) => |s| > 0 && AllDigits(s)
    case _ => false
  }

  /** An int passes the digit test exactly when it is not negative. */
  lemma StrIsDigitOfInt(n: int)
    ensures StrIsDigit(JInt(n)) <==> n >= 0
  {
    if n < 0 {
      assert IntText(n)[0] == '-';
    }
  }

  /** Whatever passes the digit test converts with `int()` to a
      non-negative number. */
  lemma StrIsDigitConverts(v: Json)
    requires StrIsDigit(v)
    ensures IntOf(v).Some? && IntOf(v).value >= 0
  {
    match v
    case JInt(n) => StrIsDigitOfInt(n);
    case JStr(s) => IntOfDigitString(s);
  }

  // ---- str.lower() ----

  function LowerChar(c: char): char {
    if 'A' <= c <= 'Z' then (c as int + 32) as char else c
  }

  /** Python `s.lower()` on ASCII letters. */
  function Lower(s: string): (r: string)
    ensures |r| == |s|
    ensures forall k :: 0 <= k < |s| ==> r[k] == LowerChar(s[k])
  {
    seq(|s|, k requires 0 <= k < |s| => LowerChar(s[k]))
  }
}

=== FILE: scan.dfy ===
/** Character-level scanning: the pieces the scrapers' regular expressions
    and `str.replace` / `re.sub` calls are built from. `\s` is read as
    ASCII whitespace. */
module Scan {
  import opened Wrappers

  /** `\s` over ASCII: space, tab, newline, carriage return, vertical tab,
      form feed. */
  predicate IsSpace(c: char) {
    c == ' ' || c == '\t' || c == '\n' || c == '\r' || c as int == 11 || c as int == 12
  }

  /** `w` occurs in `t` at position `i`. */
  predicate StartsAt(t: string, i: nat, w: string) {
    i + |w| <= |t| && t[i..i + |w|] == w
  }

  /** Greedy `\s*` from position `i`: the first position at or after `i`
      that is not whitespace. */
  function SkipSpace(t: string, i: nat): (j: nat)
    requires i <= |t|
    ensures i <= j <= |t|
    ensures forall k :: i <= k < j ==> IsSpace(t[k])
    ensures j == |t| || !IsSpace(t[j])
    decreases |t| - i
  {
    if i < |t| && IsSpace(t[i]) then SkipSpace(t, i + 1) else i
  }

  /** `t[a..b]` is all whitespace. */
  predicate Spaces(t: string, a: nat, b: nat) {
    a <= b <= |t| && forall k :: a <= k < b ==> IsSpace(t[k])
  }

  /** Greedy `\s*` over a run of whitespace stops at the first character
      after it that is not whitespace. */
  lemma SkipSpaceStops(t: string, a: nat, b: nat)
    requires Spaces(t, a, b) && b < |t| && !IsSpace(t[b])
    ensures SkipSpace(t, a) == b
  {
  }

  /** Lazy `.*?` followed by `term`: the leftmost occurrence of `term` at
      or after `from`. */
  function FindTerm(t: string, from: nat, term: string): (r: Option<nat>)
    ensures r.Some? ==> from <= r.value && StartsAt(t, r.value, term)
    ensures r.Some? ==> forall k :: from <= k < r.value ==> !StartsAt(t, k, term)
    ensures r.None? ==> forall k :: from <= k ==> !StartsAt(t, k, term)
    decreases |t| - from
  {
    if from > |t| then None
    else if StartsAt(t, from, term) then Some(from)
    else FindTerm(t, from + 1, term)
  }

  // ---- str.replace ----

  /** Python `s.replace(pat, rep)`: every non-overlapping occurrence of
      `pat`, scanned left to right, becomes `rep`. */
  function ReplaceAll(s: string, pat: string, rep: string): (r: string)
    requires |pat| > 0
    decreases |s|
  {
    if StartsAt(s, 0, pat) then rep + ReplaceAll(s[|pat|..], pat, rep)
    else if |s| == 0 then []
    else [s[0]] + ReplaceAll(s[1..], pat, rep)
  }

  lemma {:induction false} ReplaceAllWithoutOccurrence(s: string, pat: string, rep: string)
    requires |pat| > 0
    requires forall k :: !StartsAt(s, k, pat)
    ensures ReplaceAll(s, pat, rep) == s
    decreases |s|
  {
    if |s| > 0 {
      assert !StartsAt(s, 0, pat);
      forall k: nat ensures !StartsAt(s[1..], k, pat) {
        assert !StartsAt(s, k + 1, pat);
        if k + |pat| <= |s[1..]| {
          assert s[1..][k..k + |pat|] == s[k + 1..k + 1 + |pat|];
        }
      }
      ReplaceAllWithoutOccurrence(s[1..], pat, rep);
    }
  }

  /** If the output of a replacement starts with `w`, and `w` does not
      contain the first character of `rep`, then the input started with
      `w` too: no replacement happened inside that prefix. */
  lemma {:induction false} ReplacePrefixComesFromInput(s: string, pat: string, rep: string, w: string)
    requires |pat| > 0 && |rep| > 0
    requires forall k :: 0 <= k < |w| ==> w[k] != rep[0]
    ensures StartsAt(ReplaceAll(s, pat, rep), 0, w) ==> StartsAt(s, 0, w)
    decreases |w|
  {
    if |w| > 0 {
      var r := ReplaceAll(s, pat, rep);
      if StartsAt(s, 0, pat) {
        assert r[0] == rep[0];
      } else if |s| > 0 {
        var rest := ReplaceAll(s[1..], pat, rep);
        assert r == [s[0]] + rest;
        ReplacePrefixComesFromInput(s[1..], pat, rep, w[1..]);
        if StartsAt(r, 0, w) {
          assert rest[0..|w| - 1] == r[1..|w|];
          assert StartsAt(rest, 0, w[1..]);
          assert s[0..|w|] == [s[0]] + s[1..][0..|w| - 1];
        }
      }
    }
  }

  /** Sufficient conditions on `pat` and `rep` for `s.replace(pat, rep)` to
      leave no occurrence of `pat` behind: the first character of `pat`
      occurs neither later in `pat` nor after the start of `rep`, and `pat`
      cannot begin at the start of `rep`. */
  predicate ReplacementIsFinal(pat: string, rep: string) {
    && |pat| > 1 && |rep| > 0
    && (forall k :: 1 <= k < |pat| ==> pat[k] != pat[0])
    && (forall k :: 1 <= k < |rep| ==> rep[k] != pat[0])
    && rep[0] == pat[0]
    && exists k :: 0 < k < |pat| && k < |rep| && pat[k] != rep[k]
  }

  /** An occurrence past a prefix is an occurrence in the rest. */
  lemma OccurrenceAfterPrefix(a: string, b: string, q: nat, pat: string)
    requires q >= |a|
    ensures StartsAt(a + b, q, pat) <==> StartsAt(b, q - |a|, pat)
  {
    if q + |pat| <= |a + b| {
      assert (a + b)[q..q + |pat|] == b[q - |a|..q - |a| + |pat|];
    }
  }

  lemma NoOccurrenceAfterReplacement(rest: string, pat: string, rep: string)
    requires ReplacementIsFinal(pat, rep)
    requires forall q :: !StartsAt(rest, q, pat)
    ensures forall q :: !StartsAt(rep + rest, q, pat)
  {
    var r := rep + rest;
    forall q: nat ensures !StartsAt(r, q, pat) {
      if q >= |rep| {
        OccurrenceAfterPrefix(rep, rest, q, pat);
      } else if q == 0 {
        var k :| 0 < k < |pat| && k < |rep| && pat[k] != rep[k];
        assert r[k] == rep[k];
      } else {
        assert r[q] == rep[q];
      }
    }
  }

  lemma NoOccurrenceAfterCopy(s: string, pat: string, rep: string)
    requires ReplacementIsFinal(pat, rep)
    requires |s| > 0 && !StartsAt(s, 0, pat)
    requires forall q :: !StartsAt(ReplaceAll(s[1..], pat, rep), q, pat)
    ensures forall q :: !StartsAt([s[0]] + ReplaceAll(s[1..], pat, rep), q, pat)
  {
    var rest := ReplaceAll(s[1..], pat, rep);
    var r := [s[0]] + rest;
    forall q: nat ensures !StartsAt(r, q, pat) {
      if q >= 1 {
        OccurrenceAfterPrefix([s[0]], rest, q, pat);
      } else {
        var tail := pat[1..];
        forall k | 0 <= k < |tail| ensures tail[k] != rep[0] {
          assert tail[k] == pat[k + 1];
        }
        ReplacePrefixComesFromInput(s[1..], pat, rep, tail);
        assert pat == [pat[0]] + tail;
        if |pat| <= |s| {
          assert s[0..|pat|] == [s[0]] + s[1..][0..|tail|];
        }
        if |pat| <= |r| {
          assert r[0..|pat|] == [s[0]] + rest[0..|tail|];
        }
      }
    }
  }

  lemma {:induction false} ReplaceAllRemovesEveryOccurrence(s: string, pat: string, rep: string)
    requires ReplacementIsFinal(pat, rep)
    ensures forall q :: !StartsAt(ReplaceAll(s, pat, rep), q, pat)
    decreases |s|
  {
    if StartsAt(s, 0, pat) {
      ReplaceAllRemovesEveryOccurrence(s[|pat|..], pat, rep);
      NoOccurrenceAfterReplacement(ReplaceAll(s[|pat|..], pat, rep), pat, rep);
    } else if |s| > 0 {
      ReplaceAllRemovesEveryOccurrence(s[1..], pat, rep);
      NoOccurrenceAfterCopy(s, pat, rep);
    }
  }

  // ---- re.sub(r",\s*<close>", "<close>", s) ----

  /** Python `re.sub(r",\s*}", "}", s)` (or with `]`): each comma followed by
      optional whitespace and the closing character is dropped together
      with that whitespace; matches are found left to right without
      overlapping. */
  function StripCommaBefore(s: string, close: char): (r: string)
    ensures |r| <= |s|
    decreases |s|
  {
    if |s| == 0 then []
    else if s[0] == ',' && SkipSpace(s, 1) < |s| && s[SkipSpace(s, 1)] == close then
      [close] + StripCommaBefore(s[SkipSpace(s, 1) + 1..], close)
    else [s[0]] + StripCommaBefore(s[1..], close)
  }

  /** The characters that carry content in a JSON text once commas and
      whitespace are ignored. */
  function Essence(s: string): (r: string)
    ensures |r| <= |s|
  {
    if |s| == 0 then []
    else (if s[0] == ',' || IsSpace(s[0]) then [] else [s[0]]) + Essence(s[1..])
  }

  lemma {:induction false} EssenceAppend(a: string, b: string)
    ensures Essence(a + b) == Essence(a) + Essence(b)
    decreases |a|
  {
    if |a| == 0 {
      assert a + b == b;
    } else {
      assert (a + b)[1..] == a[1..] + b;
      EssenceAppend(a[1..], b);
    }
  }

  /** Trailing-comma repair only ever deletes commas and whitespace: every
      other character survives, in order. */
  lemma {:induction false} StripCommaKeepsEssence(s: string, close: char)
    requires close != ',' && !IsSpace(close)
    ensures Essence(StripCommaBefore(s, close)) == Essence(s)
    decreases |s|
  {
    if |s| > 0 {
      if s[0] == ',' && SkipSpace(s, 1) < |s| && s[SkipSpace(s, 1)] == close {
        var j := SkipSpace(s, 1);
        StripCommaKeepsEssence(s[j + 1..], close);
        StripCommaRemovedStep(s, close, j);
      } else {
        StripCommaKeepsEssence(s[1..], close);
        StripCommaCopiedStep(s, close);
      }
    }
  }

  /** One deletion step: `,` and the whitespace after it vanish, and the
      closing character is kept. */
  lemma StripCommaRemovedStep(s: string, close: char, j: nat)
    requires close != ',' && !IsSpace(close)
    requires |s| > 0 && s[0] == ',' && j == SkipSpace(s, 1) && j < |s| && s[j] == close
    requires Essence(StripCommaBefore(s[j + 1..], close)) == Essence(s[j + 1..])
    ensures Essence(StripCommaBefore(s, close)) == Essence(s)
  {
    var rest := s[j + 1..];
    var out := StripCommaBefore(rest, close);
    assert StripCommaBefore(s, close) == [close] + out;
    assert ([close] + out)[1..] == out;
    assert Essence([close] + out) == [close] + Essence(out);
    assert Essence(s) == Essence(s[1..]);
    EssenceSkipsSpaces(s, 1, j);
    assert s[j..][0] == close && s[j..][1..] == rest;
    assert Essence(s[j..]) == [close] + Essence(rest);
  }

  /** A run of whitespace contributes nothing to the essence. */
  lemma {:induction false} EssenceSkipsSpaces(s: string, i: nat, j: nat)
    requires i <= j <= |s|
    requires forall k :: i <= k < j ==> IsSpace(s[k])
    ensures Essence(s[i..]) == Essence(s[j..])
    decreases j - i
  {
    if i < j {
      assert s[i..][0] == s[i];
      assert s[i..][1..] == s[i + 1..];
      EssenceSkipsSpaces(s, i + 1, j);
    }
  }

  /** One copying step: the first character is kept as it is. */
  lemma StripCommaCopiedStep(s: string, close: char)
    requires |s| > 0
    requires !(s[0] == ',' && SkipSpace(s, 1) < |s| && s[SkipSpace(s, 1)] == close)
    requires Essence(StripCommaBefore(s[1..], close)) == Essence(s[1..])
    ensures Essence(StripCommaBefore(s, close)) == Essence(s)
  {
    assert StripCommaBefore(s, close) == [s[0]] + StripCommaBefore(s[1..], close);
    EssenceAppend([s[0]], StripCommaBefore(s[1..], close));
    assert [s[0]] + s[1..] == s;
    EssenceAppend([s[0]], s[1..]);
  }

  /** A text without commas is left untouched. */
  lemma {:induction false} StripCommaWithoutCommas(s: string, close: char)
    requires forall k :: 0 <= k < |s| ==> s[k] != ','
    ensures StripCommaBefore(s, close) == s
    decreases |s|
  {
    if |s| > 0 {
      StripCommaWithoutCommas(s[1..], close);
    }
  }

  /** The repair is a single left-to-right pass: in `,,}` the first comma is
      not followed by `}`, so one comma survives. */
  lemma StripCommaIsSinglePass()
    ensures StripCommaBefore(",,}", '}') == ",}"
  {
    assert SkipSpace(",,}", 1) == 1;
    assert SkipSpace(",}", 1) == 1;
    assert ",,}"[1..] == ",}";
    assert ",}"[2..] == [];
  }
}

=== FILE: selection.dfy ===
/** The selection steps of `main`, identical in both scripts: optional
    inclusive round bounds, a stable sort on the date, and an optional
    "most recent N" tail. */
module Selection {
  import opened Wrappers
  import opened JsonTree
  import opened Seqs
  import opened Sorting
  import opened Matches

  /** `--from-round`, `--to-round` and `--limit-matches`. */
  datatype Options = Options(fromRound: Option<int>, toRound: Option<int>, limit: Option<int>)

  datatype SelectError =
    | UnorderableDates      // `sort` raised TypeError comparing a non-string date
    | NoMatchesAfterFilters // "No matches found after filters."

  /** The upper default: `10**9`. */
  const NoUpperRound: int := 1000000000

  /** `m["round"] or default`: an unknown round and round 0 both read as
      the default. */
  function RoundOr(round: Option<int>, default: int): (n: int)
    ensures round.Some? && round.value != 0 ==> n == round.value
    ensures round.None? || round == Some(0) ==> n == default
  {
    if round.Some? && round.value != 0 then round.value else default
  }

  predicate AtOrAfter(from: int, m: MatchInfo) {
    RoundOr(m.round, 0) >= from
  }

  predicate AtOrBefore(to: int, m: MatchInfo) {
    RoundOr(m.round, NoUpperRound) <= to
  }

  function FromBound(from: int): MatchInfo -> bool {
    m => AtOrAfter(from, m)
  }

  function ToBound(to: int): MatchInfo -> bool {
    m => AtOrBefore(to, m)
  }

  /** Whether a match passes the bounds that are given. */
  predicate WithinBounds(opts: Options, m: MatchInfo) {
    (opts.fromRound.Some? ==> AtOrAfter(opts.fromRound.value, m))
    && (opts.toRound.Some? ==> AtOrBefore(opts.toRound.value, m))
  }

  /** The lower round bound: keep, in order, the matches whose round is at
      least `from`, an unknown round counting as 0. */
  function KeepFrom(ms: seq<MatchInfo>, from: int): (r: seq<MatchInfo>)
    ensures |r| <= |ms|
    ensures forall k :: 0 <= k < |r| ==> AtOrAfter(from, r[k])
  {
    Filter(ms, FromBound(from))
  }

  /** The upper round bound: keep, in order, the matches whose round is at
      most `to`, an unknown round counting as 10**9. */
  function KeepTo(ms: seq<MatchInfo>, to: int): (r: seq<MatchInfo>)
    ensures |r| <= |ms|
    ensures forall k :: 0 <= k < |r| ==> AtOrBefore(to, r[k])
  {
    Filter(ms, ToBound(to))
  }

  /** Both bounds, each only when given. */
  function RoundFilter(ms: seq<MatchInfo>, opts: Options): (r: seq<MatchInfo>)
    ensures |r| <= |ms|
  {
    var a := if opts.fromRound.Some? then KeepFrom(ms, opts.fromRound.value) else ms;
    if opts.toRound.Some? then KeepTo(a, opts.toRound.value) else a
  }

  /** The sort key `m.get("date") or ""` when the date is a string. */
  function DateText(m: MatchInfo): string {
    if m.date.JStr? then m.date.text else ""
  }

  predicate AllDatesText(ms: seq<MatchInfo>) {
    forall k :: 0 <= k < |ms| ==> ms[k].date.JStr?
  }

  /** `matches.sort(key=lambda m: m.get("date") or "")`. String dates sort
      stably by code point; a list of at most one match is never compared;
      otherwise a non-string key is taken to make the sort raise. */
  function SortByDate(ms: seq<MatchInfo>): (r: Result<seq<MatchInfo>, SelectError>)
    ensures r.Success? <==> AllDatesText(ms) || |ms| <= 1
    ensures r.Success? ==> SortedBy(r.value, DateText) && multiset(r.value) == multiset(ms)
  {
    if AllDatesText(ms) then
      SortByIsSorted(ms, DateText);
      Success(SortBy(ms, DateText))
    else if |ms| <= 1 then
      Success(ms)
    else Failure(UnorderableDates)
  }

  /** Python `s[-n:]` for `n != 0`: a positive `n` keeps the last `n`
      items (all of them if there are fewer); a negative `n` drops the first
      `-n`. */
  function TailSlice<T>(s: seq<T>, n: int): (r: seq<T>)
    requires n != 0
    ensures |r| <= |s| && r == s[|s| - |r|..]
    ensures n > 0 ==> |r| == if n < |s| then n else |s|
    ensures n < 0 ==> |r| == if -n < |s| then |s| + n else 0
  {
    if n > 0 then (if n < |s| then s[|s| - n..] else s)
    else (if -n < |s| then s[-n..] else [])
  }

  /** The match limit: with a truthy limit `n`, keep the tail slice
      `[-n:]` (the most recent matches once sorted by date); with no limit
      or 0, keep everything. */
  function Limit<T>(s: seq<T>, limit: Option<int>): (r: seq<T>)
    ensures |r| <= |s| && r == s[|s| - |r|..]
    ensures limit.None? || limit == Some(0) ==> r == s
  {
    if limit.Some? && limit.value != 0 then TailSlice(s, limit.value) else s
  }

  /** The whole selection, ending in the "no matches" exit. */
  function Select(ms: seq<MatchInfo>, opts: Options): (r: Result<seq<MatchInfo>, SelectError>)
    ensures r.Success? ==> |r.value| > 0 && |r.value| <= |ms|
    ensures r.Success? && opts.limit.Some? && opts.limit.value > 0 ==> |r.value| <= opts.limit.value
  {
    var sorted :- SortByDate(RoundFilter(ms, opts));
    var chosen := Limit(sorted, opts.limit);
    if |chosen| == 0 then Failure(NoMatchesAfterFilters) else Success(chosen)
  }

  // ---- properties ----

  /** The lower bound keeps a match exactly when its round, with unknown
      and 0 read as 0, reaches it; order is kept. */
  lemma KeepFromExactly(ms: seq<MatchInfo>, from: int, m: MatchInfo)
    ensures m in KeepFrom(ms, from) <==> m in ms && RoundOr(m.round, 0) >= from
  {
    FilterMembership(ms, FromBound(from), m);
  }

  /** The upper bound keeps a match exactly when its round, with unknown
      and 0 read as 10**9, does not exceed it. */
  lemma KeepToExactly(ms: seq<MatchInfo>, to: int, m: MatchInfo)
    ensures m in KeepTo(ms, to) <==> m in ms && RoundOr(m.round, NoUpperRound) <= to
  {
    FilterMembership(ms, ToBound(to), m);
  }

  /** A match whose round is unknown or 0 is removed by every upper bound
      below 10**9 and by every positive lower bound. */
  lemma UnknownRoundExcluded(ms: seq<MatchInfo>, m: MatchInfo, to: int, from: int)
    requires m.round.None? || m.round == Some(0)
    ensures to < NoUpperRound ==> m !in KeepTo(ms, to)
    ensures from > 0 ==> m !in KeepFrom(ms, from)
  {
    KeepToExactly(ms, to, m);
    KeepFromExactly(ms, from, m);
  }

  /** Round filters can only remove matches, never reorder them, so they
      commute. */
  lemma RoundFiltersCommute(ms: seq<MatchInfo>, from: int, to: int)
    ensures KeepTo(KeepFrom(ms, from), to) == KeepFrom(KeepTo(ms, to), from)
  {
    FilterCommute(ms, FromBound(from), ToBound(to));
  }

  /** The sort keeps, for each date, the relative order the matches had. */
  lemma SortByDateStable(ms: seq<MatchInfo>, date: string)
    requires AllDatesText(ms)
    ensures Filter(SortByDate(ms).value, KeyIs(DateText, date)) == Filter(ms, KeyIs(DateText, date))
  {
    SortByIsStable(ms, DateText, date);
  }

  /** A positive limit keeps the `min(N, len)` latest matches after the
      sort; a negative one drops the earliest `-N`. */
  lemma LimitKeepsLatest<T>(s: seq<T>, n: int)
    requires n > 0
    ensures Limit(s, Some(n)) == s[|s| - (if n < |s| then n else |s|)..]
  {
  }

  /** The round filters keep a sub-multiset of the input, all within the
      given bounds. */
  lemma RoundFilterSound(ms: seq<MatchInfo>, opts: Options)
    ensures multiset(RoundFilter(ms, opts)) <= multiset(ms)
    ensures forall m :: m in RoundFilter(ms, opts) ==> WithinBounds(opts, m)
  {
    var a := if opts.fromRound.Some? then KeepFrom(ms, opts.fromRound.value) else ms;
    if opts.fromRound.Some? {
      FilterMultiset(ms, FromBound(opts.fromRound.value));
    }
    if opts.toRound.Some? {
      FilterMultiset(a, ToBound(opts.toRound.value));
    }
    forall m | m in RoundFilter(ms, opts)
      ensures WithinBounds(opts, m)
    {
      if opts.toRound.Some? {
        KeepToExactly(a, opts.toRound.value, m);
      }
      if opts.fromRound.Some? {
        KeepFromExactly(ms, opts.fromRound.value, m);
      }
    }
  }

  lemma SuffixSound<T>(s: seq<T>, r: seq<T>)
    requires |r| <= |s| && r == s[|s| - |r|..]
    ensures multiset(r) <= multiset(s)
    ensures forall x :: x in r ==> x in s
  {
    assert s == s[..|s| - |r|] + r;
  }

  lemma SelectSteps(ms: seq<MatchInfo>, opts: Options)
    requires Select(ms, opts).Success?
    ensures SortByDate(RoundFilter(ms, opts)).Success?
    ensures Select(ms, opts).value == Limit(SortByDate(RoundFilter(ms, opts)).value, opts.limit)
  {
  }

  /** A key-ordered list stays key-ordered in any suffix. */
  lemma SuffixSorted(s: seq<MatchInfo>, r: seq<MatchInfo>)
    requires SortedBy(s, DateText)
    requires |r| <= |s| && r == s[|s| - |r|..]
    ensures SortedBy(r, DateText)
  {
    forall i, j | 0 <= i < j < |r|
      ensures LexLe(DateText(r[i]), DateText(r[j]))
    {
      var off := |s| - |r|;
      assert r[i] == s[off + i] && r[j] == s[off + j];
    }
  }

  lemma BoundsCarryOver(b: seq<MatchInfo>, r: seq<MatchInfo>, opts: Options)
    requires multiset(r) <= multiset(b)
    requires forall m :: m in b ==> WithinBounds(opts, m)
    ensures forall k :: 0 <= k < |r| ==> WithinBounds(opts, r[k])
  {
    forall k | 0 <= k < |r|
      ensures WithinBounds(opts, r[k])
    {
      assert r[k] in multiset(r);
      assert r[k] in multiset(b);
    }
  }

  /** What a successful selection returns: matches from the input that
      pass both bounds, in date order, each at most as often as in the
      input. */
  lemma SelectSound(ms: seq<MatchInfo>, opts: Options)
    requires Select(ms, opts).Success?
    ensures var r := Select(ms, opts).value;
      multiset(r) <= multiset(ms)
      && SortedBy(r, DateText)
      && forall k :: 0 <= k < |r| ==> WithinBounds(opts, r[k])
  {
    var b := RoundFilter(ms, opts);
    SelectSteps(ms, opts);
    var sorted := SortByDate(b).value;
    var r := Select(ms, opts).value;
    RoundFilterSound(ms, opts);
    SuffixSound(sorted, r);
    assert multiset(r) <= multiset(b);
    SuffixSorted(sorted, r);
    BoundsCarryOver(b, r, opts);
  }

  /** The "no matches" exit is taken exactly when nothing is left. */
  lemma SelectEmptyExit(ms: seq<MatchInfo>, opts: Options)
    requires SortByDate(RoundFilter(ms, opts)).Success?
    ensures Select(ms, opts) == Failure(NoMatchesAfterFilters)
            <==> |Limit(SortByDate(RoundFilter(ms, opts)).value, opts.limit)| == 0
  {
  }
}

=== FILE: seqs.dfy ===
/** Sequence combinators for the scrapers' loops: `[x for x in xs if p(x)]`,
    the "try to convert each record, skip the ones that raise" loop, and
    `list.extend` over several lists. */
module Seqs {
  import opened Wrappers

  /** Keep the elements satisfying `p`, in order. */
  function Filter<T>(xs: seq<T>, p: T -> bool): (r: seq<T>)
    ensures |r| <= |xs|
    ensures forall k :: 0 <= k < |r| ==> p(r[k])
  {
    if |xs| == 0 then [] else (if p(xs[0]) then [xs[0]] else []) + Filter(xs[1..], p)
  }

  lemma {:induction false} FilterAppend<T>(a: seq<T>, b: seq<T>, p: T -> bool)
    ensures Filter(a + b, p) == Filter(a, p) + Filter(b, p)
    decreases |a|
  {
    if |a| == 0 {
      assert a + b == b;
    } else {
      assert (a + b)[1..] == a[1..] + b;
      FilterAppend(a[1..], b, p);
    }
  }

  /** An element survives the filter exactly when it was there and passes. */
  lemma {:induction false} FilterMembership<T>(xs: seq<T>, p: T -> bool, x: T)
    ensures x in Filter(xs, p) <==> x in xs && p(x)
    decreases |xs|
  {
    if |xs| > 0 {
      FilterMembership(xs[1..], p, x);
      assert xs == [xs[0]] + xs[1..];
    }
  }

  lemma {:induction false} FilterAll<T>(xs: seq<T>, p: T -> bool)
    requires forall k :: 0 <= k < |xs| ==> p(xs[k])
    ensures Filter(xs, p) == xs
    decreases |xs|
  {
    if |xs| > 0 {
      FilterAll(xs[1..], p);
    }
  }

  lemma {:induction false} FilterMultiset<T>(xs: seq<T>, p: T -> bool)
    ensures multiset(Filter(xs, p)) <= multiset(xs)
    decreases |xs|
  {
    if |xs| > 0 {
      FilterMultiset(xs[1..], p);
      assert xs == [xs[0]] + xs[1..];
    }
  }

  /** Two filters applied one after the other commute. */
  lemma {:induction false} FilterCommute<T>(xs: seq<T>, p: T -> bool, q: T -> bool)
    ensures Filter(Filter(xs, p), q) == Filter(Filter(xs, q), p)
    decreases |xs|
  {
    if |xs| > 0 {
      var h := xs[0];
      FilterCommute(xs[1..], p, q);
      FilterAppend(if p(h) then [h] else [], Filter(xs[1..], p), q);
      FilterAppend(if q(h) then [h] else [], Filter(xs[1..], q), p);
      assert Filter([h], q) == (if q(h) then [h] else []) + Filter([h][1..], q);
      assert Filter([h], p) == (if p(h) then [h] else []) + Filter([h][1..], p);
    }
  }

  /** Convert every element with `f`, dropping those it rejects. */
  function FilterMap<A, B>(xs: seq<A>, f: A -> Option<B>): (r: seq<B>)
    ensures |r| <= |xs|
  {
    if |xs| == 0 then []
    else
      (match f(xs[0]) case Some(y) => [y] case None => []) + FilterMap(xs[1..], f)
  }

  lemma {:induction false} FilterMapAppend<A, B>(a: seq<A>, b: seq<A>, f: A -> Option<B>)
    ensures FilterMap(a + b, f) == FilterMap(a, f) + FilterMap(b, f)
    decreases |a|
  {
    if |a| == 0 {
      assert a + b == b;
    } else {
      var h: seq<B> := if f(a[0]).Some? then [f(a[0]).value] else [];
      assert (a + b)[0] == a[0];
      assert (a + b)[1..] == a[1..] + b;
      assert FilterMap(a + b, f) == h + FilterMap(a[1..] + b, f);
      assert FilterMap(a, f) == h + FilterMap(a[1..], f);
      FilterMapAppend(a[1..], b, f);
      assert h + (FilterMap(a[1..], f) + FilterMap(b, f)) == (h + FilterMap(a[1..], f)) + FilterMap(b, f);
    }
  }

  /** The positions, from `i` on, whose element `f` accepts. */
  function KeptFrom<A, B>(xs: seq<A>, f: A -> Option<B>, i: nat): (r: seq<nat>)
    ensures forall k :: 0 <= k < |r| ==> i <= r[k] < |xs| && f(xs[r[k]]).Some?
    ensures forall k, m :: 0 <= k < m < |r| ==> r[k] < r[m]
    ensures forall j :: i <= j < |xs| && f(xs[j]).Some? ==> j in r
    decreases |xs| - i
  {
    if i >= |xs| then []
    else (if f(xs[i]).Some? then [i] else []) + KeptFrom(xs, f, i + 1)
  }

  /** The output of a filter-map is the accepted elements' images, in
      order: row `k` is the image of input `KeptFrom(xs, f, 0)[k]`, those
      positions increase, and every accepted position is among them. */
  lemma FilterMapIsOrderedImage<A, B>(xs: seq<A>, f: A -> Option<B>)
    ensures var kept := KeptFrom(xs, f, 0);
            && |FilterMap(xs, f)| == |kept|
            && forall k :: 0 <= k < |kept| ==> f(xs[kept[k]]) == Some(FilterMap(xs, f)[k])
  {
    FilterMapSuffix(xs, f, 0);
    assert xs[0..] == xs;
  }

  /** `out[k]` is the image of input `kept[k]`, for every `k`. */
  ghost predicate ImageAt<A, B>(xs: seq<A>, f: A -> Option<B>, kept: seq<nat>, out: seq<B>) {
    |out| == |kept| && forall k :: 0 <= k < |kept| ==> kept[k] < |xs| && f(xs[kept[k]]) == Some(out[k])
  }

  /** An accepted element in front extends an image by one. */
  lemma ImageAtCons<A, B>(xs: seq<A>, f: A -> Option<B>, i: nat, kept: seq<nat>, out: seq<B>)
    requires i < |xs| && f(xs[i]).Some? && ImageAt(xs, f, kept, out)
    ensures ImageAt(xs, f, [i] + kept, [f(xs[i]).value] + out)
  {
    var kept' := [i] + kept;
    var out' := [f(xs[i]).value] + out;
    forall k | 0 <= k < |kept'|
      ensures kept'[k] < |xs| && f(xs[kept'[k]]) == Some(out'[k])
    {
      if k > 0 {
        assert kept'[k] == kept[k - 1] && out'[k] == out[k - 1];
      }
    }
  }

  lemma {:induction false} FilterMapSuffix<A, B>(xs: seq<A>, f: A -> Option<B>, i: nat)
    requires i <= |xs|
    ensures ImageAt(xs, f, KeptFrom(xs, f, i), FilterMap(xs[i..], f))
    decreases |xs| - i
  {
    if i < |xs| {
      FilterMapSuffix(xs, f, i + 1);
      var out := FilterMap(xs[i + 1..], f);
      var later := KeptFrom(xs, f, i + 1);
      assert xs[i..][0] == xs[i];
      assert xs[i..][1..] == xs[i + 1..];
      if f(xs[i]).Some? {
        assert FilterMap(xs[i..], f) == [f(xs[i]).value] + out;
        assert KeptFrom(xs, f, i) == [i] + later;
        ImageAtCons(xs, f, i, later, out);
      } else {
        assert FilterMap(xs[i..], f) == out;
        assert KeptFrom(xs, f, i) == later;
      }
    }
  }

  /** A filter-map that rejects every element yields nothing. */
  lemma {:induction false} FilterMapDropsAll<A, B>(xs: seq<A>, f: A -> Option<B>)
    requires forall k :: 0 <= k < |xs| ==> f(xs[k]).None?
    ensures FilterMap(xs, f) == []
    decreases |xs|
  {
    if |xs| > 0 {
      FilterMapDropsAll(xs[1..], f);
    }
  }

  /** A filter-map yields something exactly when some element is
      accepted. */
  lemma {:induction false} FilterMapNonEmpty<A, B>(xs: seq<A>, f: A -> Option<B>)
    ensures |FilterMap(xs, f)| > 0 <==> exists k :: 0 <= k < |xs| && f(xs[k]).Some?
    decreases |xs|
  {
    if |xs| > 0 {
      FilterMapNonEmpty(xs[1..], f);
      if f(xs[0]).None? {
        assert FilterMap(xs, f) == FilterMap(xs[1..], f);
        if exists k :: 0 <= k < |xs| && f(xs[k]).Some? {
          var k :| 0 <= k < |xs| && f(xs[k]).Some?;
          assert xs[1..][k - 1] == xs[k];
        }
      }
    }
  }

  /** When no element is rejected, nothing is dropped. */
  lemma {:induction false} FilterMapKeepsAll<A, B>(xs: seq<A>, f: A -> Option<B>)
    requires forall k :: 0 <= k < |xs| ==> f(xs[k]).Some?
    ensures |FilterMap(xs, f)| == |xs|
    ensures forall k :: 0 <= k < |xs| ==> FilterMap(xs, f)[k] == f(xs[k]).value
    decreases |xs|
  {
    if |xs| > 0 {
      FilterMapKeepsAll(xs[1..], f);
      assert FilterMap(xs, f) == [f(xs[0]).value] + FilterMap(xs[1..], f);
    }
  }

  /** A property every accepted image has, every output element has. */
  lemma {:induction false} FilterMapPreserves<A, B>(xs: seq<A>, f: A -> Option<B>, p: B -> bool)
    requires forall k :: 0 <= k < |xs| && f(xs[k]).Some? ==> p(f(xs[k]).value)
    ensures forall k :: 0 <= k < |FilterMap(xs, f)| ==> p(FilterMap(xs, f)[k])
    decreases |xs|
  {
    if |xs| > 0 {
      FilterMapPreserves(xs[1..], f, p);
    }
  }

  /** Concatenate a list of lists in order (`list.extend` in a loop). */
  function Concat<T>(xss: seq<seq<T>>): seq<T> {
    if |xss| == 0 then [] else xss[0] + Concat(xss[1..])
  }

  lemma {:induction false} ConcatAppend<T>(a: seq<seq<T>>, b: seq<seq<T>>)
    ensures Concat(a + b) == Concat(a) + Concat(b)
    decreases |a|
  {
    if |a| == 0 {
      assert a + b == b;
    } else {
      assert (a + b)[1..] == a[1..] + b;
      ConcatAppend(a[1..], b);
    }
  }

  // ---- Fallback chains ----

  /** The answer of a chain of alternatives tried in order: the first one
      present, or `None` when none is. */
  function FirstSome<T>(alts: seq<Option<T>>): (r: Option<T>)
    ensures r.Some? ==> r in alts
    ensures r.None? <==> forall k :: 0 <= k < |alts| ==> alts[k].None?
  {
    if |alts| == 0 then None
    else if alts[0].Some? then alts[0]
    else FirstSome(alts[1..])
  }

  /** The chain answers with alternative `i` when every earlier one is
      absent: later alternatives are never consulted. */
  lemma {:induction false} FirstSomeIsFirst<T>(alts: seq<Option<T>>, i: nat)
    requires i < |alts| && alts[i].Some?
    requires forall j :: 0 <= j < i ==> alts[j].None?
    ensures FirstSome(alts) == alts[i]
    decreases i
  {
    if i > 0 {
      assert alts[0].None?;
      FirstSomeIsFirst(alts[1..], i - 1);
    }
  }

  /** A two-step chain: the first alternative if present, else the second. */
  lemma FirstSomeOfTwo<T>(a: Option<T>, b: Option<T>)
    ensures FirstSome([a, b]) == if a.Some? then a else b
  {
    if a.None? {
      assert [a, b][1..] == [b];
      assert [b][1..] == [];
    }
  }

  /** A three-step chain, tried left to right. */
  lemma FirstSomeOfThree<T>(a: Option<T>, b: Option<T>, c: Option<T>)
    ensures FirstSome([a, b, c]) == if a.Some? then a else if b.Some? then b else c
  {
    if a.None? {
      assert [a, b, c][1..] == [b, c];
      FirstSomeOfTwo(b, c);
    }
  }
}

=== FILE: shots.dfy ===
/** `_normalize_shots` in its two forms. Both turn the `h` and `a` lists
    of a shot container into flat rows and drop, one by one, the records
    whose coercions raise; `scripts/understat_shots.py` skips a side that
    is not a list, while `scripts/fetch_understat.py` iterates whatever the
    side holds. */
module Shots {
  import opened Wrappers
  import opened JsonTree
  import opened PyCoerce
  import opened Seqs
  import opened Outcome

  const PitchLength: real := 105.0
  const PitchWidth: real := 68.0

  /** The output columns, in the order the table is written. */
  const Columns: seq<string> := [
    "match_id", "date", "player", "team", "minute",
    "x", "y", "xg", "outcome", "is_penalty",
    "player_id", "h_a", "situation", "shotType", "assisted_by", "lastAction"]

  /** One output row; the text-valued columns keep the raw JSON value,
      since `s.get(k) or ""` passes any truthy value through. */
  datatype ShotRow = ShotRow(
    matchId: int, date: Json, player: Json, team: Json, minute: int,
    x: real, y: real, xg: real, outcome: string, isPenalty: bool,
    playerId: Option<int>, side: Json, situation: Json, shotType: Json,
    assistedBy: Json, lastAction: Json)

  /** A text column, `s.get(k) or ""`: the stored value when it is truthy,
      and the empty string when the key is absent or its value falsy. */
  function TextOr(members: seq<(string, Json)>, key: string): (r: Json)
    ensures Truthy(Get(members, key)) ==> r == Get(members, key)
    ensures !Truthy(Get(members, key)) ==> r == JStr("")
  {
    Or(Get(members, key), JStr(""))
  }

  /** The `is_penalty` column. An absent key reads as `"0"` for the digit
      test and as `0` for the conversion, so it gives false. */
  function PenaltyFlag(members: seq<(string, Json)>): (r: bool)
    ensures r <==> HasKey(members, "isPenalty")
                   && StrIsDigit(GetOr(members, "isPenalty", JStr("0")))
                   && IntOf(GetOr(members, "isPenalty", JInt(0))) != Some(0)
  {
    match Lookup(members, "isPenalty")
    case None => false
    case Some(v) =>
      if StrIsDigit(v) then
        StrIsDigitConverts(v);
        IntOf(v).value != 0
      else false
  }

  /** The `player_id` column: converted exactly when its text is all
      digits; an absent key reads as `""`, which is not. */
  function PlayerIdOf(members: seq<(string, Json)>): (r: Option<int>)
    ensures r.Some? <==> StrIsDigit(GetOr(members, "player_id", JStr("")))
    ensures r.Some? ==> r.value >= 0 && Some(r.value) == IntOf(Get(members, "player_id"))
  {
    match Lookup(members, "player_id")
    case None => None
    case Some(v) =>
      if StrIsDigit(v) then
        StrIsDigitConverts(v);
        Some(IntOf(v).value)
      else None
  }

  /** The coercions inside the per-record `try`; a record that is not a
      dict fails at its first `.get`. */
  predicate Converts(s: Json) {
    s.JObj?
    && FloatOf(GetOr(s.members, "x", JReal(0.0))).Some?
    && FloatOf(GetOr(s.members, "y", JReal(0.0))).Some?
    && FloatOf(GetOr(s.members, "minute", JInt(0))).Some?
    && FloatOf(GetOr(s.members, "xG", JReal(0.0))).Some?
    && OutcomeOf(Get(s.members, "result")).Some?
  }

  /** One pass of the per-record `try`: `None` is the `continue` taken when
      a coercion raises. */
  function NormalizeShot(matchId: int, s: Json): (r: Option<ShotRow>)
    ensures r.Some? <==> Converts(s)
    ensures r.Some? ==>
      var row := r.value;
      row.matchId == matchId
      && row.x == FloatOf(GetOr(s.members, "x", JReal(0.0))).value * PitchLength
      && row.y == (1.0 - FloatOf(GetOr(s.members, "y", JReal(0.0))).value) * PitchWidth
      && row.outcome == OutcomeOf(Get(s.members, "result")).value
      && row.isPenalty == PenaltyFlag(s.members)
      && row.playerId == PlayerIdOf(s.members)
    ensures r.Some? ==>
      var row := r.value;
      && row.minute == Trunc(FloatOf(GetOr(s.members, "minute", JInt(0))).value)
      && row.xg == FloatOf(GetOr(s.members, "xG", JReal(0.0))).value
    ensures r.Some? ==>
      var row := r.value;
      && row.date == TextOr(s.members, "date")
      && row.player == TextOr(s.members, "player")
      && row.team == TextOr(s.members, "team")
      && row.side == TextOr(s.members, "h_a")
      && row.situation == TextOr(s.members, "situation")
      && row.shotType == TextOr(s.members, "shotType")
      && row.assistedBy == TextOr(s.members, "player_assisted")
      && row.lastAction == TextOr(s.members, "lastAction")
  {
    if !s.JObj? then None
    else
      var ms := s.members;
      var xn :- FloatOf(GetOr(ms, "x", JReal(0.0)));
      var yn :- FloatOf(GetOr(ms, "y", JReal(0.0)));
      var minute :- FloatOf(GetOr(ms, "minute", JInt(0)));
      var xg :- FloatOf(GetOr(ms, "xG", JReal(0.0)));
      var outcome :- OutcomeOf(Get(ms, "result"));
      Some(ShotRow(
        matchId, TextOr(ms, "date"), TextOr(ms, "player"), TextOr(ms, "team"), Trunc(minute),
        xn * PitchLength, (1.0 - yn) * PitchWidth, xg, outcome, PenaltyFlag(ms),
        PlayerIdOf(ms), TextOr(ms, "h_a"), TextOr(ms, "situation"), TextOr(ms, "shotType"),
        TextOr(ms, "player_assisted"), TextOr(ms, "lastAction")))
  }

  /** The rows of one side's records, in order. */
  function SideRows(matchId: int, items: seq<Json>): (r: seq<ShotRow>)
    ensures |r| <= |items|
    ensures forall k :: 0 <= k < |r| ==> r[k].matchId == matchId
  {
    FilterMapPreserves(items, s => NormalizeShot(matchId, s), (row: ShotRow) => row.matchId == matchId);
    FilterMap(items, s => NormalizeShot(matchId, s))
  }

  /** The value stored under side `h` or `a`, or an empty list when the
      container has no such key. */
  function SideValue(members: seq<(string, Json)>, side: string): Json {
    GetOr(members, side, JArr([]))
  }

  /** The rows a side contributes when it is list-checked: none unless it
      is a list. */
  function CheckedSide(matchId: int, members: seq<(string, Json)>, side: string): (r: seq<ShotRow>)
    ensures !SideValue(members, side).JArr? ==> r == []
  {
    var v := SideValue(members, side);
    if v.JArr? then SideRows(matchId, v.elems) else []
  }

  /** `_normalize_shots` of `scripts/understat_shots.py`. `None` stands for
      the `AttributeError` raised when the container is not a dict. */
  function NormalizeShotsChecked(matchId: int, shots: Json): (r: Option<seq<ShotRow>>)
    ensures r.Some? <==> shots.JObj?
    ensures r.Some? ==> forall k :: 0 <= k < |r.value| ==> r.value[k].matchId == matchId
  {
    if !shots.JObj? then None
    else Some(CheckedSide(matchId, shots.members, "h") + CheckedSide(matchId, shots.members, "a"))
  }

  /** The rows a side contributes without the list check; `None` where
      iterating the side raises `TypeError`. */
  function UncheckedSide(matchId: int, members: seq<(string, Json)>, side: string): (r: Option<seq<ShotRow>>)
    ensures r.Some? <==> Iteration(SideValue(members, side)).Some?
  {
    var items :- Iteration(SideValue(members, side));
    Some(SideRows(matchId, items))
  }

  /** `_normalize_shots` of `scripts/fetch_understat.py`. */
  function NormalizeShotsUnchecked(matchId: int, shots: Json): (r: Option<seq<ShotRow>>)
    ensures r.Some? <==> shots.JObj? && Iteration(SideValue(shots.members, "h")).Some?
                         && Iteration(SideValue(shots.members, "a")).Some?
    ensures r.Some? ==> forall k :: 0 <= k < |r.value| ==> r.value[k].matchId == matchId
  {
    if !shots.JObj? then None
    else
      var h :- UncheckedSide(matchId, shots.members, "h");
      var a :- UncheckedSide(matchId, shots.members, "a");
      Some(h + a)
  }

  /** Side `side` is a list holding at least one record whose coercions
      all succeed. */
  predicate SideHasShot(members: seq<(string, Json)>, side: string) {
    var v := SideValue(members, side);
    v.JArr? && exists k :: 0 <= k < |v.elems| && Converts(v.elems[k])
  }

  /** A list-checked side contributes rows exactly when it holds a record
      that converts. */
  lemma CheckedSideNonEmpty(matchId: int, members: seq<(string, Json)>, side: string)
    ensures |CheckedSide(matchId, members, side)| > 0 <==> SideHasShot(members, side)
  {
    var v := SideValue(members, side);
    if v.JArr? {
      var f := s => NormalizeShot(matchId, s);
      FilterMapNonEmpty(v.elems, f);
      assert forall k :: 0 <= k < |v.elems| ==> (f(v.elems[k]).Some? <==> Converts(v.elems[k]));
    }
  }

  /** A dict container gives rows exactly when one of its sides is a list
      holding a record that converts. */
  lemma CheckedRowsNonEmpty(matchId: int, members: seq<(string, Json)>)
    ensures |NormalizeShotsChecked(matchId, JObj(members)).value| > 0
            <==> SideHasShot(members, "h") || SideHasShot(members, "a")
  {
    CheckedSideNonEmpty(matchId, members, "h");
    CheckedSideNonEmpty(matchId, members, "a");
  }

  // ---- properties ----

  /** The pitch transform is invertible: the raw coordinates are recovered
      from a row, and unit-square input lands on the 105 x 68 pitch. */
  lemma PitchTransform(xn: real, yn: real)
    ensures (xn * PitchLength) / PitchLength == xn
    ensures 1.0 - ((1.0 - yn) * PitchWidth) / PitchWidth == yn
    ensures 0.0 <= xn <= 1.0 ==> 0.0 <= xn * PitchLength <= PitchLength
    ensures 0.0 <= yn <= 1.0 ==> 0.0 <= (1.0 - yn) * PitchWidth <= PitchWidth
  {
  }

  /** Every row of a side is the normalisation of one of the side's
      records, in the records' order, and a record is missing exactly when
      it does not convert. */
  lemma SideRowsIsOrderedImage(matchId: int, items: seq<Json>)
    ensures var f := s => NormalizeShot(matchId, s);
      var idx := KeptFrom(items, f, 0);
      var r := SideRows(matchId, items);
      |idx| == |r|
      && (forall k :: 0 <= k < |idx| ==> idx[k] < |items| && NormalizeShot(matchId, items[idx[k]]) == Some(r[k]))
      && (forall k, l :: 0 <= k < l < |idx| ==> idx[k] < idx[l])
      && (forall i :: 0 <= i < |items| && Converts(items[i]) ==> i in idx)
  {
    var f := s => NormalizeShot(matchId, s);
    FilterMapIsOrderedImage(items, f);
  }

  /** The rows of `h` come first, then those of `a`. */
  lemma CheckedSideOrder(matchId: int, members: seq<(string, Json)>)
    requires SideValue(members, "h").JArr? && SideValue(members, "a").JArr?
    ensures NormalizeShotsChecked(matchId, JObj(members))
            == Some(SideRows(matchId, SideValue(members, "h").elems) + SideRows(matchId, SideValue(members, "a").elems))
  {
  }

  /** A side that is a string or a dict is iterated, but every item is a
      string and is dropped, so it contributes no row. */
  lemma IteratedNonListGivesNothing(matchId: int, v: Json)
    requires v.JStr? || v.JObj?
    ensures SideRows(matchId, Iteration(v).value) == []
  {
    var items := Iteration(v).value;
    FilterMapDropsAll(items, s => NormalizeShot(matchId, s));
  }

  /** Whenever the unchecked variant returns, it returns what the checked
      variant does. */
  lemma ShotVariantsAgree(matchId: int, shots: Json)
    requires NormalizeShotsUnchecked(matchId, shots).Some?
    ensures NormalizeShotsChecked(matchId, shots) == NormalizeShotsUnchecked(matchId, shots)
  {
    var ms := shots.members;
    SideAgrees(matchId, ms, "h");
    SideAgrees(matchId, ms, "a");
  }

  lemma SideAgrees(matchId: int, members: seq<(string, Json)>, side: string)
    requires UncheckedSide(matchId, members, side).Some?
    ensures UncheckedSide(matchId, members, side) == Some(CheckedSide(matchId, members, side))
  {
    var v := SideValue(members, side);
    if !v.JArr? {
      IteratedNonListGivesNothing(matchId, v);
    }
  }

  /** The variants part exactly on a scalar side: there the checked one
      skips the side and the unchecked one raises. */
  lemma ShotVariantsDisagreeOnScalarSide(matchId: int)
    ensures NormalizeShotsChecked(matchId, JObj([("h", JInt(1)), ("a", JArr([]))])) == Some([])
    ensures NormalizeShotsUnchecked(matchId, JObj([("h", JInt(1)), ("a", JArr([]))])) == None
  {
    var ms := [("h", JInt(1)), ("a", JArr([]))];
    assert SideValue(ms, "h") == JInt(1);
    assert SideValue(ms, "a") == JArr([]);
    assert SideRows(matchId, []) == [];
    assert CheckedSide(matchId, ms, "a") == [];
    assert CheckedSide(matchId, ms, "h") == [];
    var e: seq<ShotRow> := [];
    assert NormalizeShotsChecked(matchId, JObj(ms)) == Some(e + e);
    assert e + e == e;
  }

  /** `player_id` is present exactly for all-digit text or a
      non-negative int. */
  lemma PlayerIdCases(v: Json)
    ensures PlayerIdOf([("player_id", v)]).Some? <==>
      (v.JStr? && |v.text| > 0 && AllDigits(v.text)) || (v.JInt? && v.i >= 0)
    ensures PlayerIdOf([]) == None
  {
    if v.JInt? {
      StrIsDigitOfInt(v.i);
    }
  }
}

=== FILE: sorting.dfy ===
/** `list.sort(key=...)` on string keys: Python compares strings by code
    point, lexicographically, and its sort is stable. */
module Sorting {
  import opened Seqs

  /** `a <= b` for Python strings. */
  predicate LexLe(a: string, b: string)
    decreases |a|
  {
    |a| == 0 || (|b| > 0 && (a[0] < b[0] || (a[0] == b[0] && LexLe(a[1..], b[1..]))))
  }

  lemma {:induction false} LexLeReflexive(a: string)
    ensures LexLe(a, a)
    decreases |a|
  {
    if |a| > 0 {
      LexLeReflexive(a[1..]);
    }
  }

  lemma {:induction false} LexLeTotal(a: string, b: string)
    ensures LexLe(a, b) || LexLe(b, a)
    decreases |a|
  {
    if |a| > 0 && |b| > 0 && a[0] == b[0] {
      LexLeTotal(a[1..], b[1..]);
    }
  }

  lemma {:induction false} LexLeTransitive(a: string, b: string, c: string)
    requires LexLe(a, b) && LexLe(b, c)
    ensures LexLe(a, c)
    decreases |a|
  {
    if |a| > 0 && a[0] == b[0] && b[0] == c[0] {
      LexLeTransitive(a[1..], b[1..], c[1..]);
    }
  }

  lemma {:induction false} LexLeAntisymmetric(a: string, b: string)
    requires LexLe(a, b) && LexLe(b, a)
    ensures a == b
    decreases |a|
  {
    if |a| > 0 {
      LexLeAntisymmetric(a[1..], b[1..]);
      assert a == [a[0]] + a[1..] && b == [b[0]] + b[1..];
    }
  }

  /** Keys never decrease along the list. */
  predicate SortedBy<T>(xs: seq<T>, key: T -> string) {
    forall i, j :: 0 <= i < j < |xs| ==> LexLe(key(xs[i]), key(xs[j]))
  }

  /** Put `x` in front of the first element whose key is not smaller, so
      that `x` precedes every element with an equal key. */
  function Insert<T>(x: T, s: seq<T>, key: T -> string): (r: seq<T>)
    ensures |r| == |s| + 1
    ensures multiset(r) == multiset(s) + multiset{x}
  {
    if |s| == 0 then [x]
    else if LexLe(key(x), key(s[0])) then [x] + s
    else
      assert s == [s[0]] + s[1..];
      [s[0]] + Insert(x, s[1..], key)
  }

  /** Stable insertion sort by a string key. */
  function SortBy<T>(xs: seq<T>, key: T -> string): (r: seq<T>)
    ensures |r| == |xs|
    ensures multiset(r) == multiset(xs)
  {
    if |xs| == 0 then []
    else
      assert xs == [xs[0]] + xs[1..];
      Insert(xs[0], SortBy(xs[1..], key), key)
  }

  lemma {:induction false} InsertSorted<T>(x: T, s: seq<T>, key: T -> string)
    requires SortedBy(s, key)
    ensures SortedBy(Insert(x, s, key), key)
    decreases |s|
  {
    var r := Insert(x, s, key);
    if |s| == 0 {
    } else if LexLe(key(x), key(s[0])) {
      forall i, j | 0 <= i < j < |r|
        ensures LexLe(key(r[i]), key(r[j]))
      {
        if i == 0 {
          if j > 1 {
            LexLeTransitive(key(x), key(s[0]), key(s[j - 1]));
          }
        } else {
          assert r[i] == s[i - 1] && r[j] == s[j - 1];
        }
      }
    } else {
      var t := Insert(x, s[1..], key);
      InsertSorted(x, s[1..], key);
      LexLeTotal(key(x), key(s[0]));
      forall j | 0 <= j < |t|
        ensures LexLe(key(s[0]), key(t[j]))
      {
        assert t[j] in multiset(s[1..]) + multiset{x};
        if t[j] in multiset(s[1..]) {
          var m :| 0 <= m < |s[1..]| && s[1..][m] == t[j];
          assert s[m + 1] == t[j];
        }
      }
      forall i, j | 0 <= i < j < |r|
        ensures LexLe(key(r[i]), key(r[j]))
      {
        if i > 0 {
          assert r[i] == t[i - 1] && r[j] == t[j - 1];
        } else {
          assert r[j] == t[j - 1];
        }
      }
    }
  }

  /** The sorted list is in key order. */
  lemma {:induction false} SortByIsSorted<T>(xs: seq<T>, key: T -> string)
    ensures SortedBy(SortBy(xs, key), key)
    decreases |xs|
  {
    if |xs| > 0 {
      SortByIsSorted(xs[1..], key);
      InsertSorted(xs[0], SortBy(xs[1..], key), key);
    }
  }

  /** The elements with key `k`. */
  function KeyIs<T>(key: T -> string, k: string): T -> bool {
    y => key(y) == k
  }

  lemma FilterCons<T>(a: T, t: seq<T>, p: T -> bool)
    ensures Filter([a] + t, p) == (if p(a) then [a] else []) + Filter(t, p)
  {
    assert ([a] + t)[1..] == t;
  }

  lemma {:induction false} FilterInsert<T>(x: T, s: seq<T>, key: T -> string, k: string)
    ensures Filter(Insert(x, s, key), KeyIs(key, k))
            == (if key(x) == k then [x] else []) + Filter(s, KeyIs(key, k))
    decreases |s|, 1
  {
    var p := KeyIs(key, k);
    if |s| == 0 {
      FilterCons(x, s, p);
      assert [x] + s == [x];
    } else if LexLe(key(x), key(s[0])) {
      FilterCons(x, s, p);
    } else {
      FilterInsertPast(x, s, key, k);
    }
  }

  /** The case where `x` is inserted after the head of `s`. */
  lemma {:induction false} FilterInsertPast<T>(x: T, s: seq<T>, key: T -> string, k: string)
    requires |s| > 0 && !LexLe(key(x), key(s[0]))
    ensures Filter(Insert(x, s, key), KeyIs(key, k))
            == (if key(x) == k then [x] else []) + Filter(s, KeyIs(key, k))
    decreases |s|, 0
  {
    var p := KeyIs(key, k);
    var px: seq<T> := if key(x) == k then [x] else [];
    var p0: seq<T> := if key(s[0]) == k then [s[0]] else [];
    var t := Insert(x, s[1..], key);
    assert Insert(x, s, key) == [s[0]] + t;
    FilterInsert(x, s[1..], key, k);
    FilterCons(s[0], t, p);
    assert Filter(Insert(x, s, key), p) == p0 + (px + Filter(s[1..], p));
    FilterCons(s[0], s[1..], p);
    assert s == [s[0]] + s[1..];
    assert Filter(s, p) == p0 + Filter(s[1..], p);
    LexLeReflexive(key(x));
    SwapEmpty(p0, px, Filter(s[1..], p));
  }

  lemma SwapEmpty<T>(a: seq<T>, b: seq<T>, c: seq<T>)
    requires a == [] || b == []
    ensures a + (b + c) == b + (a + c)
  {
    if a == [] {
      assert a + (b + c) == b + c && a + c == c;
    } else {
      assert b + (a + c) == a + c && b + c == c;
    }
  }

  /** Stability: the elements sharing any one key keep their input order. */
  lemma {:induction false} SortByIsStable<T>(xs: seq<T>, key: T -> string, k: string)
    ensures Filter(SortBy(xs, key), KeyIs(key, k)) == Filter(xs, KeyIs(key, k))
    decreases |xs|
  {
    if |xs| > 0 {
      SortByIsStable(xs[1..], key, k);
      FilterInsert(xs[0], SortBy(xs[1..], key), key, k);
    }
  }

  /** An already sorted list is left as it is. */
  lemma {:induction false} SortBySorted<T>(xs: seq<T>, key: T -> string)
    requires SortedBy(xs, key)
    ensures SortBy(xs, key) == xs
    decreases |xs|
  {
    if |xs| > 0 {
      assert SortedBy(xs[1..], key) by {
        forall i, j | 0 <= i < j < |xs[1..]|
          ensures LexLe(key(xs[1..][i]), key(xs[1..][j]))
        {
          assert xs[1..][i] == xs[i + 1] && xs[1..][j] == xs[j + 1];
        }
      }
      SortBySorted(xs[1..], key);
      if |xs| > 1 {
        assert LexLe(key(xs[0]), key(xs[1]));
      }
    }
  }
}

=== FILE: understat_shots.dfy ===
/** The fetchers and `main` of scripts/understat_shots.py: each source is
    accepted only when it yields a non-empty list, and every failure of a
    source falls through to the next one. */
module UnderstatShots {
  import opened Wrappers
  import opened JsonTree
  import opened Externals
  import opened Extract
  import opened DeepSearch
  import opened Matches
  import opened Shots
  import opened Selection
  import opened Pipeline
  import opened Seqs

  /** One pass of the legacy loop over `("matchesData", "matches")`:
      extract, parse, normalise, and accept only a non-empty result. A parse
      or iteration error is swallowed. The source answers exactly when the
      block parses to a list holding a record whose id converts, and then
      with every convertible record of that list. */
  function LegacyMatches(codec: Codec, t: string, key: string): (r: Option<seq<MatchInfo>>)
    ensures r.Some? ==> |r.value| > 0
    ensures r.Some? ==> TruthyText(BlockLenient(codec, t, key))
    ensures var j := ParsedText(codec, BlockLenient(codec, t, key));
            r.Some? <==> j.Some? && j.value.JArr? && HasGoodId(j.value.elems)
    ensures var j := ParsedText(codec, BlockLenient(codec, t, key));
            r.Some? ==> r.value == NormalizeMatches(j.value.elems)
  {
    var data := BlockLenient(codec, t, key);
    if !TruthyText(data) then None
    else
      match codec.loads(data.value)
      case None => None
      case Some(j) =>
        NormalizeMatchesJsonNonEmpty(j);
        match NormalizeMatchesJson(j)
        case None => None
        case Some(norm) => if |norm| > 0 then Some(norm) else None
  }

  /** The node the Nuxt fallback searches out with `p`: the first match of
      the full pre-order list, in a present and truthy document. */
  function NuxtContainer(codec: Codec, t: string, p: Json -> bool): (r: Option<Json>)
    ensures r.Some? ==> NuxtDocument(codec, t).Some? && p(r.value)
  {
    match NuxtDocument(codec, t)
    case None => None
    case Some(nuxt) => if Truthy(nuxt) then FindFirstViaAll(nuxt, p) else None
  }

  /** The Nuxt fallback for the league page: it answers exactly when the
      list found holds a record whose id converts. */
  function NuxtMatches(codec: Codec, t: string): (r: Option<seq<MatchInfo>>)
    ensures r.Some? ==> |r.value| > 0
    ensures var c := NuxtContainer(codec, t, LooksLikeMatches);
            r.Some? <==> c.Some? && HasGoodId(c.value.elems)
    ensures var c := NuxtContainer(codec, t, LooksLikeMatches);
            r.Some? ==> r.value == NormalizeMatches(c.value.elems)
  {
    match NuxtDocument(codec, t)
    case None => None
    case Some(nuxt) =>
      if !Truthy(nuxt) then None
      else
        match FindFirstViaAll(nuxt, LooksLikeMatches)
        case None => None
        case Some(found) =>
          if !found.JArr? then None
          else
            var norm := NormalizeMatches(found.elems);
            NormalizeMatchesNonEmpty(found.elems);
            if |norm| > 0 then Some(norm) else None
  }

  /** `fetch_league_matches`; `page` is `None` when `_get` gave up. */
  function FetchLeagueMatches(codec: Codec, page: Option<string>): (r: Result<seq<MatchInfo>, FetchError>)
    ensures page.None? <==> r == Failure(PageUnavailable)
    ensures r.Success? ==> |r.value| > 0
    ensures page.Some? && LegacyMatches(codec, page.value, "matchesData").Some?
            ==> r == Success(LegacyMatches(codec, page.value, "matchesData").value)
    ensures page.Some? && LegacyMatches(codec, page.value, "matchesData").None?
            && LegacyMatches(codec, page.value, "matches").Some?
            ==> r == Success(LegacyMatches(codec, page.value, "matches").value)
    ensures page.Some? && LegacyMatches(codec, page.value, "matchesData").None?
            && LegacyMatches(codec, page.value, "matches").None? && NuxtMatches(codec, page.value).Some?
            ==> r == Success(NuxtMatches(codec, page.value).value)
    ensures page.Some? && r.Failure? ==> r.error == FormatNotRecognised
                                         && LegacyMatches(codec, page.value, "matchesData").None?
                                         && LegacyMatches(codec, page.value, "matches").None?
                                         && NuxtMatches(codec, page.value).None?
  {
    match page
    case None => Failure(PageUnavailable)
    case Some(t) =>
      match LegacyMatches(codec, t, "matchesData")
      case Some(norm) => Success(norm)
      case None =>
        match LegacyMatches(codec, t, "matches")
        case Some(norm) => Success(norm)
        case None =>
          match NuxtMatches(codec, t)
          case Some(norm) => Success(norm)
          case None => Failure(FormatNotRecognised)
  }

  /** The league sources in the order `fetch_league_matches` tries them. */
  function LeagueSources(codec: Codec, t: string): (s: seq<Option<seq<MatchInfo>>>)
    ensures |s| == 3
  {
    [LegacyMatches(codec, t, "matchesData"), LegacyMatches(codec, t, "matches"), NuxtMatches(codec, t)]
  }

  /** The league fetch answers with the first source that yields a
      non-empty list, and fails only when all three give nothing. */
  lemma FetchLeagueMatchesIsFirstSource(codec: Codec, t: string)
    ensures FetchLeagueMatches(codec, Some(t))
            == (match FirstSome(LeagueSources(codec, t))
                case Some(ms) => Success(ms)
                case None => Failure(FormatNotRecognised))
  {
    FirstSomeOfThree(LegacyMatches(codec, t, "matchesData"), LegacyMatches(codec, t, "matches"), NuxtMatches(codec, t));
  }

  /** The legacy `shotsData` source, accepted only with at least one row:
      it answers exactly when the block parses to a dict one of whose sides
      is a list holding a record that converts, and then with the
      list-checked rows of that dict. */
  function LegacyShots(codec: Codec, matchId: int, t: string): (r: Option<seq<ShotRow>>)
    ensures r.Some? ==> |r.value| > 0
    ensures var j := ParsedText(codec, BlockLenient(codec, t, "shotsData"));
            r.Some? <==> j.Some? && j.value.JObj?
                         && (SideHasShot(j.value.members, "h") || SideHasShot(j.value.members, "a"))
    ensures var j := ParsedText(codec, BlockLenient(codec, t, "shotsData"));
            r.Some? ==> r.value == NormalizeShotsChecked(matchId, j.value).value
  {
    var data := BlockLenient(codec, t, "shotsData");
    if !TruthyText(data) then None
    else
      match codec.loads(data.value)
      case None => None
      case Some(j) =>
        match NormalizeShotsChecked(matchId, j)
        case None => None
        case Some(rows) =>
          CheckedRowsNonEmpty(matchId, j.members);
          if |rows| > 0 then Some(rows) else None
  }

  /** The Nuxt fallback for a match page: it answers exactly when one side
      of the container found holds a record that converts, and then with
      the list-checked rows of that container. */
  function NuxtShots(codec: Codec, matchId: int, t: string): (r: Option<seq<ShotRow>>)
    ensures r.Some? ==> |r.value| > 0
    ensures var c := NuxtContainer(codec, t, LooksLikeShots);
            r.Some? <==> c.Some? && (SideHasShot(c.value.members, "h") || SideHasShot(c.value.members, "a"))
    ensures var c := NuxtContainer(codec, t, LooksLikeShots);
            r.Some? ==> r.value == NormalizeShotsChecked(matchId, c.value).value
  {
    match NuxtDocument(codec, t)
    case None => None
    case Some(nuxt) =>
      if !Truthy(nuxt) then None
      else
        match FindFirstViaAll(nuxt, LooksLikeShots)
        case None => None
        case Some(found) =>
          match NormalizeShotsChecked(matchId, found)
          case None => None
          case Some(rows) =>
            CheckedRowsNonEmpty(matchId, found.members);
            if |rows| > 0 then Some(rows) else None
  }

  /** `fetch_match_shots`: legacy first, then Nuxt, rows required. */
  function FetchMatchShots(codec: Codec, matchId: int, page: Option<string>): (r: Result<seq<ShotRow>, FetchError>)
    ensures page.None? <==> r == Failure(PageUnavailable)
    ensures r.Success? ==> |r.value| > 0 && forall k :: 0 <= k < |r.value| ==> r.value[k].matchId == matchId
    ensures page.Some? && LegacyShots(codec, matchId, page.value).Some?
            ==> r == Success(LegacyShots(codec, matchId, page.value).value)
    ensures page.Some? && LegacyShots(codec, matchId, page.value).None? && NuxtShots(codec, matchId, page.value).Some?
            ==> r == Success(NuxtShots(codec, matchId, page.value).value)
    ensures page.Some? && r.Failure? ==> r.error == FormatNotRecognised
                                         && LegacyShots(codec, matchId, page.value).None?
                                         && NuxtShots(codec, matchId, page.value).None?
  {
    match page
    case None => Failure(PageUnavailable)
    case Some(t) =>
      match LegacyShots(codec, matchId, t)
      case Some(rows) =>
        LegacyShotsLabelled(codec, matchId, t);
        Success(rows)
      case None =>
        match NuxtShots(codec, matchId, t)
        case Some(rows) =>
          NuxtShotsLabelled(codec, matchId, t);
          Success(rows)
        case None => Failure(FormatNotRecognised)
  }

  /** The match sources in the order `fetch_match_shots` tries them. */
  function ShotSources(codec: Codec, matchId: int, t: string): (s: seq<Option<seq<ShotRow>>>)
    ensures |s| == 2
  {
    [LegacyShots(codec, matchId, t), NuxtShots(codec, matchId, t)]
  }

  /** The match fetch answers with the first source that yields rows, and
      fails only when neither does. */
  lemma FetchMatchShotsIsFirstSource(codec: Codec, matchId: int, t: string)
    ensures FetchMatchShots(codec, matchId, Some(t))
            == (match FirstSome(ShotSources(codec, matchId, t))
                case Some(rows) => Success(rows)
                case None => Failure(FormatNotRecognised))
  {
    FirstSomeOfTwo(LegacyShots(codec, matchId, t), NuxtShots(codec, matchId, t));
  }

  lemma LegacyShotsLabelled(codec: Codec, matchId: int, t: string)
    requires LegacyShots(codec, matchId, t).Some?
    ensures forall k :: 0 <= k < |LegacyShots(codec, matchId, t).value| ==>
      LegacyShots(codec, matchId, t).value[k].matchId == matchId
  {
  }

  lemma NuxtShotsLabelled(codec: Codec, matchId: int, t: string)
    requires NuxtShots(codec, matchId, t).Some?
    ensures forall k :: 0 <= k < |NuxtShots(codec, matchId, t).value| ==>
      NuxtShots(codec, matchId, t).value[k].matchId == matchId
  {
  }

  /** The per-match fetch `main` runs for each selected id. */
  function ShotFetcher(codec: Codec, matchPage: int -> Option<string>): (f: ShotFetch)
    ensures forall id :: f(id) == FetchMatchShots(codec, id, matchPage(id))
  {
    id => FetchMatchShots(codec, id, matchPage(id))
  }

  /** `main`, with the pages as inputs: `leaguePage` for the season and
      `matchPage(id)` for each match. */
  function Main(codec: Codec, leaguePage: Option<string>, matchPage: int -> Option<string>, opts: Options): (r: Result<Report, RunError>)
    ensures leaguePage.None? ==> r == Failure(LeagueFailed(PageUnavailable))
    ensures r.Failure? && r.error.LeagueFailed? ==> r.error.cause != UnescapeFailed
    ensures r.Success? ==> |r.value.rows| > 0
  {
    Run(FetchLeagueMatches(codec, leaguePage), opts, ShotFetcher(codec, matchPage))
  }

  /** Every row in the table is labelled with a match that was selected. */
  lemma MainRowsBelongToSelected(codec: Codec, leaguePage: Option<string>, matchPage: int -> Option<string>, opts: Options, row: ShotRow)
    requires Main(codec, leaguePage, matchPage, opts).Success?
    requires row in Main(codec, leaguePage, matchPage, opts).value.rows
    ensures FetchLeagueMatches(codec, leaguePage).Success?
    ensures var selected := Select(FetchLeagueMatches(codec, leaguePage).value, opts);
      selected.Success? && exists k :: 0 <= k < |selected.value| && selected.value[k].id == row.matchId
  {
    RunRowsBelongToSelected(FetchLeagueMatches(codec, leaguePage), opts, ShotFetcher(codec, matchPage), row);
  }
}

=== FILE: variants.dfy ===
/** Where scripts/understat_shots.py and scripts/fetch_understat.py agree
    and where they part: whether an empty result is accepted, whether an
    unescape error is swallowed, whether a side is list-checked, and how
    the first deep-search hit is found. */
module Variants {
  import opened Wrappers
  import opened JsonTree
  import opened Externals
  import opened Extract
  import opened DeepSearch
  import opened Matches
  import opened Shots
  import US = UnderstatShots
  import FU = FetchUnderstat

  /** The unescape codec does not raise on the `key` block, if there is one. */
  predicate UnescapeOk(codec: Codec, t: string, key: string) {
    Search(t, JsonParseCall(key)).None? || codec.unescape(Search(t, JsonParseCall(key)).value).Some?
  }

  /** An empty legacy shot container `{"h": [], "a": []}` on a page
      without a Nuxt blob: one script reports a match with no shots, the
      other reports that the format was not recognised. */
  lemma EmptyShotContainerDisagrees(codec: Codec, matchId: int, t: string)
    requires UnescapeOk(codec, t, "shotsData")
    requires TruthyText(BlockLenient(codec, t, "shotsData"))
    requires codec.loads(BlockLenient(codec, t, "shotsData").value) == Some(JObj([("h", JArr([])), ("a", JArr([]))]))
    requires NuxtDocument(codec, t).None?
    ensures FU.FetchMatchShots(codec, matchId, Some(t)) == Success([])
    ensures US.FetchMatchShots(codec, matchId, Some(t)) == Failure(FormatNotRecognised)
  {
    var j := JObj([("h", JArr([])), ("a", JArr([]))]);
    EmptyContainerGivesNoRows(matchId);
    BlockVariantsAgree(codec, t, "shotsData");
    assert FU.LegacyShots(codec, matchId, t) == Success(Some([]));
    assert US.LegacyShots(codec, matchId, t) == None;
    assert US.NuxtShots(codec, matchId, t) == None;
  }

  lemma EmptyContainerGivesNoRows(matchId: int)
    ensures NormalizeShotsUnchecked(matchId, JObj([("h", JArr([])), ("a", JArr([]))])) == Some([])
    ensures NormalizeShotsChecked(matchId, JObj([("h", JArr([])), ("a", JArr([]))])) == Some([])
  {
    var ms := [("h", JArr([])), ("a", JArr([]))];
    assert SideValue(ms, "h") == JArr([]) && SideValue(ms, "a") == JArr([]);
    var e: seq<ShotRow> := [];
    assert SideRows(matchId, []) == e;
    assert UncheckedSide(matchId, ms, "h") == Some(e);
    assert UncheckedSide(matchId, ms, "a") == Some(e);
    assert CheckedSide(matchId, ms, "h") == e;
    assert CheckedSide(matchId, ms, "a") == e;
    assert e + e == e;
  }

  /** When the legacy container yields rows and the unchecked normaliser
      returns, both scripts return the same rows. */
  lemma LegacyShotsAgree(codec: Codec, matchId: int, t: string)
    requires UnescapeOk(codec, t, "shotsData")
    requires FU.LegacyShots(codec, matchId, t).Success? && FU.LegacyShots(codec, matchId, t).value.Some?
    requires |FU.LegacyShots(codec, matchId, t).value.value| > 0
    ensures US.FetchMatchShots(codec, matchId, Some(t)) == FU.FetchMatchShots(codec, matchId, Some(t))
  {
    BlockVariantsAgree(codec, t, "shotsData");
    var j := codec.loads(BlockLenient(codec, t, "shotsData").value).value;
    ShotVariantsAgree(matchId, j);
  }

  /** A JSON.parse block the codec cannot unescape: one script gives up
      on the match, the other goes on with the raw capture. */
  lemma UnescapeFailureDisagrees(codec: Codec, matchId: int, t: string)
    requires Search(t, JsonParseCall("shotsData")).Some?
    requires codec.unescape(Search(t, JsonParseCall("shotsData")).value).None?
    ensures FU.FetchMatchShots(codec, matchId, Some(t)) == Failure(UnescapeFailed)
    ensures BlockLenient(codec, t, "shotsData") == Search(t, JsonParseCall("shotsData"))
  {
    var h := SearchFrom(t, JsonParseCall("shotsData"), 0).value;
    JsonParseCaptureShape(t, "shotsData", h.at);
  }

  /** A `matchesData` block holding an empty list: one script returns no
      matches, the other moves on to `matches` and Nuxt, and can only
      succeed with a non-empty list. */
  lemma EmptyMatchListDisagrees(codec: Codec, t: string)
    requires UnescapeOk(codec, t, "matchesData")
    requires TruthyText(BlockLenient(codec, t, "matchesData"))
    requires codec.loads(BlockLenient(codec, t, "matchesData").value) == Some(JArr([]))
    ensures FU.FetchLeagueMatches(codec, Some(t)) == Success([])
    ensures US.LegacyMatches(codec, t, "matchesData").None?
    ensures US.FetchLeagueMatches(codec, Some(t)) != Success([])
  {
    BlockVariantsAgree(codec, t, "matchesData");
    assert NormalizeMatches([]) == [];
  }

  /** Once `matchesData` yields text, fetch_understat.py never reads
      `matches`: changing what `matches` would give changes nothing. */
  lemma MatchesKeyIgnoredAfterMatchesData(codec: Codec, t: string)
    requires BlockStrict(codec, t, "matchesData").Success?
    requires TruthyText(BlockStrict(codec, t, "matchesData").value)
    ensures FU.LeagueBlock(codec, t) == BlockStrict(codec, t, "matchesData")
  {
  }

  /** With a non-empty normalised list, the legacy league sources agree. */
  lemma LegacyMatchesAgree(codec: Codec, t: string)
    requires UnescapeOk(codec, t, "matchesData")
    requires TruthyText(BlockLenient(codec, t, "matchesData"))
    requires US.LegacyMatches(codec, t, "matchesData").Some?
    ensures FU.FetchLeagueMatches(codec, Some(t)) == US.FetchLeagueMatches(codec, Some(t))
  {
    BlockVariantsAgree(codec, t, "matchesData");
  }

  /** The Nuxt league fallbacks find the same list; the first script
      additionally rejects it when it normalises to nothing. */
  lemma NuxtMatchesVariants(codec: Codec, t: string)
    ensures US.NuxtMatches(codec, t)
            == (if FU.NuxtMatches(codec, t).Some? && |FU.NuxtMatches(codec, t).value| > 0
                then FU.NuxtMatches(codec, t) else None)
  {
    if NuxtDocument(codec, t).Some? {
      ShapePredicatesRejectNull();
      FindFirstVariantsAgree(NuxtDocument(codec, t).value, LooksLikeMatches);
    }
  }

  /** The same for the Nuxt shot fallbacks. */
  lemma NuxtShotsVariants(codec: Codec, matchId: int, t: string)
    ensures US.NuxtShots(codec, matchId, t)
            == (if FU.NuxtShots(codec, matchId, t).Some? && |FU.NuxtShots(codec, matchId, t).value| > 0
                then FU.NuxtShots(codec, matchId, t) else None)
  {
    if NuxtDocument(codec, t).Some? {
      var nuxt := NuxtDocument(codec, t).value;
      ShapePredicatesRejectNull();
      FindFirstVariantsAgree(nuxt, LooksLikeShots);
      var found := FindFirstEarly(nuxt, LooksLikeShots);
      if found.Some? {
        FU.ShotContainerIterates(matchId, found.value);
        ShotVariantsAgree(matchId, found.value);
      }
    }
  }
}

=== FILE: wrappers.dfy ===
/** Failure-compatible wrappers used throughout the model: `Option` stands for
    Python's "value or None" and `Result` for "value or raised exception". */
module Wrappers {

  datatype Option<+T> = None | Some(value: T) {

    predicate IsFailure() {
      None?
    }

    function PropagateFailure<U>(): Option<U>
      requires None?
    {
      None
    }

    function Extract(): T
      requires Some?
    {
      value
    }

    function GetOr(default: T): T {
      match this
      case Some(v) => v
      case None => default
    }
  }

  datatype Result<+T, +E> = Success(value: T) | Failure(error: E) {

    predicate IsFailure() {
      Failure?
    }

    function PropagateFailure<U>(): Result<U, E>
      requires Failure?
    {
      Failure(error)
    }

    function Extract(): T
      requires Success?
    {
      value
    }
  }
}
